=== FILE: README.md ===
# cuply greenhouse controller — a Dafny model

cuply runs a greenhouse from a single microcontroller on a serial line. In the backend, each
device (an analog sensor, an I2C sensor, a digital actuator or a PWM servo) owns a small state
machine, and its state is stored in the device's `blob`. An event loop reads the sensors, takes
the median of the last three samples, and drives the state machines. Sensors fan their changes
out to their child actuators. Root actuators follow a time-of-day window. The loop also stores
periodic snapshots for the trend graphs. The frontend is a React/Redux application. Its
reducers keep the fetched lists and tokens, and a few helpers format dates, escape the plant
search and compute the graph's vertical extent.

The model has one module per source file:

| module | models |
|---|---|
| `Wrappers`, `Numerals` | `Option`/`Result`; Python's `str()`/`int()` on decimal text |
| `Choices` | the class names, categories and allowed state blobs |
| `Utils` | `invert_analog_value`, `normalize_value` |
| `Models` | `Device` validation (`clean`, field checks, `full_clean`), `save`, `get_kind` |
| `Signals` | the queue events of `post_save`/`post_delete`, and cascading deletion |
| `Serializers` | the device serializer: initial blob on create, field filtering, `parent` name |
| `Fsm` | the four machines as one transition table, serialisation, child fan-out, `read_value` |
| `Arduino` | the serial protocol: the "w" ready handshake, the command tokens, replies |
| `Mixins` | the microcontroller's start/stop/restart/flush and device reads and writes |
| `LoopManager` | `GreenHouseManager`: readings, median filter, input rules, snapshots, one loop tick |
| `Json` | the JavaScript values the frontend handles: `===`, `String(v)`, object spread |
| `Reducers` | every reducer of `reducers.js` |
| `PlantForm` | `escapeRegexCharacters`, `getSuggestionValue`, `getSuggestions` |
| `Dates` | the proleptic Gregorian calendar on local day numbers |
| `Graph` | `getFilterDate` and the y-domain of `createGraph` |
| `TrendsPage` | `getCurrentDate` and `navigate` |

Effects are modelled explicitly:

- A serial port is a value: the lines still to be read and the tokens written so far. Reading
  from a port with nothing left is `Hung`, because the source's `readline` blocks forever.
- Exceptions are `Raised`/`Err`/`None` results.
- The clock is a parameter (`now`, in microseconds).
- Sensor samples come from a `Sampler` function parameter.
- The device table is a sequence of devices.
- The signal queue is a sequence of events.

## Model

| member | source | states |
|---|---|---|
| Choices.ParseClass | backend/common/choices.py:11-15 | a class name parses exactly when it is one of the four stored values, and parses back to that value |
| Choices.StateNames | backend/common/choices.py:32-53 | each class's allowed blobs are exactly the one-key blobs of its state names, in order |
| Choices.AllowedBlobShape | backend/common/choices.py:32-53 | every allowed blob has the single key "state", and its value is one of the class's state names |
| Choices.SensorStateLists | backend/common/choices.py:32-53 | both sensor classes share the five-level list with "medium" in the middle; the actuator lists start at "off" and "closed"; there are four classes and three categories |
| Numerals.Str | backend/arduino/arduino.py:71 | `str(n)` is a minus sign for a negative number followed by the digits of its magnitude, without leading zeros |
| Numerals.ParseInt | backend/common/mixins.py:47-51 | `int(s)` succeeds exactly on optionally signed decimal digits between white space, and gives their signed value |
| Numerals.ParseStr | backend/arduino/arduino.py:71 | reading back what `str(n)` printed gives `n` |
| Utils.InvertAnalogValue | backend/common/utils.py:15-16 | the inverted reading is non-negative exactly when the input is at most 1023, and a 10-bit reading stays in 0..1023 |
| Utils.InvertInvolution | backend/common/utils.py:15-16 | inverting twice gives the reading back |
| Utils.Clamp | backend/common/utils.py:2-6 | the value is limited to the original range and left alone inside it |
| Utils.NormalizeValue | backend/common/utils.py:1-13 | the result lies in [lower, upper], and a reading at or above the original maximum maps to `upper` |
| Utils.RescaleBound | backend/common/utils.py:8-11 | a value clamped into [0, original maximum] rescales into [lower, upper], and the maximum itself lands on `upper` |
| Utils.NormalizeMonotone | backend/common/utils.py:1-13 | normalisation never reverses the order of two readings |
| Utils.NormalizeExamples | backend/common/utils.py:1-13 | readings below the original minimum are raised to it first, and the scale is the fraction of the original maximum |
| Utils.Trunc | backend/common/models.py:145 | storing a median in the integer `value` column truncates toward zero |
| Models.DefaultBlob | backend/common/models.py:30-31 | a new device's default blob is the middle sensor state "medium" |
| Models.ValidateAttrCompatible | backend/common/models.py:34-38 | a name passes exactly when it is an identifier and not a keyword, so never empty or starting with a digit; a failure names the value |
| Models.AttrCompatibleExamples | backend/common/models.py:34-38 | keywords, names starting with a digit and the empty name are refused; ordinary identifiers pass |
| Models.GetKind | backend/common/models.py:78-84 | a device is a sensor exactly for the AnalogSensor and I2C classes, and an actuator otherwise |
| Models.CleanBlob | backend/common/models.py:89-104 | the blob check passes exactly when a known class's blob is one of its allowed blobs and a sensor's state is a threshold key; a disallowed blob is reported before a missing state |
| Models.Clean | backend/common/models.py:86-106 | `clean` passes exactly when the model invariant holds: a category for analog sensors, an allowed blob, a sensor state and the desired state in the thresholds; a missing category is reported first, then the blob checks' error, then the desired state |
| Models.CleanFields | backend/common/models.py:41-59 | the field checks pass exactly when the class and category are known choices, the name is non-blank, attribute-compatible and at most 50 characters, the pin and the non-blank desired state fit 50 characters, and a parent is stored; a blank class, an unknown class and a bad name are reported in column order |
| Models.FullClean | backend/common/models.py:108-110 | full validation passes exactly when the field checks, `clean` and name uniqueness all pass; the field error is reported first, then `clean`'s, then a taken name |
| Models.Save | backend/common/models.py:108-110 | a save succeeds exactly when full validation passes and the device is not moved under itself or a descendant; it inserts a new id or replaces the same id, keeps every other device, adds nothing but the saved device, and reports whether it created |
| Models.SelfParentRefused | backend/common/models.py:51 | a stored device whose parent is itself cannot be saved |
| Models.ChildParentRefused | backend/common/models.py:51 | a stored device cannot be saved under one of its own children |
| Models.SavePreservesStoreOk | backend/common/models.py:108-110 | saving keeps the table valid: every device clean, ids and names unique, parents present |
| Models.SaveKeepsParents | backend/common/models.py:108-110 | after a save every parent reference still names a stored device |
| Models.ParentsAfterSave | backend/common/models.py:108-110 | a table made of the saved device, whose parent exists, plus old rows keeps every parent reference resolvable |
| Signals.PostSave | backend/common/signals.py:11-13 | a save appends exactly one event for the device id: "created" on creation, "updated" otherwise |
| Signals.PostDelete | backend/common/signals.py:16-18 | a deletion appends exactly one "deleted" event for the id |
| Signals.SaveDevice | backend/common/signals.py:11-13 | a successful save stores the device and queues "updated" for a known id, "created" for a new one; a refused save queues nothing |
| Signals.Cascade | backend/common/models.py:51 | the removed ids contain the requested ids, only known ids besides, and every child of a removed device |
| Signals.CascadeLeast | backend/common/models.py:51 | the cascade is the least set holding the requested ids that is closed under children |
| Signals.DeletedEvents | backend/common/signals.py:16-18 | the deleted events are exactly one per removed row, so removed and kept rows add up to the table |
| Signals.Keep | backend/common/models.py:51 | the devices left are exactly those whose id was not removed |
| Signals.DeleteDevice | backend/common/signals.py:16-18 | a deletion keeps exactly the devices outside the cascade and appends one "deleted" event per removed row, in table order; the table and the queue together keep their size |
| Signals.DeletePreservesStoreOk | backend/common/models.py:51 | a cascading deletion keeps the table valid |
| Serializers.InitialBlob | backend/common/serializers.py:49-63 | a known class gets its machine's initial state as blob; an unknown class gets none |
| Serializers.Create | backend/common/serializers.py:49-67 | an unknown class is refused; then a sensor whose thresholds lack "medium"; then a desired state missing from the thresholds; past those checks the result is exactly the model's save of the new row, so a create succeeds exactly when the checks pass and that save does; the new row has the initial blob, no parent and the default 08:00-21:00 window, since `parent` is read-only and the window is not a serializer field |
| Serializers.CreatedStartsInitial | backend/common/serializers.py:49-67 | a created device restores to its class's initial machine |
| Serializers.FilterFields | backend/common/serializers.py:19-31 | the fields kept are exactly the existing ones that are also requested; with no request all are kept |
| Serializers.FilterFieldsIdempotent | backend/common/serializers.py:19-31 | filtering twice by the same request changes nothing more |
| Serializers.GetParent | backend/common/serializers.py:41-43 | a device without a parent has no parent name; otherwise the name is the parent device's |
| Fsm.Initial | backend/common/fsm.py:156-174 | each class has an initial state of that class |
| Fsm.InitialStates | backend/common/fsm.py:64-70 | the initial states are "off", "medium", "medium" and "closed", which are the blobs the serializer assigns |
| Fsm.Serialize | backend/common/fsm.py:49-51 | a machine serialises to the blob `{"state": <name of its state>}` |
| Fsm.SerializeAllowed | backend/common/fsm.py:49-51 | that blob is one of the blobs its class allows |
| Fsm.Restore | backend/common/fsm.py:53-61 | a restored machine has the blob's class and the state the blob names |
| Fsm.RestoreSerialize | backend/common/fsm.py:49-61 | restoring a serialised machine gives the same machine |
| Fsm.SerializeRestore | backend/common/fsm.py:49-61 | every allowed blob restores, and serialising the result gives back the blob |
| Fsm.Transition | backend/common/fsm.py:197-218 | a transition keeps the class; a query keeps the state and only reads; a real change saves first; a self-loop only reports; at most one fan-out per transition |
| Fsm.LevelsMoveOneStep | backend/common/fsm.py:317-338 | a sensor level moves exactly one step up or down per input and saturates at both ends |
| Fsm.ActuatorWrites | backend/common/fsm.py:73-91 | an actuator writes exactly when its state changes, and writes the new state's value (1 or 0 for a switch, 164 or 0 for a servo); it never fans out or notifies |
| Fsm.SensorNotifies | backend/common/fsm.py:197-218 | a sensor never writes; it notifies, with its name and new state, exactly when it enters "very_low" or "very_high" |
| Fsm.AnalogFanOut | backend/common/fsm.py:197-218 | an analog sensor drives its children exactly when it enters or leaves "medium": increase when it ends below "medium", decrease otherwise |
| Fsm.BusFanOut | backend/common/fsm.py:317-338 | an I2C sensor drives its children exactly when it leaves "high": increase on the way up to "very_high", decrease on the way down to "medium" |
| Fsm.Feed | backend/common/fsm.py:177-194 | feeding an input moves the machine as the table says, stores the new blob on the device, keeps the number of children, and leaves them alone unless there is a fan-out; the first output carries the new state |
| Fsm.FeedAllFeedsEachChild | backend/common/fsm.py:184-195 | a fan-out feeds the same input to every child: child `j` ends as feeding it alone would leave it, and the fan-out runs at least one output per child |
| Fsm.OutputsCover | backend/common/fsm.py:184-195 | steps that each run an output contribute at least one output apiece to the concatenated outputs |
| Fsm.NudgeReturnsNewState | backend/common/fsm.py:38-42 | `increase`/`decrease` return the state the machine is in afterwards |
| Fsm.SelfLoopOnlyReports | backend/common/fsm.py:86-88 | an input that leaves the state unchanged changes nothing and only reports the state |
| Fsm.QueryKeepsMachine | backend/common/fsm.py:89-91 | a query never changes the machine |
| Fsm.FeedConsistent | backend/common/fsm.py:38-42 | after any input, each machine's device blob still names the machine's state, all the way down the tree |
| Fsm.ReadValue | backend/common/fsm.py:129-138 | non-analog classes pass the reading through; temperature is the inverted reading normalised to 4..34; humidity is the truncated percentage of the inverted reading, within 0..97 for a 10-bit reading; other categories are just inverted |
| Fsm.TemperatureFalls | backend/common/fsm.py:129-138 | a larger raw reading never gives a higher temperature |
| Fsm.ReadValueExamples | backend/common/fsm.py:129-138 | worked conversions of the raw reading 100 for each category |
| Fsm.ChildrenOf | backend/common/fsm.py:12-17 | a machine's children are exactly the stored devices whose parent is this device |
| Fsm.Build | backend/common/models.py:72-76 | a built machine belongs to the device, starts in the state its blob names, and has one consistent child machine per stored child, in table order; an unknown class or blob cannot be built |
| Fsm.BuildAll | backend/common/models.py:72-76 | building a list of devices succeeds exactly when every device builds, and then gives each device's own machine, in order |
| Fsm.BuildSucceeds | backend/common/models.py:72-76 | a device whose class and blob are known, in a table whose rows all have known classes and blobs and whose children nest no deeper than the bound, always builds |
| Fsm.BuildAllSucceeds | backend/common/models.py:72-76 | a list of such stored devices always builds |
| Fsm.AcyclicShallow | backend/common/models.py:51 | in a table with unique ids and no parent cycle, no chain of children below a stored device is longer than the table, so the table-size bound never cuts the recursion short |
| Fsm.Query | backend/common/fsm.py:86-91 | `query_value` emits only `read_value` and leaves the machine as it was; it returns the raw reading for non-analog classes, a temperature within 4..34, and an inverted light reading |
| Fsm.GetFsm | backend/common/models.py:72-76 | `get_fsm` gives the device's machine in the state its blob names over its stored children's machines, in table order, and fails for an unknown class or blob |
| Fsm.GetFsmSucceeds | backend/common/models.py:72-76 | in a valid table without parent cycles, `get_fsm` succeeds for every stored device |
| Arduino.StripNewlines | backend/arduino/arduino.py:77 | stripping keeps a prefix of the line that does not end in a newline, and only newlines were removed |
| Arduino.StripFirst | backend/arduino/arduino.py:69 | after stripping, a line is empty exactly when it held only newlines, and otherwise its first character is unchanged |
| Arduino.GetData | backend/arduino/arduino.py:74-78 | one line is consumed and returned without trailing newlines; with no line left the read hangs |
| Arduino.WaitReadyOutcome | backend/arduino/arduino.py:68-70 | lines are consumed up to and including the first one that starts with "w" or strips to nothing, and every line before it is neither; it returns when that line starts with "w" and raises IndexError when it is blank; when every remaining line is neither, the wait hangs |
| Arduino.WaitedSkip | backend/arduino/arduino.py:69-70 | a line that is neither ready nor blank is skipped and waiting goes on with the next one |
| Arduino.SendDataReady | backend/arduino/arduino.py:68-72 | when the next line is a ready line, the token is written at once and that one line is consumed |
| Arduino.SendData | backend/arduino/arduino.py:68-72 | a token is written only after a ready line, exactly once |
| Arduino.SendAll | backend/arduino/arduino.py:68-72 | the tokens are written in order |
| Arduino.SendAllReady | backend/arduino/arduino.py:68-72 | given one ready line per token, all tokens are written and exactly those lines consumed |
| Arduino.Open | backend/arduino/arduino.py:8-10 | opening writes "99" and leaves the output pins unset |
| Arduino.Close | backend/arduino/arduino.py:86-88 | closing marks the port closed and returns true |
| Arduino.Output | backend/arduino/arduino.py:15-22 | the pin count is sent, then each pin, and the pins are remembered |
| Arduino.OutputReady | backend/arduino/arduino.py:15-22 | with enough ready lines, `output` succeeds with exactly those writes |
| Arduino.Command | backend/arduino/arduino.py:24-43 | a command writes its tokens and returns true |
| Arduino.Request | backend/arduino/arduino.py:45-61 | a request writes its tokens and then reads one reply |
| Arduino.CommandReady | backend/arduino/arduino.py:24-43 | with one ready line per token a command writes all its tokens and consumes exactly those lines |
| Arduino.RequestReadyFor | backend/arduino/arduino.py:45-61 | with one ready line per token a request writes its tokens and returns the next line, stripped |
| Arduino.SetHigh | backend/arduino/arduino.py:29-32 | `setHigh` writes "1" and the pin and returns True; with two ready lines it returns at once |
| Arduino.AnalogWrite | backend/arduino/arduino.py:39-43 | `analogWrite` writes "3", the pin and the value in decimal and returns True; with three ready lines it returns at once |
| Arduino.MoveServo | backend/arduino/arduino.py:54-57 | `moveServo` writes "6" and the value in decimal and returns True; with two ready lines it returns at once |
| Arduino.AnalogRead | backend/arduino/arduino.py:45-48 | `analogRead` writes "4" and the pin and returns the next reply line, stripped, once the board is ready |
| Arduino.I2cRead | backend/arduino/arduino.py:50-52 | `i2cRead` writes "5" and returns the next reply line, stripped, once the board is ready |
| Arduino.ReadServo | backend/arduino/arduino.py:59-61 | `readServo` writes "7" and returns the next reply line, stripped, once the board is ready |
| Arduino.RequestReady | backend/arduino/arduino.py:45-48 | given the ready lines and a reply, the reply is returned without trailing newlines |
| Arduino.GetState | backend/arduino/arduino.py:34-37 | the pin query writes "2" and the pin |
| Arduino.GetStateReady | backend/arduino/arduino.py:80-84 | a pin reads high exactly when the reply starts with "1" |
| Arduino.SetLow | backend/arduino/arduino.py:24-27 | `setLow` writes "0" and the pin and returns True; with two ready lines it returns at once, consuming just them |
| Arduino.SetLowTokens | backend/arduino/arduino.py:63-66 | turning off writes "0" followed by the pin, for each pin in order |
| Arduino.SetLowAll | backend/arduino/arduino.py:63-66 | setting every pin low writes "0" and the pin for each pin in order |
| Arduino.TurnOff | backend/arduino/arduino.py:63-66 | with no output pins registered, iteration raises TypeError; otherwise every registered pin is set low |
| Arduino.TurnOffReady | backend/arduino/arduino.py:63-66 | with two ready lines per pin, turning off succeeds with exactly those writes |
| Mixins.RegisterPins | backend/common/mixins.py:12-14 | the registered pins are exactly the non-empty pins of the devices, none empty |
| Mixins.RegisterPinsOne | backend/common/mixins.py:13 | one device contributes its pin exactly when the pin is not empty |
| Mixins.RegisterPinsAppend | backend/common/mixins.py:13 | the pins follow the device order: the pins of a concatenation are the concatenated pins |
| Mixins.RegisterDevices | backend/common/mixins.py:12-14 | registering sends the non-empty pins as the output pins |
| Mixins.Start | backend/common/mixins.py:16-20 | starting opens a fresh board (first write "99") with the device pins registered |
| Mixins.StartReady | backend/common/mixins.py:16-20 | with enough ready lines, starting succeeds and writes the handshake, the pin count and the pins |
| Mixins.Flush | backend/common/mixins.py:32-37 | flushing drops every unread input line and nothing else |
| Mixins.Stop | backend/common/mixins.py:26-30 | stopping forgets the board; a running board is flushed and closed; stopping a stopped controller does nothing |
| Mixins.Restart | backend/common/mixins.py:22-24 | a restart is the same as starting from a stopped controller: a new open port on the same path, with the handshake and the devices' pins registered |
| Mixins.WriteData | backend/common/mixins.py:55-65 | a write returns the value and sends the servo, analog or high/low command the class selects |
| Mixins.ParseReply | backend/common/mixins.py:42-53 | a reply is taken as an integer when it parses, and raises ValueError otherwise |
| Mixins.ReadData | backend/common/mixins.py:42-53 | a read writes the class's request: "7" for a servo, "5" for the bus sensor, "4" and the pin for an analog sensor, "2" and the pin for a switch (an analog read whose wait raised reads 0 with the request cut short); an analog read never raises; a switch reads 0 or 1; an unknown class reads nothing |
| Mixins.ReadParsedReady | backend/common/mixins.py:43-46 | on a ready board a servo or bus read writes its opcode and returns the reply's integer, and a reply that is not an integer raises ValueError uncaught |
| Mixins.ReadDigitalReady | backend/common/mixins.py:52-53 | on a ready board a switch read writes "2" and the pin and reads 1 exactly when the reply starts with '1', 0 otherwise, and an empty reply raises IndexError |
| Mixins.ReadAnalogReady | backend/common/mixins.py:47-51 | an analog reply is read as its integer, or 0 when it does not parse |
| Mixins.NewlineReadsZero | backend/common/mixins.py:47-51 | an empty analog reply reads as 0 |
| LoopManager.Median3 | backend/common/loop_manager.py:131-133 | the median is one of the three samples and lies between their minimum and maximum |
| LoopManager.MedianSymmetric | backend/common/loop_manager.py:131-133 | the median does not depend on the order of the samples |
| LoopManager.MedianRejectsOutlier | backend/common/loop_manager.py:131-133 | whatever the third sample, the median lies between the other two, so one outlier cannot move it outside them |
| LoopManager.SetupReading | backend/common/loop_manager.py:36-60 | a new reading holds the device's machine, one queried value in all five window and median slots, the blob's state and the current time; its parent is the parent device's name; a device without a machine or with a missing parent stops the loop, and a device whose machine builds and whose parent (if any) is stored always gives a reading |
| LoopManager.Setup | backend/common/loop_manager.py:36-60 | setup succeeds exactly when every device's reading can be set up, and then gives exactly those readings, one per device, in order and in step |
| LoopManager.SetupSucceeds | backend/common/loop_manager.py:36-60 | in a valid table without parent cycles, setting up readings for stored devices always succeeds |
| LoopManager.UpdateReading | backend/common/loop_manager.py:122-133 | the window shifts by one newly queried sample, the old median is kept, the new median is the median of the three samples, and nothing else changes |
| LoopManager.UpdateReadings | backend/common/loop_manager.py:122-133 | every reading is updated once, in place |
| LoopManager.Trend | backend/common/loop_manager.py:62-69 | up exactly when the median rose, down exactly when it fell, none when it stayed |
| LoopManager.CanProceed | backend/common/loop_manager.py:71-73 | a reading may act only when strictly more than two seconds have passed |
| LoopManager.WillStateChange | backend/common/loop_manager.py:75-80 | the state changes exactly when the median is outside the current state's closed range; a state without thresholds raises KeyError |
| LoopManager.TimeOfDay | backend/common/loop_manager.py:87 | the time of day lies within one day |
| LoopManager.WithinRange | backend/common/loop_manager.py:82-89 | open exactly when after <= now <= before; a missing `after` raises; a missing `before` raises only once `after <= now` holds |
| LoopManager.NightWindowNeverOpen | backend/common/loop_manager.py:82-89 | a window whose `after` is later than its `before` never opens |
| LoopManager.Perform | backend/common/fsm.py:38-42 | running a machine's outputs logs them all, queues one event per save, and fails only on a refused save; actuator writes are logged, not sent |
| LoopManager.PerformAppend | backend/common/fsm.py:38-42 | running two output lists is running the first and then, unless it failed, the second |
| LoopManager.PerformOne | backend/common/fsm.py:38-42 | one output: a `save_state` succeeds exactly when saving the device does and then leaves the table and queue that save gives; any other output is only logged; only a save can fail, with the save's error |
| LoopManager.Fire | backend/common/loop_manager.py:148-150 | firing an input runs the fed machine's outputs against the world: it succeeds exactly when they run, the world is what they leave, and their failure is its failure; the reading changes only in machine, state and timestamp, with the state in step with the machine |
| LoopManager.SensorRule | backend/common/loop_manager.py:144-154 | a sensor that may act raises KeyError without a threshold entry and stays put inside its range; out of range it raises on a missing window bound, stays put outside the window, and inside it fires `increase` on a rising median, `decrease` on a falling one, and only restamps on a flat one; non-sensors and waiting readings are untouched |
| LoopManager.ActuatorRule | backend/common/loop_manager.py:156-167 | a root actuator that may act is toggled inside its window when away from its desired state and outside its window when at it, and left alone otherwise; a missing window bound raises TypeError; other readings are untouched |
| LoopManager.ToggleInput | backend/common/loop_manager.py:162 | the toggle feeds `increase` exactly from the state "off", and `decrease` from any other |
| LoopManager.PwmRootNeverOpens | backend/common/loop_manager.py:162 | the rule only increases from "off", so a closed root servo is never opened by it |
| LoopManager.RulePass | backend/common/loop_manager.py:144-167 | a pass keeps every reading's identity and leaves earlier readings as they were |
| LoopManager.RulePassApplies | backend/common/loop_manager.py:144-167 | the pass from a position keeps the readings before it and is the reference pass on the rest: the first reading becomes the phase's rule applied to it in the current world, and the rest are passed over the world that step leaves |
| LoopManager.RulePassKeepsSynced | backend/common/loop_manager.py:144-167 | a pass keeps every reading's state in step with its machine |
| LoopManager.RunInputs | backend/common/loop_manager.py:136-167 | nothing happens within three seconds of the last run; otherwise the result is the sensor rule over every reading followed by the root-actuator rule over the result, with the input time set to now; it fails exactly when one of the passes does; readings keep their identity, and devices and snapshots are untouched |
| LoopManager.RunInputsKeepsSynced | backend/common/loop_manager.py:136-167 | the input rules keep every reading in step with its machine |
| LoopManager.UpdateDevices | backend/common/loop_manager.py:108-120 | with an empty queue nothing changes; otherwise one event is taken, the devices are reloaded from the table and the readings are exactly the setup of the whole table, failing exactly when that setup fails and with its error |
| LoopManager.FirstNamed | backend/common/loop_manager.py:186 | the reading found has the name and comes from the list; none is found only when no reading has the name |
| LoopManager.Snapshots | backend/common/loop_manager.py:184-191 | the lookup raises IndexError only when some sensor has no reading; every device having a reading means success |
| LoopManager.SnapshotsAreSensorRows | backend/common/loop_manager.py:184-191 | snapshotting succeeds exactly when every sensor has a reading, and then makes one row per sensor device in order, with the device id, the creation time and the truncated median of its first reading |
| LoopManager.SaveSnapshot | backend/common/loop_manager.py:177-191 | nothing happens within five minutes of the last snapshot; after that it stamps the current time and appends exactly the sensor rows, failing exactly when they fail, which aligned readings rule out; readings, devices and world are unchanged |
| LoopManager.Init | backend/common/loop_manager.py:19-34 | a new manager keeps the world and devices it is given, its readings are exactly the setup of those devices, it fails exactly when that setup fails and with its error, and it has both timestamps at the start time and no snapshots |
| LoopManager.StartAndRefreshSucceed | backend/common/loop_manager.py:19-34 | over a valid table without parent cycles, starting the manager on stored devices and reloading the devices after an event both succeed |
| LoopManager.Tick | backend/common/loop_manager.py:101-106 | one iteration moves each timer only to the current time, keeps every earlier snapshot, and reloads the devices exactly when an event was queued |
| LoopManager.TickKeepsInvariant | backend/common/loop_manager.py:101-106 | each loop iteration keeps the readings aligned with the devices and in step with their machines |
| LoopManager.SnapshotNeverFails | backend/common/loop_manager.py:177-191 | once the refresh and the input rules succeed, the whole iteration succeeds |
| Json.Member | frontend/src/routes/components/PlantForm.js:20-22 | reading a property raises exactly on `undefined` or `null`; a defined result is the object's own property |
| Json.Spread | frontend/src/reducers.js:122-125 | spreading copies an object's properties, an array's elements under their decimal indices, and nothing for other values |
| Reducers.Requesting | frontend/src/reducers.js:9-10 | a request sets `fetching` and clears the error, keeping everything else |
| Reducers.RequestIdempotent | frontend/src/reducers.js:142-143 | a repeated request changes nothing more |
| Reducers.Dashboard | frontend/src/reducers.js:1-18 | per action: request, success sets the structure, failure clears the structure and records the error; all other keys are kept; unknown actions return the state |
| Reducers.Profile | frontend/src/reducers.js:20-46 | per action: both requests, read success sets token and id, failures null the token (and id) and record the error, update and token update set the token; unknown actions return the state |
| Reducers.Login | frontend/src/reducers.js:90-110 | the initial state takes the stored tokens (null when absent); success sets both tokens and clears the error; failure empties both tokens and records the error; unknown actions return the state |
| Reducers.Trends | frontend/src/reducers.js:111-132 | success replaces only the series keyed by `String(device_id)` and raises exactly on a nullish payload; failure empties all series and records the error; unknown actions return the state |
| Reducers.TrendsKeepsOtherDevices | frontend/src/reducers.js:121-126 | a success for one device keeps every other device's series |
| Reducers.VerbNameNamed | frontend/src/reducers.js:140-169 | the nine list action names parse back to the action they name |
| Reducers.VerbOfIsType | frontend/src/reducers.js:140-169 | recognising a list action is the same as comparing its type with the spelled-out name |
| Reducers.Without | frontend/src/reducers.js:161-167 | the filter raises exactly when some item is nullish, and never grows the list |
| Reducers.WithoutAppend | frontend/src/reducers.js:161-167 | the filter keeps the surviving items in their original order |
| Reducers.WithoutMembers | frontend/src/reducers.js:161-167 | the survivors are exactly the items whose id is not `===` the deleted id |
| Reducers.WithoutRemovesMatches | frontend/src/reducers.js:202-208 | each item survives exactly when its id differs from the deleted id |
| Reducers.WithoutNoMatch | frontend/src/reducers.js:77-82 | with no matching id the list is kept whole |
| Reducers.Concat | frontend/src/reducers.js:150-156 | `concat` raises exactly on a list that is neither array nor string, and keeps the old items as a prefix |
| Reducers.ConcatAppends | frontend/src/reducers.js:191-197 | concatenating a non-array item appends exactly that item |
| Reducers.Appended | frontend/src/reducers.js:150-156 | a create success raises exactly when the list is neither array nor string; otherwise it sets the listed properties, appends a non-array item to an array list, and keeps every other property |
| Reducers.Removed | frontend/src/reducers.js:161-167 | a delete success raises exactly when the list is not an array or holds a nullish item; otherwise the list is the filtered one, the listed properties are set and every other property is kept |
| Reducers.RemoveAppended | frontend/src/reducers.js:150-167 | filtering out an appended item's id, which no earlier item carries, gives back the earlier items |
| Reducers.DeviceList | frontend/src/reducers.js:134-214 | for the sensor list and the actuator list alike, per action of the nine list actions: requests, read success/failure, create success appends and clears the error, delete success filters by id and clears the error, failures record the error; other actions return the state |
| Reducers.CreateThenDelete | frontend/src/reducers.js:150-167 | deleting the id of an item just created, when no older item has that id, restores the list |
| Reducers.Plants | frontend/src/reducers.js:48-88 | like the device lists, but a created plant records `remoteId` and neither create nor delete success clears the error; a create failure nulls `remoteId` |
| PlantForm.Escape | frontend/src/routes/components/PlantForm.js:17-19 | escaping adds exactly one character per metacharacter and is empty only for the empty query |
| PlantForm.EscapeRoundTrip | frontend/src/routes/components/PlantForm.js:17-19 | removing the inserted backslashes gives the query back |
| PlantForm.EscapeKeepsPlain | frontend/src/routes/components/PlantForm.js:17-19 | every character that is not a metacharacter passes through unchanged and in order |
| PlantForm.TrimBlank | frontend/src/routes/components/PlantForm.js:24-28 | the trimmed query is empty exactly when every character is white space |
| PlantForm.SuggestionValue | frontend/src/routes/components/PlantForm.js:20-22 | the suggestion's value is its `name`; a nullish suggestion raises |
| PlantForm.Suggestions | frontend/src/routes/components/PlantForm.js:23-35 | a blank query gives no suggestions; otherwise the result is `response.data` as it came, and the call raises exactly when the response is nullish, the data is not an array, or some element is nullish |
| Dates.CivilOf | frontend/src/routes/components/Graph.js:38-41 | every day number has a valid date whose day number is that day |
| Dates.CivilOfInjective | frontend/src/routes/Trends.js:78 | two days show the same date exactly when they are the same day |
| Dates.CivilOfDayNumber | frontend/src/routes/components/Graph.js:38-41 | every valid date is the date of its own day number |
| Dates.CivilOfNext | frontend/src/routes/Trends.js:73 | the day after has the next calendar date, rolling over months and years |
| Dates.Pad2 | frontend/src/routes/components/Graph.js:39-42 | a day or month prints as exactly two digits |
| Dates.ParsePad2 | frontend/src/routes/components/Graph.js:39-42 | a padded field reads back as its number |
| Graph.FilterDate | frontend/src/routes/components/Graph.js:37-44 | the filter is the year, "-", the two-digit month, "-", the two-digit day |
| Graph.FilterDateRoundTrip | frontend/src/routes/components/Graph.js:37-44 | reading the filter back gives the day shown |
| Graph.SortAscending | frontend/src/routes/components/Graph.js:46 | the sort gives the same values in ascending order |
| Graph.YDomain | frontend/src/routes/components/Graph.js:46-49 | with no values both ends are undefined; otherwise both ends are values and every value lies between them |
| TrendsPage.CurrentDate | frontend/src/routes/Trends.js:60-68 | the header is the two-digit day, ".", the two-digit month, ".", the year, "." |
| TrendsPage.CurrentDateRoundTrip | frontend/src/routes/Trends.js:60-68 | reading the header back gives the day shown |
| TrendsPage.Initial | frontend/src/routes/Trends.js:32-35 | the page opens on today with "next" disabled, the view a step back and forward again returns to |
| TrendsPage.Navigate | frontend/src/routes/Trends.js:69-81 | "next" moves one day forward, "previous" one day back, anything else stays; "next" is enabled exactly when the new day is not today |
| TrendsPage.NavigateFollowsCalendar | frontend/src/routes/Trends.js:72-76 | forward shows the next calendar date and back shows the previous one |
| TrendsPage.NavigateBackAndForth | frontend/src/routes/Trends.js:69-81 | forward then back returns to the same day, with "next" recomputed against today |

## Left out

- Serial I/O itself, baud rates, the one-second and two-second sleeps, and the DTR toggling in `flush`. The port is an explicit value.
- The Telegram message of `notify_user`. It appears only as an output named in the transition table.
- `communicate_state` and the websocket layer.
- The `automat` machinery, `setattr` of children, `globals()` lookup of the class: one closed transition table replaces them.
- The MPTT tree order: the tree manager lists roots by name with their children under them, and children by name; the model keeps table rows in insertion order, a new row in front, and children come in table order.
- The order of Django's cascade deletion events: deleted events come in table order.
- `int()` forms that Python accepts beyond optional sign, digits and surrounding white space, such as underscores.
- Using the controller before `start` (an AttributeError in the source).
- More than one microcontroller: every device talks to the one board given.
- `timezone.now()` is called several times per step in the source; each model step reads one `now`.
- Utils.NormalizeValue: the unused `round_value` flag is not modelled, and the function requires a non-zero original maximum; the source raises ZeroDivisionError there, which no caller reaches because every caller uses 1023.
- Fsm.Build: recursion over children is bounded by fuel equal to the table size, so a cyclic parent chain builds nothing rather than recursing forever. Under `Models.Acyclic` the bound is never reached and `get_fsm` succeeds for every stored device (`Fsm.GetFsmSucceeds`). Saving refuses a move under the device itself or a descendant, but no lemma shows that saving keeps a table acyclic.
- Models.StoreOk: the table invariant does not include acyclicity of the parent links; `Models.Acyclic` is a separate hypothesis of the success lemmas, for the reason above.
- LoopManager.Perform: actuator writes produced inside the loop (`make_off`, `make_on`, `make_closed` and `make_opened`, backend/common/fsm.py:75, 79, 407 and 411) are only logged. They are never sent to the board, so in the model they can neither fail with IndexError nor block on the serial line. `Mixins.WriteData` models the write itself.
- Backend floating point: the normalised value, the converted reading, the median and the threshold comparisons are exact rationals in `Utils.NormalizeValue`, `Fsm.ReadValue`, `LoopManager.Median3` and the rules; rounding of Python floats is not modelled.
- Views, the admin, filtersets, consumers, URL routing, users and profiles on the backend.
- Frontend numbers are integers: floating point values, NaN and non-number values in the graph are left out, and `createGraph` gets the already mapped `item.value` list.
- Object identity: two arrays or objects are never `===`, since every one from an action or a response is a distinct reference. Object key order is not modelled.
- The `localStorage` writes of the login reducer; the stored tokens it reads are parameters.
- Dates are whole local days. `toLocaleDateString` is taken to identify the calendar date; time of day, time zones and daylight saving are left out.
- The regular expression that `getSuggestions` builds and tests. Its result is discarded, so only the errors raised while computing it are modelled.
- React rendering, d3 drawing, sagas, the API client and debouncing.
- Models.FullClean: Django collects the errors of every column, of `clean` and of the uniqueness check into one exception; the model reports only the first in checking order, so it agrees with the source on whether a save passes but names one error.
- Models.IsIdentifier: `str.isidentifier` also accepts non-ASCII letters; the model accepts ASCII letters, digits and the underscore only.
- Models.CleanFields: the `description`, `unit`, `image`, `microcontroller` and time columns are not modelled, nor the length limit of the class and category columns, which any valid choice meets.
- LoopManager.Sampler: the sampler never fails; in the source an I2C or servo reply that is not an integer raises ValueError and a read can block on the serial line. The serial reads themselves are modelled in `Mixins.ReadData`.

=== FILE: arduino.dfy ===
/**
 * The serial protocol spoken to the microcontroller. The port is a log of written tokens plus the
 * lines the board will send back; every token waits for a line starting with 'w' first.
 */
module Arduino {
  import opened Wrappers
  import Numerals

  /**
   * `written` is every token sent so far, `input` the lines `readline` will return next,
   * `outputPins` the list recorded by `output` (`None` is the class default `-1`).
   */
  datatype Port = Port(written: seq<string>, input: seq<string>, outputPins: Option<seq<string>>, isOpen: bool)

  datatype Fault = IndexError | TypeError | ValueError

  /** A call's outcome: it returns, raises, or blocks forever on a `readline` with no more lines. */
  datatype Io<T> = Done(port: Port, value: T) | Raised(port: Port, fault: Fault) | Hung

  /**
   * `rstrip('\n')`: every trailing newline removed. The result is the longest prefix that does
   * not end in a newline and is followed only by newlines.
   */
  function StripNewlines(s: string): (r: string)
    ensures |r| <= |s| && r == s[..|r|]
    ensures r == [] || r[|r| - 1] != '\n'
    ensures forall i :: |r| <= i < |s| ==> s[i] == '\n'
    decreases |s|
  {
    if s == [] || s[|s| - 1] != '\n' then s
    else
      var t := s[..|s| - 1];
      var r := StripNewlines(t);
      assert t[..|r|] == s[..|r|];
      r
  }

  /** A line the board sends when it is ready: it starts with 'w'. */
  predicate StartsReady(line: string) {
    |line| > 0 && line[0] == 'w'
  }

  /** A line of newlines only, which stripping empties. */
  predicate Blank(line: string) {
    forall i :: 0 <= i < |line| ==> line[i] == '\n'
  }

  /** Stripping empties exactly the blank lines and keeps the first character of any other. */
  lemma StripFirst(s: string)
    ensures StripNewlines(s) == [] <==> Blank(s)
    ensures StripNewlines(s) != [] ==> StripNewlines(s)[0] == s[0]
  {
  }

  /** `__getData`: one line, trailing newlines stripped. */
  function GetData(p: Port): (r: Io<string>)
    ensures p.input == [] <==> r.Hung?
    ensures r.Done? ==> r.port == p.(input := p.input[1..]) && r.value == StripNewlines(p.input[0])
    ensures !r.Raised?
  {
    if p.input == [] then Hung else Done(p.(input := p.input[1..]), StripNewlines(p.input[0]))
  }

  /**
   * What waiting on `p` ends in. It returns right after the first ready line and raises
   * `IndexError` right after the first blank line, whichever comes first; every line it consumed
   * before that one is neither ready nor blank. It blocks when every line left is neither.
   */
  ghost predicate Waited(p: Port, r: Io<()>) {
    && (!r.Hung? ==> |r.port.input| < |p.input| && r.port == p.(input := p.input[|p.input| - |r.port.input|..]))
    && (!r.Hung? ==> Skippable(p.input, |p.input| - |r.port.input| - 1))
    && (r.Done? ==> StartsReady(p.input[|p.input| - |r.port.input| - 1]))
    && (r.Raised? ==> r.fault == IndexError && Blank(p.input[|p.input| - |r.port.input| - 1]))
    && (r.Hung? ==> Skippable(p.input, |p.input|))
  }

  /** The first `n` lines are neither ready nor blank, so waiting reads past them. */
  ghost predicate Skippable(lines: seq<string>, n: int) {
    forall j :: 0 <= j < n && j < |lines| ==> !StartsReady(lines[j]) && !Blank(lines[j])
  }

  /** Skipping a line that is neither ready nor blank keeps what waiting on the rest ends in. */
  lemma WaitedSkip(p: Port, r: Io<()>)
    requires p.input != [] && !StartsReady(p.input[0]) && !Blank(p.input[0])
    requires Waited(p.(input := p.input[1..]), r)
    ensures Waited(p, r)
  {
    var rest := p.input[1..];
    assert forall j :: 1 <= j < |p.input| ==> p.input[j] == rest[j - 1];
    if !r.Hung? {
      var k := |rest| - |r.port.input|;
      assert rest[k..] == p.input[k + 1..];
    }
  }

  /**
   * The busy wait of `__sendData`: lines are consumed until one starts with 'w'; an empty line
   * raises `IndexError`, and running out of lines blocks.
   */
  function WaitReady(p: Port): Io<()>
    decreases |p.input|
  {
    if p.input == [] then Hung
    else
      var line := StripNewlines(p.input[0]);
      var rest := p.(input := p.input[1..]);
      if line == [] then Raised(rest, IndexError)
      else if line[0] == 'w' then Done(rest, ())
      else WaitReady(rest)
  }

  /** Waiting ends at the first line that is ready or blank, as `Waited` describes. */
  lemma {:induction false} WaitReadyOutcome(p: Port)
    ensures Waited(p, WaitReady(p))
    decreases |p.input|
  {
    if p.input != [] {
      StripFirst(p.input[0]);
      var line := StripNewlines(p.input[0]);
      if line != [] && line[0] != 'w' {
        var rest := p.(input := p.input[1..]);
        WaitReadyOutcome(rest);
        WaitedSkip(p, WaitReady(rest));
      }
    }
  }

  /** `__sendData`: wait for the board, then write the token. */
  function SendData(p: Port, token: string): (r: Io<()>)
    ensures r.Done? ==> r.port.written == p.written + [token] && |r.port.input| < |p.input|
    ensures r.Done? ==> r.port.outputPins == p.outputPins && r.port.isOpen == p.isOpen
  {
    WaitReadyOutcome(p);
    match WaitReady(p)
    case Done(q, _) => Done(q.(written := q.written + [token]), ())
    case Raised(q, f) => Raised(q, f)
    case Hung => Hung
  }

  /** Sends the tokens in order; the first failure stops the rest. */
  function SendAll(p: Port, tokens: seq<string>): (r: Io<()>)
    ensures r.Done? ==> r.port.written == p.written + tokens
    ensures r.Done? ==> r.port.outputPins == p.outputPins && r.port.isOpen == p.isOpen
    decreases |tokens|
  {
    if tokens == [] then Done(p, ())
    else
      match SendData(p, tokens[0])
      case Done(q, _) =>
        var r := SendAll(q, tokens[1..]);
        SendAllCons(p, q, tokens, r);
        r
      case Raised(q, f) => Raised(q, f)
      case Hung => Hung
  }

  lemma SendAllCons(p: Port, q: Port, tokens: seq<string>, r: Io<()>)
    requires tokens != [] && q.written == p.written + [tokens[0]]
    requires r.Done? ==> r.port.written == q.written + tokens[1..]
    ensures r.Done? ==> r.port.written == p.written + tokens
  {
    assert [tokens[0]] + tokens[1..] == tokens;
  }

  /** `n` ready lines, as the board sends them. */
  function ReadyLines(n: nat): (r: seq<string>)
    ensures |r| == n && forall i :: 0 <= i < n ==> r[i] == "w\n"
  {
    seq(n, _ => "w\n")
  }

  /** A token is written at once when the next line is a ready line. */
  lemma SendDataReady(p: Port, token: string)
    requires p.input != [] && p.input[0] == "w\n"
    ensures SendData(p, token) == Done(p.(written := p.written + [token], input := p.input[1..]), ())
  {
    assert StripNewlines("w\n") == "w" by {
      assert "w\n"[..1] == "w";
    }
  }

  /** Sending a list whose first token went through sends the rest from there. */
  lemma SendAllStep(p: Port, tokens: seq<string>, q: Port)
    requires tokens != [] && SendData(p, tokens[0]) == Done(q, ())
    ensures SendAll(p, tokens) == SendAll(q, tokens[1..])
  {
  }

  /** With one ready line per token waiting, every token is written and nothing else is read. */
  lemma {:induction false} SendAllReady(p: Port, tokens: seq<string>, rest: seq<string>)
    requires p.input == ReadyLines(|tokens|) + rest
    ensures SendAll(p, tokens) == Done(p.(written := p.written + tokens, input := rest), ())
    decreases |tokens|
  {
    if tokens != [] {
      var q := p.(written := p.written + [tokens[0]], input := p.input[1..]);
      SendDataReady(p, tokens[0]);
      SendAllStep(p, tokens, q);
      ReadyLinesTail(|tokens|, rest);
      SendAllReady(q, tokens[1..], rest);
      assert q.written + tokens[1..] == p.written + tokens;
    }
  }

  lemma ReadyLinesTail(n: nat, rest: seq<string>)
    requires n > 0
    ensures (ReadyLines(n) + rest)[1..] == ReadyLines(n - 1) + rest
  {
    ReadyLinesSplit(1, n - 1);
    assert (ReadyLines(1) + (ReadyLines(n - 1) + rest))[1..] == ReadyLines(n - 1) + rest;
  }

  /** The constructor: open the port and write the handshake "99" without waiting. */
  function Open(input: seq<string>): (p: Port)
    ensures p.written == ["99"] && p.input == input && p.outputPins.None? && p.isOpen
  {
    Port(["99"], input, None, true)
  }

  /** `close()`. */
  function Close(p: Port): (r: Io<bool>)
    ensures r == Done(p.(isOpen := false), true)
  {
    Done(p.(isOpen := false), true)
  }

  /** `output(pins)`: the pin count, then each pin; the list is recorded before the pins are sent. */
  function Output(p: Port, pins: seq<string>): (r: Io<bool>)
    ensures r.Done? ==> r.port.written == p.written + [Numerals.Str(|pins|)] + pins
    ensures r.Done? ==> r.port.outputPins == Some(pins)
  {
    match SendData(p, Numerals.Str(|pins|))
    case Done(q, _) =>
      (match SendAll(q.(outputPins := Some(pins)), pins)
       case Done(q', _) => Done(q', true)
       case Raised(q', f) => Raised(q', f)
       case Hung => Hung)
    case Raised(q, f) => Raised(q, f)
    case Hung => Hung
  }

  /** Sends the tokens of a command that returns `True` once written. */
  function Command(p: Port, tokens: seq<string>): (r: Io<bool>)
    ensures r.Done? ==> r.port.written == p.written + tokens && r.value
    ensures r.Done? ==> r.port.outputPins == p.outputPins
  {
    match SendAll(p, tokens)
    case Done(q, _) => Done(q, true)
    case Raised(q, f) => Raised(q, f)
    case Hung => Hung
  }

  /** Sends the tokens of a query, then returns the reply line. */
  function Request(p: Port, tokens: seq<string>): (r: Io<string>)
    ensures r.Done? ==> r.port.written == p.written + tokens && r.port.outputPins == p.outputPins
  {
    match SendAll(p, tokens)
    case Done(q, _) => GetData(q)
    case Raised(q, f) => Raised(q, f)
    case Hung => Hung
  }

  /** The next `n` lines are ready lines. */
  predicate ReadyFor(p: Port, n: nat) {
    n <= |p.input| && p.input[..n] == ReadyLines(n)
  }

  /** With one ready line per token, a command writes every token and consumes just those lines. */
  lemma CommandReady(p: Port, tokens: seq<string>)
    ensures ReadyFor(p, |tokens|) ==>
      Command(p, tokens) == Done(p.(written := p.written + tokens, input := p.input[|tokens|..]), true)
  {
    if ReadyFor(p, |tokens|) {
      assert p.input == ReadyLines(|tokens|) + p.input[|tokens|..];
      SendAllReady(p, tokens, p.input[|tokens|..]);
    }
  }

  /** With one ready line per token, a request writes every token and returns the next line, stripped. */
  lemma RequestReadyFor(p: Port, tokens: seq<string>)
    ensures ReadyFor(p, |tokens|) && |tokens| < |p.input| ==>
      Request(p, tokens) == Done(p.(written := p.written + tokens, input := p.input[|tokens| + 1..]), StripNewlines(p.input[|tokens|]))
  {
    if ReadyFor(p, |tokens|) && |tokens| < |p.input| {
      var n := |tokens|;
      assert p.input == ReadyLines(n) + [p.input[n]] + p.input[n + 1..];
      RequestReady(p, tokens, p.input[n], p.input[n + 1..]);
    }
  }

  /** `setLow(pin)`: opcode "0", then the pin. */
  function SetLow(p: Port, pin: string): (r: Io<bool>)
    ensures r.Done? ==> r.port.written == p.written + ["0", pin] && r.value
    ensures ReadyFor(p, 2) ==> r == Done(p.(written := p.written + ["0", pin], input := p.input[2..]), true)
  {
    CommandReady(p, ["0", pin]);
    Command(p, ["0", pin])
  }

  /** `setHigh(pin)`: opcode "1", then the pin. */
  function SetHigh(p: Port, pin: string): (r: Io<bool>)
    ensures r.Done? ==> r.port.written == p.written + ["1", pin] && r.value
    ensures ReadyFor(p, 2) ==> r == Done(p.(written := p.written + ["1", pin], input := p.input[2..]), true)
  {
    CommandReady(p, ["1", pin]);
    Command(p, ["1", pin])
  }

  /** `analogWrite(pin, value)`: opcode "3", the pin, then the value in decimal. */
  function AnalogWrite(p: Port, pin: string, value: int): (r: Io<bool>)
    ensures r.Done? ==> r.port.written == p.written + ["3", pin, Numerals.Str(value)] && r.value
    ensures ReadyFor(p, 3) ==> r == Done(p.(written := p.written + ["3", pin, Numerals.Str(value)], input := p.input[3..]), true)
  {
    CommandReady(p, ["3", pin, Numerals.Str(value)]);
    Command(p, ["3", pin, Numerals.Str(value)])
  }

  /** `moveServo(value)`: opcode "6", then the value in decimal. */
  function MoveServo(p: Port, value: int): (r: Io<bool>)
    ensures r.Done? ==> r.port.written == p.written + ["6", Numerals.Str(value)] && r.value
    ensures ReadyFor(p, 2) ==> r == Done(p.(written := p.written + ["6", Numerals.Str(value)], input := p.input[2..]), true)
  {
    CommandReady(p, ["6", Numerals.Str(value)]);
    Command(p, ["6", Numerals.Str(value)])
  }

  /** `analogRead(pin)`: opcode "4" and the pin, then the reply line. */
  function AnalogRead(p: Port, pin: string): (r: Io<string>)
    ensures r.Done? ==> r.port.written == p.written + ["4", pin]
    ensures ReadyFor(p, 2) && |p.input| > 2 ==>
      r == Done(p.(written := p.written + ["4", pin], input := p.input[3..]), StripNewlines(p.input[2]))
  {
    RequestReadyFor(p, ["4", pin]);
    Request(p, ["4", pin])
  }

  /** `i2cRead()`: opcode "5", then the reply line. */
  function I2cRead(p: Port): (r: Io<string>)
    ensures r.Done? ==> r.port.written == p.written + ["5"]
    ensures ReadyFor(p, 1) && |p.input| > 1 ==>
      r == Done(p.(written := p.written + ["5"], input := p.input[2..]), StripNewlines(p.input[1]))
  {
    RequestReadyFor(p, ["5"]);
    Request(p, ["5"])
  }

  /** `readServo()`: opcode "7", then the reply line. */
  function ReadServo(p: Port): (r: Io<string>)
    ensures r.Done? ==> r.port.written == p.written + ["7"]
    ensures ReadyFor(p, 1) && |p.input| > 1 ==>
      r == Done(p.(written := p.written + ["7"], input := p.input[2..]), StripNewlines(p.input[1]))
  {
    RequestReadyFor(p, ["7"]);
    Request(p, ["7"])
  }

  /** `__formatPinState`: only the character '1' reads as high. */
  function FormatPinState(c: char): bool {
    c == '1'
  }

  /** `getState(pin)`: '2' and the pin, then the first character of the reply; an empty reply raises. */
  function GetState(p: Port, pin: string): (r: Io<bool>)
    ensures r.Done? ==> r.port.written == p.written + ["2", pin]
  {
    match Request(p, ["2", pin])
    case Done(q, line) => if line == [] then Raised(q, IndexError) else Done(q, FormatPinState(line[0]))
    case Raised(q, f) => Raised(q, f)
    case Hung => Hung
  }

  /** The tokens `setLow` writes for each pin in turn. */
  function SetLowTokens(pins: seq<string>): (r: seq<string>)
    ensures |r| == 2 * |pins|
    ensures forall i :: 0 <= i < |pins| ==> r[2 * i] == "0" && r[2 * i + 1] == pins[i]
  {
    if pins == [] then []
    else
      var tail := SetLowTokens(pins[1..]);
      var r := ["0", pins[0]] + tail;
      assert forall i :: 1 <= i < |pins| ==> r[2 * i] == "0" && r[2 * i + 1] == pins[i] by {
        forall i | 1 <= i < |pins| ensures r[2 * i] == "0" && r[2 * i + 1] == pins[i] {
          var j := i - 1;
          assert r[2 * i] == tail[2 * j];
          assert r[2 * i + 1] == tail[2 * j + 1] == pins[1..][j];
        }
      }
      r
  }

  function SetLowAll(p: Port, pins: seq<string>): (r: Io<bool>)
    ensures r.Done? ==> r.port.written == p.written + SetLowTokens(pins) && r.value
    decreases |pins|
  {
    if pins == [] then Done(p, true)
    else
      match SetLow(p, pins[0])
      case Done(q, _) =>
        var r := SetLowAll(q, pins[1..]);
        assert r.Done? ==> r.port.written == p.written + (["0", pins[0]] + SetLowTokens(pins[1..]));
        r
      case Raised(q, f) => Raised(q, f)
      case Hung => Hung
  }

  /**
   * `turnOff()`: `setLow` for every recorded pin in order; without a recorded list the loop over
   * the integer default raises `TypeError`.
   */
  function TurnOff(p: Port): (r: Io<bool>)
    ensures p.outputPins.None? ==> r == Raised(p, TypeError)
    ensures p.outputPins.Some? && r.Done? ==> r.port.written == p.written + SetLowTokens(p.outputPins.value)
  {
    match p.outputPins
    case None => Raised(p, TypeError)
    case Some(pins) => SetLowAll(p, pins)
  }

  /** With two ready lines per recorded pin, `turnOff` writes exactly "0", pin for each pin. */
  lemma {:induction false} TurnOffReady(p: Port, rest: seq<string>)
    requires p.outputPins.Some?
    requires p.input == ReadyLines(2 * |p.outputPins.value|) + rest
    ensures TurnOff(p) == Done(p.(written := p.written + SetLowTokens(p.outputPins.value), input := rest), true)
  {
    SetLowAllReady(p, p.outputPins.value, rest);
  }

  lemma {:induction false} SetLowAllReady(p: Port, pins: seq<string>, rest: seq<string>)
    requires p.input == ReadyLines(2 * |pins|) + rest
    ensures SetLowAll(p, pins) == Done(p.(written := p.written + SetLowTokens(pins), input := rest), true)
    decreases |pins|
  {
    if pins != [] {
      var tail := ReadyLines(2 * |pins| - 2) + rest;
      ReadyForSplit(p, 2, 2 * |pins| - 2, rest);
      var q := p.(written := p.written + ["0", pins[0]], input := tail);
      assert SetLowAll(p, pins) == SetLowAll(q, pins[1..]);
      SetLowAllReady(q, pins[1..], rest);
      assert SetLowTokens(pins) == ["0", pins[0]] + SetLowTokens(pins[1..]);
      assert q.written + SetLowTokens(pins[1..]) == p.written + SetLowTokens(pins);
    }
  }

  lemma ReadyForSplit(p: Port, a: nat, b: nat, rest: seq<string>)
    requires p.input == ReadyLines(a + b) + rest
    ensures ReadyFor(p, a) && p.input[a..] == ReadyLines(b) + rest
  {
    ReadyLinesSplit(a, b);
    assert p.input == ReadyLines(a) + (ReadyLines(b) + rest);
  }

  lemma ReadyLinesSplit(a: nat, b: nat)
    ensures ReadyLines(a + b) == ReadyLines(a) + ReadyLines(b)
  {
    assert forall i :: 0 <= i < a + b ==> (ReadyLines(a) + ReadyLines(b))[i] == "w\n";
  }

  /** With one ready line per token and then the reply, a request returns the stripped reply. */
  lemma RequestReady(p: Port, tokens: seq<string>, reply: string, rest: seq<string>)
    requires p.input == ReadyLines(|tokens|) + [reply] + rest
    ensures Request(p, tokens) == Done(p.(written := p.written + tokens, input := rest), StripNewlines(reply))
  {
    var q := p.(written := p.written + tokens, input := [reply] + rest);
    SendAllReady(p, tokens, [reply] + rest);
    RequestOf(p, tokens, q);
    GetDataOf(q, reply, rest);
  }

  /** `__getData` on a port whose next line is `reply` returns it stripped. */
  lemma GetDataOf(q: Port, reply: string, rest: seq<string>)
    requires q.input == [reply] + rest
    ensures GetData(q) == Done(q.(input := rest), StripNewlines(reply))
  {
    assert q.input[0] == reply && q.input[1..] == rest;
  }

  /** Once the tokens are sent, a request is one `__getData`. */
  lemma RequestOf(p: Port, tokens: seq<string>, q: Port)
    requires SendAll(p, tokens) == Done(q, ())
    ensures Request(p, tokens) == GetData(q)
  {
  }

  /** With the board ready, `getState` is true exactly when the reply starts with '1'. */
  lemma GetStateReady(p: Port, pin: string, reply: string, rest: seq<string>)
    requires p.input == ReadyLines(2) + [reply] + rest
    requires StripNewlines(reply) != []
    ensures GetState(p, pin).Done?
    ensures GetState(p, pin).value <==> StripNewlines(reply)[0] == '1'
    ensures GetState(p, pin).port.input == rest
  {
    assert |["2", pin]| == 2;
    RequestReady(p, ["2", pin], reply, rest);
  }

  /** With the board ready, `output` records the list and writes the count and then every pin. */
  lemma OutputReady(p: Port, pins: seq<string>, rest: seq<string>)
    requires p.input == ReadyLines(1 + |pins|) + rest
    ensures Output(p, pins) == Done(p.(written := p.written + [Numerals.Str(|pins|)] + pins, input := rest, outputPins := Some(pins)), true)
  {
    var count := Numerals.Str(|pins|);
    var q := p.(written := p.written + [count], input := p.input[1..]);
    SendDataReady(p, count);
    assert q.input == ReadyLines(|pins|) + rest;
    SendAllReady(q.(outputPins := Some(pins)), pins, rest);
  }
}

=== FILE: choices.dfy ===
/**
 * The closed vocabularies of the controller: the four state-machine classes, the three sensor
 * categories and, per class, the list of blobs (persisted states) a device may hold.
 */
module Choices {
  import opened Wrappers

  /** The state-machine class of a device, stored in the database as its class-name string. */
  datatype FsmClass = AnalogSensor | DigitalActuator | PWM | I2C

  const FsmClasses: seq<FsmClass> := [AnalogSensor, DigitalActuator, PWM, I2C]

  /** The string stored in `Device.fsm_class`. */
  function ClassValue(c: FsmClass): string {
    match c
    case AnalogSensor => "AnalogSensor"
    case DigitalActuator => "DigitalActuator"
    case PWM => "PWM"
    case I2C => "I2C"
  }

  /** The class a stored `fsm_class` string names, if it names one. */
  function ParseClass(s: string): (r: Option<FsmClass>)
    ensures r.Some? ==> ClassValue(r.value) == s
    ensures r.None? ==> forall c :: ClassValue(c) != s
  {
    if s == "AnalogSensor" then Some(AnalogSensor)
    else if s == "DigitalActuator" then Some(DigitalActuator)
    else if s == "PWM" then Some(PWM)
    else if s == "I2C" then Some(I2C)
    else None
  }

  const Temperature := "temperature"
  const Humidity := "humidity"
  const Light := "light"
  const Categories: seq<string> := [Temperature, Humidity, Light]

  /** A persisted state: the JSON object `{"state": <token>}` (string-valued). */
  type Blob = map<string, string>

  const StateKey := "state"

  function BlobOf(state: string): (b: Blob)
    ensures StateKey in b && b[StateKey] == state && |b| == 1
  {
    map[StateKey := state]
  }

  const AnalogSensorBlobs: seq<Blob> :=
    [BlobOf("very_low"), BlobOf("low"), BlobOf("medium"), BlobOf("high"), BlobOf("very_high")]
  const DigitalActuatorBlobs: seq<Blob> := [BlobOf("off"), BlobOf("on")]
  const I2CBlobs: seq<Blob> :=
    [BlobOf("very_low"), BlobOf("low"), BlobOf("medium"), BlobOf("high"), BlobOf("very_high")]
  const PwmBlobs: seq<Blob> := [BlobOf("closed"), BlobOf("opened")]

  /** The allowed-blob list of a class. */
  function AllowedBlobs(c: FsmClass): seq<Blob> {
    match c
    case AnalogSensor => AnalogSensorBlobs
    case DigitalActuator => DigitalActuatorBlobs
    case PWM => PwmBlobs
    case I2C => I2CBlobs
  }

  /** The state tokens of a class, in the order its blob list gives them. */
  function StateNames(c: FsmClass): (r: seq<string>)
    ensures |r| == |AllowedBlobs(c)|
    ensures forall i :: 0 <= i < |r| ==> AllowedBlobs(c)[i] == BlobOf(r[i])
  {
    match c
    case AnalogSensor => ["very_low", "low", "medium", "high", "very_high"]
    case I2C => ["very_low", "low", "medium", "high", "very_high"]
    case DigitalActuator => ["off", "on"]
    case PWM => ["closed", "opened"]
  }

  /** Every allowed blob is a one-key object whose state is one of the class's tokens. */
  lemma AllowedBlobShape(c: FsmClass, b: Blob)
    requires b in AllowedBlobs(c)
    ensures StateKey in b && b == BlobOf(b[StateKey]) && b[StateKey] in StateNames(c)
  {
    var i :| 0 <= i < |AllowedBlobs(c)| && AllowedBlobs(c)[i] == b;
    assert b == BlobOf(StateNames(c)[i]);
  }

  /** The analog and bus sensors share one ordered list; medium sits in the middle. */
  lemma SensorStateLists()
    ensures AnalogSensorBlobs == I2CBlobs
    ensures |AnalogSensorBlobs| == 5 && AnalogSensorBlobs[2] == BlobOf("medium")
    ensures DigitalActuatorBlobs[0] == BlobOf("off") && PwmBlobs[0] == BlobOf("closed")
    ensures |FsmClasses| == 4 && forall c :: c in FsmClasses
    ensures |Categories| == 3 && Temperature != Humidity && Humidity != Light && Light != Temperature
  {
    forall c: FsmClass ensures c in FsmClasses {
      match c
      case AnalogSensor => assert c == FsmClasses[0];
      case DigitalActuator => assert c == FsmClasses[1];
      case PWM => assert c == FsmClasses[2];
      case I2C => assert c == FsmClasses[3];
    }
  }
}

=== FILE: dates.dfy ===
/**
 * The proleptic Gregorian calendar the browser's `Date` follows, on whole local days counted
 * from 1 January 1970 (day 0).
 */
module Dates {
  import opened Wrappers
  import Numerals

  predicate Leap(y: int) {
    y % 4 == 0 && (y % 100 != 0 || y % 400 == 0)
  }

  function YearLength(y: int): int {
    if Leap(y) then 366 else 365
  }

  function MonthLength(y: int, m: int): (n: int)
    requires 1 <= m <= 12
    ensures 28 <= n <= 31
  {
    if m == 2 then (if Leap(y) then 29 else 28)
    else if m == 4 || m == 6 || m == 9 || m == 11 then 30
    else 31
  }

  /** Days from 1 January to the first of month `m`; month 13 stands for the next 1 January. */
  function MonthStart(y: int, m: int): int
    requires 1 <= m <= 13
  {
    var before := [0, 31, 59, 90, 120, 151, 181, 212, 243, 273, 304, 334, 365];
    before[m - 1] + (if Leap(y) && m > 2 then 1 else 0)
  }

  lemma MonthStartStep(y: int, m: int)
    requires 1 <= m <= 12
    ensures MonthStart(y, m + 1) == MonthStart(y, m) + MonthLength(y, m)
    ensures MonthStart(y, 1) == 0 && MonthStart(y, 13) == YearLength(y)
  {
  }

  /** A calendar date: `getFullYear()`, `getMonth() + 1` and `getDate()`. */
  datatype Civil = Civil(year: int, month: int, day: int)

  predicate Valid(c: Civil) {
    1 <= c.month <= 12 && 1 <= c.day <= MonthLength(c.year, c.month)
  }

  /** Day number of 1 January of year `y`. */
  function YearStart(y: int): int
    decreases if y >= 1970 then y - 1970 else 1970 - y
  {
    if y == 1970 then 0
    else if y > 1970 then YearStart(y - 1) + YearLength(y - 1)
    else YearStart(y + 1) - YearLength(y)
  }

  lemma YearStartStep(y: int)
    ensures YearStart(y + 1) == YearStart(y) + YearLength(y)
  {
  }

  /** Years start strictly later, by at least the length of every year in between. */
  lemma {:induction false} YearStartMonotone(a: int, b: int)
    requires a < b
    ensures YearStart(a) + YearLength(a) <= YearStart(b)
    decreases b - a
  {
    YearStartStep(a);
    if a + 1 < b {
      YearStartMonotone(a + 1, b);
    }
  }

  /** The day number of a date. */
  function DayNumber(c: Civil): int
    requires Valid(c)
  {
    YearStart(c.year) + MonthStart(c.year, c.month) + c.day - 1
  }

  /** The year holding day `YearStart(y) + offset`, and the offset into it. */
  function YearOf(y: int, offset: int): (r: (int, int))
    ensures 0 <= r.1 < YearLength(r.0)
    ensures YearStart(r.0) + r.1 == YearStart(y) + offset
    decreases if offset < 0 then 400 - offset else offset
  {
    if offset < 0 then
      YearStartStep(y - 1);
      YearOf(y - 1, offset + YearLength(y - 1))
    else if offset >= YearLength(y) then
      YearStartStep(y);
      YearOf(y + 1, offset - YearLength(y))
    else
      (y, offset)
  }

  /** The month and day holding day `offset` of year `y`, searching from month `m`. */
  function MonthOf(y: int, m: int, offset: int): (r: (int, int))
    requires 1 <= m <= 12 && 0 <= offset < YearLength(y) - MonthStart(y, m)
    ensures 1 <= r.0 <= 12 && 1 <= r.1 <= MonthLength(y, r.0)
    ensures MonthStart(y, r.0) + r.1 - 1 == MonthStart(y, m) + offset
    decreases 12 - m
  {
    MonthStartStep(y, m);
    if offset < MonthLength(y, m) then (m, offset + 1)
    else MonthOf(y, m + 1, offset - MonthLength(y, m))
  }

  /** The date of day number `z`: `new Date(…)` read back with its local getters. */
  function CivilOf(z: int): (c: Civil)
    ensures Valid(c) && DayNumber(c) == z
  {
    var (y, offset) := YearOf(1970, z);
    MonthStartStep(y, 1);
    var (m, d) := MonthOf(y, 1, offset);
    Civil(y, m, d)
  }

  /** Two days are the same calendar date only if they are the same day. */
  lemma CivilOfInjective(a: int, b: int)
    ensures CivilOf(a) == CivilOf(b) <==> a == b
  {
  }

  /** The year of a valid date is determined by its day number. */
  lemma YearUnique(c: Civil, y: int, offset: int)
    requires Valid(c) && 0 <= offset < YearLength(y) && YearStart(y) + offset == DayNumber(c)
    ensures y == c.year
  {
    MonthStartStep(c.year, c.month);
    assert MonthStart(c.year, c.month + 1) <= YearLength(c.year) by {
      if c.month < 12 { MonthStartStep(c.year, c.month + 1); MonthOrder(c.year, c.month + 1, 13); }
    }
    if y < c.year {
      YearStartMonotone(y, c.year);
    } else if y > c.year {
      YearStartMonotone(c.year, y);
    }
  }

  /** Month starts grow with the month. */
  lemma MonthOrder(y: int, a: int, b: int)
    requires 1 <= a <= b <= 13
    ensures MonthStart(y, a) <= MonthStart(y, b)
  {
  }

  /** Every valid date is the date of its own day number. */
  lemma CivilOfDayNumber(c: Civil)
    requires Valid(c)
    ensures CivilOf(DayNumber(c)) == c
  {
    var z := DayNumber(c);
    var r := CivilOf(z);
    YearUnique(c, r.year, MonthStart(r.year, r.month) + r.day - 1) by {
      MonthStartStep(r.year, r.month);
      MonthOrder(r.year, r.month + 1, 13);
    }
    MonthStartStep(c.year, c.month);
    MonthStartStep(r.year, r.month);
    if r.month < c.month {
      MonthOrder(c.year, r.month + 1, c.month);
    } else if r.month > c.month {
      MonthOrder(c.year, c.month + 1, r.month);
    }
  }

  /** The calendar date after `c`, as `setDate(getDate() + 1)` rolls it over. */
  function NextDate(c: Civil): (r: Civil)
    requires Valid(c)
    ensures Valid(r)
  {
    if c.day < MonthLength(c.year, c.month) then Civil(c.year, c.month, c.day + 1)
    else if c.month < 12 then Civil(c.year, c.month + 1, 1)
    else Civil(c.year + 1, 1, 1)
  }

  /** One day later is the next calendar date: the end of a month or a year rolls over. */
  lemma CivilOfNext(z: int)
    ensures CivilOf(z + 1) == NextDate(CivilOf(z))
  {
    var c := CivilOf(z);
    var n := NextDate(c);
    MonthStartStep(c.year, c.month);
    YearStartStep(c.year);
    assert DayNumber(n) == z + 1;
    CivilOfDayNumber(n);
  }

  /** A day or a month as `getDate()`/`getMonth() + 1` prints it, with a "0" in front of one digit. */
  function Pad2(n: nat): (r: string)
    ensures n < 100 ==> |r| == 2 && Numerals.AllDigits(r)
  {
    var t := Numerals.Str(n);
    TwoDigits(n);
    (if |t| == 1 then "0" else "") + t
  }

  lemma TwoDigits(n: nat)
    ensures 10 <= n < 100 ==> |Numerals.Str(n)| == 2
  {
    if 10 <= n < 100 {
      assert Numerals.NatDigits(n) == Numerals.NatDigits(n / 10) + [Numerals.DigitChar(n % 10)];
    }
  }

  /** Reading a padded field back gives the number. */
  lemma ParsePad2(n: nat)
    requires n < 100
    ensures Numerals.ParseInt(Pad2(n)) == Some(n)
  {
    var r := Pad2(n);
    assert !Numerals.IsSpace(r[0]) && !Numerals.IsSpace(r[1]);
    Numerals.StripNoSpace(r);
    if n < 10 {
      assert r == "0" + [Numerals.DigitChar(n)];
      assert r[..1] == "0" && r[..1][..0] == [];
      assert Numerals.DigitsValue(r[..1]) == 0;
      assert Numerals.DigitValue(r[1]) == n;
      assert Numerals.DigitsValue(r) == n;
      assert Numerals.Strip(r) == r && r[0] != '-' && r[0] != '+';
    } else {
      Numerals.ParseStr(n);
    }
  }
}

=== FILE: fsm.dfy ===
/**
 * The four device state machines. Each is a total table from (state, input) to the next state and
 * an ordered list of outputs; a machine also owns the machines of its child devices, to which a
 * fan-out output feeds the same input.
 */
module Fsm {
  import opened Wrappers
  import opened Choices
  import opened Models
  import Utils

  /** The five ordered levels of the analog and bus sensors. */
  datatype Level = VeryLow | Low | Medium | High | VeryHigh

  function LevelIndex(l: Level): (i: nat)
    ensures i < 5
  {
    match l
    case VeryLow => 0
    case Low => 1
    case Medium => 2
    case High => 3
    case VeryHigh => 4
  }

  function LevelAt(i: nat): (l: Level)
    requires i < 5
    ensures LevelIndex(l) == i
  {
    [VeryLow, Low, Medium, High, VeryHigh][i]
  }

  function LevelName(l: Level): string {
    match l
    case VeryLow => "very_low"
    case Low => "low"
    case Medium => "medium"
    case High => "high"
    case VeryHigh => "very_high"
  }

  /** The state of a machine: one constructor per class, so a state always belongs to its class. */
  datatype Variant =
    | Digital(on: bool)
    | Analog(level: Level)
    | Bus(level: Level)
    | Pwm(isOpen: bool)

  function Class(v: Variant): FsmClass {
    match v
    case Digital(_) => DigitalActuator
    case Analog(_) => AnalogSensor
    case Bus(_) => I2C
    case Pwm(_) => PWM
  }

  /** The serialized name of a state, as stored in the blob. */
  function Name(v: Variant): string {
    match v
    case Digital(on) => if on then "on" else "off"
    case Analog(l) => LevelName(l)
    case Bus(l) => LevelName(l)
    case Pwm(isOpen) => if isOpen then "opened" else "closed"
  }

  /** The state each class starts in. */
  function Initial(c: FsmClass): (v: Variant)
    ensures Class(v) == c
  {
    match c
    case DigitalActuator => Digital(false)
    case AnalogSensor => Analog(Medium)
    case I2C => Bus(Medium)
    case PWM => Pwm(false)
  }

  /** `save()`: the blob `{"state": <name>}`. */
  function Serialize(v: Variant): (b: Blob)
    ensures b == BlobOf(Name(v))
  {
    match v
    case Digital(on) => if on then DigitalActuatorBlobs[1] else DigitalActuatorBlobs[0]
    case Pwm(isOpen) => if isOpen then PwmBlobs[1] else PwmBlobs[0]
    case Analog(l) => LevelBlob(l); AnalogSensorBlobs[LevelIndex(l)]
    case Bus(l) => LevelBlob(l); I2CBlobs[LevelIndex(l)]
  }

  /** A level's place in the sensor blob lists holds the blob of its name. */
  lemma LevelBlob(l: Level)
    ensures AnalogSensorBlobs[LevelIndex(l)] == BlobOf(LevelName(l))
    ensures I2CBlobs[LevelIndex(l)] == BlobOf(LevelName(l))
  {
  }

  /** A machine serialises to one of its class's allowed blobs. */
  lemma SerializeAllowed(v: Variant)
    ensures Serialize(v) in AllowedBlobs(Class(v))
  {
  }

  /** The state of class `c` whose name is `s`, if there is one. */
  function StateNamed(c: FsmClass, s: string): (r: Option<Variant>)
    ensures r.Some? ==> Class(r.value) == c && Name(r.value) == s
    ensures r.None? ==> forall v :: Class(v) == c ==> Name(v) != s
  {
    match c
    case DigitalActuator => if s == "off" then Some(Digital(false)) else if s == "on" then Some(Digital(true)) else None
    case PWM => if s == "closed" then Some(Pwm(false)) else if s == "opened" then Some(Pwm(true)) else None
    case AnalogSensor => var l := LevelNamed(s); if l.Some? then Some(Analog(l.value)) else None
    case I2C => var l := LevelNamed(s); if l.Some? then Some(Bus(l.value)) else None
  }

  function LevelNamed(s: string): (r: Option<Level>)
    ensures r.Some? ==> LevelName(r.value) == s
    ensures r.None? ==> forall l :: LevelName(l) != s
  {
    if s == "very_low" then Some(VeryLow)
    else if s == "low" then Some(Low)
    else if s == "medium" then Some(Medium)
    else if s == "high" then Some(High)
    else if s == "very_high" then Some(VeryHigh)
    else None
  }

  /**
   * `_restore`/`from_blob`: the machine of class `c` in the state the blob names; `None` when the
   * blob has no state or names a state the class does not have (the source raises there).
   */
  function Restore(c: FsmClass, blob: Blob): (r: Option<Variant>)
    ensures r.Some? ==> Class(r.value) == c && StateKey in blob && Name(r.value) == blob[StateKey]
  {
    if StateKey in blob then StateNamed(c, blob[StateKey]) else None
  }

  /** Restoring what `save()` produced gives the same state back. */
  lemma RestoreSerialize(v: Variant)
    ensures Restore(Class(v), Serialize(v)) == Some(v)
  {
  }

  /** Every allowed blob of a class restores, and saving the result gives the blob back. */
  lemma SerializeRestore(c: FsmClass, b: Blob)
    requires b in AllowedBlobs(c)
    ensures Restore(c, b).Some? && Serialize(Restore(c, b).value) == b
  {
    AllowedBlobShape(c, b);
    var v := Restore(c, b).value;
    assert b == BlobOf(Name(v));
    assert Serialize(v) == BlobOf(Name(v));
  }

  /** Serialization round trip: `save(restore(save(x))) == save(x)`. */
  lemma SerializeStable(v: Variant)
    ensures Restore(Class(v), Serialize(v)).Some?
    ensures Serialize(Restore(Class(v), Serialize(v)).value) == Serialize(v)
  {
    RestoreSerialize(v);
  }

  /** The initial states are off, medium, medium and closed: the lists' first or middle entry. */
  lemma InitialStates()
    ensures Serialize(Initial(DigitalActuator)) == DigitalActuatorBlobs[0] && Name(Initial(DigitalActuator)) == "off"
    ensures Serialize(Initial(AnalogSensor)) == AnalogSensorBlobs[2] && Name(Initial(AnalogSensor)) == "medium"
    ensures Serialize(Initial(I2C)) == I2CBlobs[2] && Name(Initial(I2C)) == "medium"
    ensures Serialize(Initial(PWM)) == PwmBlobs[0] && Name(Initial(PWM)) == "closed"
  {
  }

  datatype Input = Increase | Decrease | QueryValue

  datatype Direction = Inc | Dec

  function InputOf(d: Direction): Input {
    if d == Inc then Increase else Decrease
  }

  /**
   * An output of a transition: persist the state, report it, read the hardware, write a value to
   * the hardware, feed an input to every child, or notify the user that `name is state.`.
   */
  datatype Effect =
    | Save
    | Report
    | Read
    | Write(value: int)
    | FanOut(dir: Direction)
    | Notify(name: string, state: string)

  datatype Step = Step(next: Variant, outputs: seq<Effect>)

  predicate AtMostOneFanOut(effs: seq<Effect>) {
    forall i, j :: 0 <= i < j < |effs| && effs[i].FanOut? ==> !effs[j].FanOut?
  }

  /**
   * The four transition tables. `name` is the device name used in the notification text. The
   * contract states the shape every row shares: querying reads and keeps the state; a nudge that
   * changes the state saves first, a nudge that does not only reports; at most one fan-out.
   */
  function Transition(v: Variant, input: Input, name: string): (r: Step)
    ensures Class(r.next) == Class(v)
    ensures input == QueryValue ==> r.next == v && r.outputs == [Read]
    ensures input != QueryValue && r.next != v ==> |r.outputs| > 0 && r.outputs[0] == Save
    ensures input != QueryValue && r.next == v ==> r.outputs == [Report]
    ensures AtMostOneFanOut(r.outputs)
  {
    match v
    case Digital(on) =>
      (match input
       case QueryValue => Step(v, [Read])
       case Increase => if !on then Step(Digital(true), [Save, Write(1)]) else Step(v, [Report])
       case Decrease => if on then Step(Digital(false), [Save, Write(0)]) else Step(v, [Report]))
    case Pwm(isOpen) =>
      (match input
       case QueryValue => Step(v, [Read])
       case Increase => if !isOpen then Step(Pwm(true), [Save, Write(164)]) else Step(v, [Report])
       case Decrease => if isOpen then Step(Pwm(false), [Save, Write(0)]) else Step(v, [Report]))
    case Analog(l) =>
      (match input
       case QueryValue => Step(v, [Read])
       case Increase =>
         (match l
          case Medium => Step(Analog(High), [Save, FanOut(Dec)])
          case High => Step(Analog(VeryHigh), [Save, Notify(name, "very_high")])
          case Low => Step(Analog(Medium), [Save, FanOut(Dec)])
          case VeryLow => Step(Analog(Low), [Save])
          case VeryHigh => Step(v, [Report]))
       case Decrease =>
         (match l
          case Medium => Step(Analog(Low), [Save, FanOut(Inc)])
          case High => Step(Analog(Medium), [Save, FanOut(Dec)])
          case Low => Step(Analog(VeryLow), [Save, Notify(name, "very_low")])
          case VeryHigh => Step(Analog(High), [Save])
          case VeryLow => Step(v, [Report])))
    case Bus(l) =>
      (match input
       case QueryValue => Step(v, [Read])
       case Increase =>
         (match l
          case Medium => Step(Bus(High), [Save])
          case High => Step(Bus(VeryHigh), [Save, FanOut(Inc), Notify(name, "very_high")])
          case Low => Step(Bus(Medium), [Save])
          case VeryLow => Step(Bus(Low), [Save])
          case VeryHigh => Step(v, [Report]))
       case Decrease =>
         (match l
          case Medium => Step(Bus(Low), [Save])
          case High => Step(Bus(Medium), [Save, FanOut(Dec)])
          case Low => Step(Bus(VeryLow), [Save, Notify(name, "very_low")])
          case VeryHigh => Step(Bus(High), [Save])
          case VeryLow => Step(v, [Report])))
  }

  /** The level a sensor state sits at, `None` for the two-state actuators. */
  function LevelOf(v: Variant): Option<Level> {
    match v
    case Analog(l) => Some(l)
    case Bus(l) => Some(l)
    case _ => None
  }

  /** Reference for a nudge along the five levels: one step in the input's direction, saturating. */
  function Saturate(i: nat, input: Input): nat {
    match input
    case Increase => if i < 4 then i + 1 else 4
    case Decrease => if i > 0 then i - 1 else 0
    case QueryValue => i
  }

  /** Sensors move exactly one level per nudge and stay put at the ends. */
  lemma LevelsMoveOneStep(v: Variant, input: Input, name: string)
    requires LevelOf(v).Some?
    ensures var n := Transition(v, input, name).next;
      LevelOf(n).Some? && LevelIndex(LevelOf(n).value) == Saturate(LevelIndex(LevelOf(v).value), input)
  {
  }

  /** The value an actuator drives its pin or servo to in a state. */
  function DriveValue(v: Variant): int {
    match v
    case Digital(on) => if on then 1 else 0
    case Pwm(isOpen) => if isOpen then 164 else 0
    case _ => 0
  }

  /**
   * Actuators write the hardware exactly when their state changes, and the value written encodes
   * the new state; they never fan out or notify.
   */
  lemma ActuatorWrites(v: Variant, input: Input, name: string)
    requires v.Digital? || v.Pwm?
    ensures var r := Transition(v, input, name);
      && ((exists w :: Write(w) in r.outputs) <==> r.next != v)
      && (forall w :: Write(w) in r.outputs ==> w == DriveValue(r.next))
      && (forall e :: e in r.outputs ==> !e.FanOut? && !e.Notify?)
  {
    var r := Transition(v, input, name);
    if r.next != v {
      assert r.outputs[1] == Write(DriveValue(r.next));
    }
  }

  predicate IsExtreme(l: Level) {
    l == VeryLow || l == VeryHigh
  }

  /**
   * Sensors never write; they notify exactly when they enter `very_low` or `very_high` from a
   * neighbour, and the notification carries the device name and the new state.
   */
  lemma SensorNotifies(v: Variant, input: Input, name: string)
    requires LevelOf(v).Some?
    ensures var r := Transition(v, input, name);
      && (forall e :: e in r.outputs ==> !e.Write?)
      && (forall e :: e in r.outputs && e.Notify? ==> e == Notify(name, Name(r.next)))
      && ((exists e :: e in r.outputs && e.Notify?) <==> r.next != v && IsExtreme(LevelOf(r.next).value))
  {
    var r := Transition(v, input, name);
    if r.next != v && IsExtreme(LevelOf(r.next).value) {
      assert r.outputs[|r.outputs| - 1] == Notify(name, Name(r.next));
    }
  }

  predicate HasFanOut(effs: seq<Effect>) {
    exists e :: e in effs && e.FanOut?
  }

  /**
   * An analog sensor drives its children exactly when it enters or leaves `medium`: it turns them
   * on (increase) when it drops below medium and off (decrease) otherwise.
   */
  lemma AnalogFanOut(v: Variant, input: Input, name: string)
    requires v.Analog? && input != QueryValue
    ensures var r := Transition(v, input, name);
      && (HasFanOut(r.outputs) <==> r.next != v && (v.level == Medium || r.next.level == Medium))
      && (forall d :: FanOut(d) in r.outputs ==> d == (if LevelIndex(r.next.level) < 2 then Inc else Dec))
  {
    var r := Transition(v, input, name);
    if r.next != v && (v.level == Medium || r.next.level == Medium) {
      assert r.outputs[1].FanOut?;
    }
  }

  /**
   * A bus sensor drives its children only when it leaves `high`: increase on the way up to
   * `very_high`, decrease on the way down to `medium`.
   */
  lemma BusFanOut(v: Variant, input: Input, name: string)
    requires v.Bus? && input != QueryValue
    ensures var r := Transition(v, input, name);
      && (HasFanOut(r.outputs) <==> v.level == High)
      && (forall d :: FanOut(d) in r.outputs ==> d == (if r.next.level == VeryHigh then Inc else Dec))
  {
    var r := Transition(v, input, name);
    if v.level == High {
      assert r.outputs[1].FanOut?;
    }
  }

  /** A state machine bound to its device, with the machines of the device's children. */
  datatype Machine = Machine(device: Device, variant: Variant, children: seq<Machine>)

  /** One output as it runs: the device it belongs to, the state it sees, what it does. */
  datatype Output = Output(device: Device, state: string, effect: Effect)

  datatype Fired = Fired(machine: Machine, outputs: seq<Output>)

  datatype FiredAll = FiredAll(machines: seq<Machine>, outputs: seq<Output>)

  /**
   * A machine agrees with its stored device: the blob names the machine's state, the class column
   * names the machine's class, and the same holds of every child.
   */
  predicate Consistent(m: Machine)
    decreases m
  {
    && StateKey in m.device.blob && m.device.blob[StateKey] == Name(m.variant)
    && ParseClass(m.device.fsmClass) == Some(Class(m.variant))
    && (forall c :: c in m.children ==> Consistent(c))
  }

  function Tag(device: Device, state: string, effs: seq<Effect>): (r: seq<Output>)
    ensures |r| == |effs|
    ensures forall i :: 0 <= i < |r| ==> r[i] == Output(device, state, effs[i])
  {
    seq(|effs|, i requires 0 <= i < |effs| => Output(device, state, effs[i]))
  }

  /** The position of the first fan-out, or the length when there is none. */
  function FirstFanOut(effs: seq<Effect>): (k: nat)
    ensures k <= |effs|
    ensures k < |effs| ==> effs[k].FanOut?
    ensures forall j :: 0 <= j < k ==> !effs[j].FanOut?
  {
    if effs == [] || effs[0].FanOut? then 0 else 1 + FirstFanOut(effs[1..])
  }

  /** The device record after a step: `save_state` stores the new state's blob. */
  function Stored(d: Device, before: Variant, after: Variant): Device {
    if after != before then d.(blob := Serialize(after)) else d
  }

  /**
   * Feeds one input to a machine: the state changes first, then the outputs run in order; a
   * fan-out output feeds its input to every child, whose outputs run in its place.
   */
  function Feed(m: Machine, input: Input): (r: Fired)
    ensures r.machine.variant == Transition(m.variant, input, m.device.name).next
    ensures r.machine.device == Stored(m.device, m.variant, r.machine.variant)
    ensures |r.machine.children| == |m.children|
    ensures !HasFanOut(Transition(m.variant, input, m.device.name).outputs) ==> r.machine.children == m.children
    ensures |r.outputs| > 0 && r.outputs[0].device == r.machine.device
    ensures r.outputs[0].state == Name(r.machine.variant)
    decreases m, 2
  {
    var step := Transition(m.variant, input, m.device.name);
    var dev := Stored(m.device, m.variant, step.next);
    var state := Name(step.next);
    var k := FirstFanOut(step.outputs);
    if k == |step.outputs| then
      Fired(Machine(dev, step.next, m.children), Tag(dev, state, step.outputs))
    else
      var sub := FeedAll(m, step.outputs[k].dir);
      Fired(Machine(dev, step.next, sub.machines),
            Tag(dev, state, step.outputs[..k + 1]) + sub.outputs + Tag(dev, state, step.outputs[k + 1..]))
  }

  /** Feeds the input of `dir` to every child of `p`, in order: `for child in self.children`. */
  function Fan(p: Machine, dir: Direction): (r: seq<Fired>)
    ensures |r| == |p.children|
    decreases p, 0
  {
    seq(|p.children|, j requires 0 <= j < |p.children| => Feed(p.children[j], InputOf(dir)))
  }

  /** The children after a fan-out, and every output the fan-out ran, child by child. */
  function FeedAll(p: Machine, dir: Direction): (r: FiredAll)
    ensures |r.machines| == |p.children|
    decreases p, 1
  {
    var fired := Fan(p, dir);
    FiredAll(seq(|fired|, j requires 0 <= j < |fired| => fired[j].machine), Outputs(fired))
  }

  /** The outputs of several steps, one step's after the other's. */
  function Outputs(fired: seq<Fired>): seq<Output>
    decreases |fired|
  {
    if fired == [] then [] else fired[0].outputs + Outputs(fired[1..])
  }

  /** Steps that each run an output run at least one output apiece. */
  lemma {:induction false} OutputsCover(fired: seq<Fired>)
    requires forall j :: 0 <= j < |fired| ==> |fired[j].outputs| > 0
    ensures |Outputs(fired)| >= |fired|
    decreases |fired|
  {
    if fired != [] {
      OutputsCover(fired[1..]);
    }
  }

  /** The value an input call returns: the first output's (`collector=itemgetter(0)`). */
  function Returned(f: Fired): Output
    requires |f.outputs| > 0
  {
    f.outputs[0]
  }

  /** `increase()`/`decrease()` return the name of the state the machine is in afterwards. */
  lemma NudgeReturnsNewState(m: Machine, input: Input)
    requires input != QueryValue
    ensures var f := Feed(m, input);
      && Returned(f).state == Name(f.machine.variant)
      && Returned(f).effect == (if f.machine.variant != m.variant then Save else Report)
  {
  }

  /** A nudge the state cannot follow only reports: nothing is stored and no child is touched. */
  lemma SelfLoopOnlyReports(m: Machine, input: Input)
    requires input != QueryValue
    requires Transition(m.variant, input, m.device.name).next == m.variant
    ensures Feed(m, input) == Fired(m, [Output(m.device, Name(m.variant), Report)])
  {
    var step := Transition(m.variant, input, m.device.name);
    assert FirstFanOut(step.outputs) == 1;
  }

  /** Querying reads the hardware once and leaves the whole machine as it was. */
  lemma QueryKeepsMachine(m: Machine)
    ensures Feed(m, QueryValue) == Fired(m, [Output(m.device, Name(m.variant), Read)])
  {
    var step := Transition(m.variant, QueryValue, m.device.name);
    assert FirstFanOut(step.outputs) == 1;
  }

  /**
   * A fan-out feeds its input to every child: child `j` ends as feeding it alone would leave it,
   * and every child reports back with at least one output.
   */
  lemma FeedAllFeedsEachChild(p: Machine, dir: Direction)
    ensures forall j :: 0 <= j < |p.children| ==>
      FeedAll(p, dir).machines[j] == Feed(p.children[j], InputOf(dir)).machine
    ensures |FeedAll(p, dir).outputs| >= |p.children|
  {
    OutputsCover(Fan(p, dir));
  }

  /** Feeding any input keeps a consistent machine consistent, children included. */
  lemma {:induction false} FeedConsistent(m: Machine, input: Input)
    requires Consistent(m)
    ensures Consistent(Feed(m, input).machine)
    decreases m, 1
  {
    var step := Transition(m.variant, input, m.device.name);
    var k := FirstFanOut(step.outputs);
    var r := Feed(m, input).machine;
    if k < |step.outputs| {
      FeedAllConsistent(m, step.outputs[k].dir);
      assert r.children == FeedAll(m, step.outputs[k].dir).machines;
    }
  }

  lemma FeedAllConsistent(p: Machine, dir: Direction)
    requires forall c :: c in p.children ==> Consistent(c)
    ensures forall c :: c in FeedAll(p, dir).machines ==> Consistent(c)
    decreases p, 0
  {
    var r := FeedAll(p, dir);
    FeedAllFeedsEachChild(p, dir);
    forall j | 0 <= j < |p.children|
      ensures Consistent(r.machines[j])
    {
      assert r.machines[j] == Feed(p.children[j], InputOf(dir)).machine;
      FeedConsistent(p.children[j], InputOf(dir));
    }
  }

  /**
   * `read_value`: the analog sensor inverts the raw reading, then converts it by category
   * (humidity in percent, truncated; temperature scaled to 4..34 degrees; light passed through);
   * the other classes return the raw reading.
   */
  function ReadValue(c: FsmClass, category: string, data: int): (r: real)
    ensures c != AnalogSensor ==> r == data as real
    ensures c == AnalogSensor && category == Temperature ==>
      r == Utils.NormalizeValue(Utils.InvertAnalogValue(data) as real, 4.0, 34.0, 0.0, 1023.0)
    ensures c == AnalogSensor && category == Temperature ==> 4.0 <= r <= 34.0
    ensures c == AnalogSensor && category == Humidity ==>
      r == Utils.Trunc(((1023 - data) as real / 1023.0 * 3000.0 - 0.958) / 0.0307 / 1000.0) as real
    ensures c == AnalogSensor && category == Humidity && 0 <= data <= 1023 ==> 0.0 <= r <= 97.0
    ensures c == AnalogSensor && category != Humidity && category != Temperature ==> r == (1023 - data) as real
  {
    if c != AnalogSensor then data as real
    else
      var value := Utils.InvertAnalogValue(data) as real;
      if category == Humidity then
        var scaled := (value / 1023.0) * 3000.0;
        Utils.Trunc(((scaled - 0.958) / 0.0307) / 1000.0) as real
      else if category == Temperature then Utils.NormalizeValue(value, 4.0, 34.0, 0.0, 1023.0)
      else value
  }

  /** A raw reading of 100 reads as about 31 degrees, 88 percent humidity, or light 923. */
  lemma ReadValueExamples()
    ensures 31.0 < ReadValue(AnalogSensor, Temperature, 100) < 32.0
    ensures ReadValue(AnalogSensor, Humidity, 100) == 88.0
    ensures ReadValue(AnalogSensor, Light, 100) == 923.0
    ensures ReadValue(I2C, "", 100) == 100.0
  {
    var x := ((923.0 / 1023.0) * 3000.0 - 0.958) / 0.0307 / 1000.0;
    assert 88.0 <= x < 89.0;
    assert Utils.Trunc(x) == 88;
  }

  /**
   * A brighter or wetter raw reading (a larger one) never reads as a higher temperature: the
   * analog sensor inverts before it scales.
   */
  lemma TemperatureFalls(d1: int, d2: int)
    requires d1 <= d2
    ensures ReadValue(AnalogSensor, Temperature, d2) <= ReadValue(AnalogSensor, Temperature, d1)
  {
    Utils.NormalizeMonotone(Utils.InvertAnalogValue(d2) as real, Utils.InvertAnalogValue(d1) as real, 4.0, 34.0, 0.0, 1023.0);
  }

  /**
   * `query_value()` on a machine: the converted reading; the input emits only the `read_value`
   * output and leaves the machine, children included, as it was.
   */
  function Query(m: Machine, data: int): (r: real)
    ensures Feed(m, QueryValue) == Fired(m, [Output(m.device, Name(m.variant), Read)])
    ensures Class(m.variant) != AnalogSensor ==> r == data as real
    ensures Class(m.variant) == AnalogSensor && m.device.category == Temperature ==> 4.0 <= r <= 34.0
    ensures Class(m.variant) == AnalogSensor && m.device.category == Light ==> r == (1023 - data) as real
  {
    QueryKeepsMachine(m);
    ReadValue(Class(m.variant), m.device.category, data)
  }

  /** The stored children of device `id`, in store order. */
  function ChildrenOf(store: seq<Device>, id: int): (r: seq<Device>)
    ensures forall e {:trigger e in r} :: e in r <==> e in store && e.parent == Some(id)
  {
    if store == [] then []
    else (if store[0].parent == Some(id) then [store[0]] else []) + ChildrenOf(store[1..], id)
  }

  /**
   * `Device.get_fsm`: the machine of the device's class restored from its blob, with the machines
   * of its children. `None` when the class or the blob is unknown (the source raises) or when the
   * tree is deeper than `fuel` (a parent cycle, on which the source would not return).
   */
  function Build(store: seq<Device>, d: Device, fuel: nat): (r: Option<Machine>)
    ensures r.Some? ==> r.value.device == d && Consistent(r.value)
    ensures r.Some? ==> |r.value.children| == |ChildrenOf(store, d.id)|
    ensures r.Some? ==> forall j :: 0 <= j < |r.value.children| ==> r.value.children[j].device == ChildrenOf(store, d.id)[j]
    ensures r.Some? ==> ParseClass(d.fsmClass).Some? && Restore(ParseClass(d.fsmClass).value, d.blob) == Some(r.value.variant)
    ensures ParseClass(d.fsmClass).None? || Restore(ParseClass(d.fsmClass).value, d.blob).None? ==> r.None?
    decreases fuel, 0, 0
  {
    if fuel == 0 then None
    else match ParseClass(d.fsmClass)
      case None => None
      case Some(c) =>
        match Restore(c, d.blob)
        case None => None
        case Some(v) =>
          var kids := BuildAll(store, ChildrenOf(store, d.id), fuel - 1);
          if kids.None? then None
          else
            assert forall k :: k in kids.value ==> Consistent(k);
            Some(Machine(d, v, kids.value))
  }

  function BuildAll(store: seq<Device>, ds: seq<Device>, fuel: nat): (r: Option<seq<Machine>>)
    ensures r.Some? ==> |r.value| == |ds|
    ensures r.Some? ==> forall j :: 0 <= j < |ds| ==> r.value[j].device == ds[j] && Consistent(r.value[j])
    ensures r.Some? <==> forall j :: 0 <= j < |ds| ==> Build(store, ds[j], fuel).Some?
    ensures r.Some? ==> forall j :: 0 <= j < |ds| ==> r.value[j] == Build(store, ds[j], fuel).value
    decreases fuel, 1, |ds|
  {
    if ds == [] then Some([])
    else match Build(store, ds[0], fuel)
      case None => None
      case Some(m) =>
        var rest := BuildAll(store, ds[1..], fuel);
        assert forall j :: 1 <= j < |ds| ==> ds[j] == ds[1..][j - 1];
        match rest
        case None => None
        case Some(ms) => Some([m] + ms)
  }

  /**
   * `get_fsm` with enough fuel for any acyclic tree of the store: the device's machine in the
   * state its blob names, over the machines of its stored children in store order.
   */
  function GetFsm(store: seq<Device>, d: Device): (r: Option<Machine>)
    ensures r.Some? ==> r.value.device == d && Consistent(r.value)
    ensures r.Some? ==> ParseClass(d.fsmClass).Some? && Restore(ParseClass(d.fsmClass).value, d.blob) == Some(r.value.variant)
    ensures r.Some? ==> |r.value.children| == |ChildrenOf(store, d.id)|
    ensures r.Some? ==> forall j :: 0 <= j < |r.value.children| ==> r.value.children[j].device == ChildrenOf(store, d.id)[j]
    ensures ParseClass(d.fsmClass).None? || Restore(ParseClass(d.fsmClass).value, d.blob).None? ==> r.None?
  {
    Build(store, d, |store| + 1)
  }

  /** The subtree under `d` is fewer than `fuel` levels deep. */
  predicate Shallow(store: seq<Device>, d: Device, fuel: nat)
    decreases fuel
  {
    fuel > 0 && forall c {:trigger Shallow(store, c, fuel - 1)} :: c in ChildrenOf(store, d.id) ==> Shallow(store, c, fuel - 1)
  }

  /** The device's class is known and its blob names one of that class's states. */
  predicate Restorable(d: Device) {
    ParseClass(d.fsmClass).Some? && Restore(ParseClass(d.fsmClass).value, d.blob).Some?
  }

  /** With restorable devices and enough fuel for the subtree, the machine is built. */
  lemma {:induction false} BuildSucceeds(store: seq<Device>, d: Device, fuel: nat)
    requires Restorable(d) && (forall e :: e in store ==> Restorable(e))
    requires Shallow(store, d, fuel)
    ensures Build(store, d, fuel).Some?
    decreases fuel, 0, 0
  {
    var kids := ChildrenOf(store, d.id);
    assert forall e :: e in kids ==> e in store && Shallow(store, e, fuel - 1);
    BuildAllSucceeds(store, kids, fuel - 1);
    var v := Restore(ParseClass(d.fsmClass).value, d.blob).value;
    assert Build(store, d, fuel) == Some(Machine(d, v, BuildAll(store, kids, fuel - 1).value));
  }

  /** Every device of the list builds, so the list builds. */
  lemma {:induction false} BuildAllSucceeds(store: seq<Device>, ds: seq<Device>, fuel: nat)
    requires forall e :: e in store ==> Restorable(e)
    requires forall e :: e in ds ==> e in store && Shallow(store, e, fuel)
    ensures BuildAll(store, ds, fuel).Some?
    decreases fuel, 1, |ds|
  {
    if ds != [] {
      BuildSucceeds(store, ds[0], fuel);
      BuildAllSucceeds(store, ds[1..], fuel);
    }
  }

  /** Each device of `path` after the first is a stored child of the one before it. */
  predicate Descends(store: seq<Device>, path: seq<Device>) {
    forall t :: 1 <= t < |path| ==> path[t] in store && path[t].parent == Some(path[t - 1].id)
  }

  lemma DescendsCons(store: seq<Device>, x: Device, rest: seq<Device>)
    requires Descends(store, rest) && rest != [] && rest[0] in store && rest[0].parent == Some(x.id)
    ensures Descends(store, [x] + rest)
  {
    var path := [x] + rest;
    forall t | 1 <= t < |path|
      ensures path[t] in store && path[t].parent == Some(path[t - 1].id)
    {
      assert path[t] == rest[t - 1];
      if t > 1 {
        assert path[t - 1] == rest[t - 2];
      }
    }
  }

  /** A path down the tree from `x` that is `fuel + 1` devices long, when the subtree is not shallow. */
  lemma {:induction false} DeepPath(store: seq<Device>, x: Device, fuel: nat) returns (path: seq<Device>)
    requires !Shallow(store, x, fuel)
    ensures |path| == fuel + 1 && path[0] == x && Descends(store, path)
    decreases fuel
  {
    if fuel == 0 {
      path := [x];
    } else {
      var c :| c in ChildrenOf(store, x.id) && !Shallow(store, c, fuel - 1);
      var rest := DeepPath(store, c, fuel - 1);
      DescendsCons(store, x, rest);
      path := [x] + rest;
    }
  }

  /** The ids of the stored devices: at most one per row. */
  function IdsOf(store: seq<Device>): (s: set<int>)
    ensures |s| <= |store|
    ensures forall e :: e in store ==> e.id in s
  {
    if store == [] then {} else {store[0].id} + IdsOf(store[1..])
  }

  /** The ids along a path, position by position. */
  function IdSeq(path: seq<Device>): (r: seq<int>)
    ensures |r| == |path| && forall k :: 0 <= k < |path| ==> r[k] == path[k].id
  {
    if path == [] then [] else [path[0].id] + IdSeq(path[1..])
  }

  /** More entries than values: two positions hold the same value. */
  lemma {:induction false} Pigeonhole(xs: seq<int>, s: set<int>) returns (i: nat, j: nat)
    requires forall k :: 0 <= k < |xs| ==> xs[k] in s
    requires |xs| > |s|
    ensures i < j < |xs| && xs[i] == xs[j]
    decreases |xs|
  {
    if xs[0] in xs[1..] {
      var k :| 0 <= k < |xs[1..]| && xs[1..][k] == xs[0];
      i, j := 0, k + 1;
    } else {
      var i', j' := Pigeonhole(xs[1..], s - {xs[0]});
      i, j := i' + 1, j' + 1;
    }
  }

  /** Walking up the parent links of a downward path from position `k` reaches position `m`. */
  lemma {:induction false} ChainUp(store: seq<Device>, path: seq<Device>, m: nat, k: nat, fuel: nat)
    requires UniqueIds(store) && Descends(store, path)
    requires m <= k < |path| && fuel > k - m
    ensures OnChain(store, path[m].id, path[k].id, fuel)
    decreases k - m
  {
    if path[k].id != path[m].id {
      assert path[k] in store && path[k].parent == Some(path[k - 1].id);
      FindByIdUnique(store, path[k]);
      ChainUp(store, path, m, k - 1, fuel - 1);
    }
  }

  /** A downward path that meets the same id twice breaks acyclicity. */
  lemma RepeatBreaksAcyclic(store: seq<Device>, path: seq<Device>, i: nat, j: nat)
    requires UniqueIds(store) && Descends(store, path)
    requires i < j < |path| && path[i].id == path[j].id && j - i <= |store| + 1
    ensures !Acyclic(store)
  {
    ChainUp(store, path, i + 1, j, |store| + 1);
    var e := path[i + 1];
    assert e in store && e.parent == Some(path[j].id);
    assert OnChain(store, e.id, e.parent.value, |store| + 1);
  }

  /** In an acyclic store with unique ids, no subtree is as deep as the store is long. */
  lemma AcyclicShallow(store: seq<Device>, d: Device)
    requires UniqueIds(store) && Acyclic(store) && d in store
    ensures Shallow(store, d, |store| + 1)
  {
    if !Shallow(store, d, |store| + 1) {
      var path := DeepPath(store, d, |store| + 1);
      var ids := IdSeq(path);
      assert forall k :: 0 <= k < |ids| ==> ids[k] in IdsOf(store) by {
        forall k | 0 <= k < |ids| ensures ids[k] in IdsOf(store) {
          if k > 0 {
            assert path[k] in store;
          }
        }
      }
      var i, j := Pigeonhole(ids, IdsOf(store));
      RepeatBreaksAcyclic(store, path, i, j);
    }
  }

  /** `get_fsm` returns a machine for every device of a valid, acyclic store. */
  lemma GetFsmSucceeds(store: seq<Device>, d: Device)
    requires StoreOk(store) && Acyclic(store) && d in store
    ensures GetFsm(store, d).Some?
  {
    forall e | e in store
      ensures Restorable(e)
    {
      SerializeRestore(ParseClass(e.fsmClass).value, e.blob);
    }
    assert UniqueIds(store);
    AcyclicShallow(store, d);
    BuildSucceeds(store, d, |store| + 1);
  }
}

=== FILE: graph.dfy ===
/** The trend graph's date filter and the vertical extent of its values. */
module Graph {
  import opened Wrappers
  import Numerals
  import opened Dates

  /** `getFilterDate(currentDate)`: the year, then the padded month and day, joined by '-'. */
  function FilterDate(z: int): (r: string)
    ensures var c := CivilOf(z);
      var k := |Numerals.Str(c.year)|;
      && |r| == k + 6
      && r[..k] == Numerals.Str(c.year)
      && r[k] == '-' && r[k + 1..k + 3] == Pad2(c.month)
      && r[k + 3] == '-' && r[k + 4..] == Pad2(c.day)
  {
    var c := CivilOf(z);
    Numerals.Str(c.year) + "-" + Pad2(c.month) + "-" + Pad2(c.day)
  }

  /** Reads a `year-MM-DD` text back as a day, when it names a valid date. */
  function ParseFilterDate(r: string): Option<int> {
    if |r| >= 7 && r[|r| - 6] == '-' && r[|r| - 3] == '-' then
      match (Numerals.ParseInt(r[..|r| - 6]), Numerals.ParseInt(r[|r| - 5..|r| - 3]), Numerals.ParseInt(r[|r| - 2..]))
      case (Some(y), Some(m), Some(d)) =>
        if Valid(Civil(y, m, d)) then Some(DayNumber(Civil(y, m, d))) else None
      case _ => None
    else
      None
  }

  /** The filter names exactly the day shown: reading it back gives the same day. */
  lemma FilterDateRoundTrip(z: int)
    ensures ParseFilterDate(FilterDate(z)) == Some(z)
  {
    var c := CivilOf(z);
    var r := FilterDate(z);
    var k := |Numerals.Str(c.year)|;
    assert r[..|r| - 6] == Numerals.Str(c.year);
    assert r[|r| - 5..|r| - 3] == Pad2(c.month);
    assert r[|r| - 2..] == Pad2(c.day);
    Numerals.ParseStr(c.year);
    ParsePad2(c.month);
    ParsePad2(c.day);
  }

  predicate Ascending(s: seq<int>) {
    forall i, j :: 0 <= i < j < |s| ==> s[i] <= s[j]
  }

  function Insert(x: int, s: seq<int>): (r: seq<int>)
    requires Ascending(s)
    ensures Ascending(r)
    ensures multiset(r) == multiset(s) + multiset{x}
    ensures |r| == |s| + 1
    ensures forall k :: 0 <= k < |r| ==> r[k] == x || r[k] in s
    decreases |s|
  {
    if s == [] || x <= s[0] then
      [x] + s
    else
      var rest := Insert(x, s[1..]);
      InsertStep(x, s, rest);
      [s[0]] + rest
  }

  /** Putting back the head in front of the insertion into the tail keeps the order and the values. */
  lemma InsertStep(x: int, s: seq<int>, rest: seq<int>)
    requires Ascending(s) && s != [] && s[0] < x
    requires Ascending(rest) && multiset(rest) == multiset(s[1..]) + multiset{x}
    requires forall k :: 0 <= k < |rest| ==> rest[k] == x || rest[k] in s[1..]
    ensures Ascending([s[0]] + rest)
    ensures multiset([s[0]] + rest) == multiset(s) + multiset{x}
  {
    assert s == [s[0]] + s[1..];
    forall k | 0 <= k < |rest|
      ensures s[0] <= rest[k]
    {
      if rest[k] != x {
        var j :| 0 <= j < |s[1..]| && s[1..][j] == rest[k];
        assert s[j + 1] == rest[k];
      }
    }
  }

  /** `values.sort((a, b) => a - b)`: the same values in ascending order. */
  function SortAscending(s: seq<int>): (r: seq<int>)
    ensures Ascending(r)
    ensures multiset(r) == multiset(s)
    decreases |s|
  {
    if s == [] then []
    else
      assert s == [s[0]] + s[1..];
      Insert(s[0], SortAscending(s[1..]))
  }

  /** `[min, max]` for the y scale; both ends are `undefined` when there are no values. */
  datatype Domain = Domain(lo: Option<int>, hi: Option<int>)

  /** The y-domain `createGraph` computes: the first and last value after sorting. */
  function YDomain(values: seq<int>): (d: Domain)
    ensures |values| == 0 ==> d == Domain(None, None)
    ensures |values| > 0 ==>
      && d.lo.Some? && d.lo.value in values
      && d.hi.Some? && d.hi.value in values
      && forall v :: v in values ==> d.lo.value <= v <= d.hi.value
  {
    var sorted := SortAscending(values);
    if |sorted| == 0 then
      Domain(None, None)
    else
      SortedEnds(values, sorted);
      Domain(Some(sorted[0]), Some(sorted[|sorted| - 1]))
  }

  lemma SortedEnds(values: seq<int>, sorted: seq<int>)
    requires Ascending(sorted) && multiset(sorted) == multiset(values) && |sorted| > 0
    ensures sorted[0] in values && sorted[|sorted| - 1] in values
    ensures forall v :: v in values ==> sorted[0] <= v <= sorted[|sorted| - 1]
  {
    assert sorted[0] in multiset(sorted) && sorted[|sorted| - 1] in multiset(sorted);
    forall v | v in values
      ensures sorted[0] <= v <= sorted[|sorted| - 1]
    {
      assert v in multiset(values);
      assert v in sorted;
      var i :| 0 <= i < |sorted| && sorted[i] == v;
    }
  }
}

=== FILE: json.dfy ===
/**
 * The JavaScript values the frontend's reducers and helpers handle. Numbers are integers;
 * an array or object value coming from an action or a response is a reference of its own, so
 * two of them are never `===`.
 */
module Json {
  import opened Wrappers
  import Numerals

  datatype Json =
    | Undefined
    | Null
    | Bool(b: bool)
    | Num(n: int)
    | Str(s: string)
    | Arr(items: seq<Json>)
    | Obj(fields: map<string, Json>)

  /** An object's own enumerable properties, as `{ ...o }` copies them. */
  type Record = map<string, Json>

  /** `o.k` on a plain object: a missing property reads as `undefined`. */
  function Get(o: Record, k: string): (v: Json)
    ensures k !in o ==> v == Undefined
    ensures k in o ==> v == o[k]
  {
    if k in o then o[k] else Undefined
  }

  /** Reading any property of `undefined` or `null` raises a `TypeError`. */
  predicate Nullish(v: Json) {
    v.Undefined? || v.Null?
  }

  /** No element of `items` is `undefined` or `null`. */
  predicate NoneNullish(items: seq<Json>) {
    forall x :: x in items ==> !Nullish(x)
  }

  /**
   * `v.k` for a property `k` that arrays, strings, numbers and booleans do not carry
   * (such as `id`, `name`, `data` or `device_id`); `None` is the `TypeError` on a nullish `v`.
   */
  function Member(v: Json, k: string): (r: Option<Json>)
    ensures r.None? <==> Nullish(v)
    ensures r.Some? && r.value != Undefined ==> v.Obj? && k in v.fields && v.fields[k] == r.value
  {
    match v
    case Undefined => None
    case Null => None
    case Obj(f) => Some(Get(f, k))
    case _ => Some(Undefined)
  }

  /** `a === b`: primitives compare by value; see the module comment for arrays and objects. */
  predicate StrictEq(a: Json, b: Json) {
    !a.Arr? && !a.Obj? && a == b
  }

  /** `arr.join(",")` over already converted elements. */
  function Join(parts: seq<string>): (r: string)
    ensures |parts| == 0 ==> r == ""
    ensures |parts| == 1 ==> r == parts[0]
    decreases |parts|
  {
    if |parts| == 0 then ""
    else if |parts| == 1 then parts[0]
    else Join(parts[..|parts| - 1]) + "," + parts[|parts| - 1]
  }

  /** `String(v)`, also the property key a computed `[v]` names. */
  function ToStr(v: Json): (r: string)
    ensures v.Str? ==> r == v.s
    ensures v.Num? ==> r == Numerals.Str(v.n)
    decreases v
  {
    match v
    case Undefined => "undefined"
    case Null => "null"
    case Bool(b) => if b then "true" else "false"
    case Num(n) => Numerals.Str(n)
    case Str(s) => s
    case Arr(items) =>
      Join(seq(|items|, i requires 0 <= i < |items| =>
        if Nullish(items[i]) then "" else ToStr(items[i])))
    case Obj(_) => "[object Object]"
  }

  /** Distinct integers print differently. */
  lemma StrInjective()
    ensures forall i: int, j: int :: Numerals.Str(i) == Numerals.Str(j) ==> i == j
  {
    forall i: int, j: int | Numerals.Str(i) == Numerals.Str(j)
      ensures i == j
    {
      Numerals.ParseStr(i);
      Numerals.ParseStr(j);
    }
  }

  /** An object keyed by the decimal indices `"0"`, `"1"`, … of `vals`. */
  function Indexed(vals: seq<Json>): (r: Record)
    ensures forall i :: 0 <= i < |vals| ==> Numerals.Str(i) in r && r[Numerals.Str(i)] == vals[i]
    ensures forall k :: k in r ==> exists i :: 0 <= i < |vals| && k == Numerals.Str(i)
  {
    StrInjective();
    map i | 0 <= i < |vals| :: Numerals.Str(i) := vals[i]
  }

  /**
   * The properties `{ ...v }` copies: an object's own, an array's or a string's indexed
   * elements (a string's as one-character strings), and none for any other value.
   */
  function Spread(v: Json): (r: Record)
    ensures v.Obj? ==> r == v.fields
    ensures v.Arr? ==> r == Indexed(v.items)
    ensures !v.Obj? && !v.Arr? && !v.Str? ==> r == map[]
  {
    match v
    case Obj(f) => f
    case Arr(items) => Indexed(items)
    case Str(s) => Indexed(seq(|s|, i requires 0 <= i < |s| => Str([s[i]])))
    case _ => map[]
  }
}

=== FILE: loop_manager.dfy ===
/**
 * The greenhouse control loop: per-device readings with a three-sample median, the time gates,
 * the sensor and root-actuator rules that feed inputs to the machines, the refresh on queued
 * events, and the periodic snapshots. Time is an integer count of microseconds since the epoch;
 * each step sees one `now`; the hardware is a sampler giving each device's raw reading.
 */
module LoopManager {
  import opened Wrappers
  import opened Choices
  import opened Models
  import opened Fsm
  import Signals
  import Utils

  /** Two seconds between actions on one reading. */
  const Delay: int := 2_000_000
  /** Three seconds between runs of the input rules. */
  const DeltaInput: int := 3_000_000
  /** Five minutes between snapshots. */
  const DeltaSnapshot: int := 300_000_000
  const Day: int := 86_400_000_000

  /** The raw reading the hardware returns for a device at this moment. */
  type Sampler = Device -> int

  /**
   * One reading: `archive`, `prev`, `latest` are the last three samples (oldest first), `median`
   * their median and `medianOld` the median before the last sample.
   */
  datatype Reading = Reading(
    parent: Option<string>,
    name: string,
    kind: Kind,
    machine: Machine,
    medianOld: real,
    median: real,
    archive: real,
    prev: real,
    latest: real,
    timestamp: int,
    state: string)

  /** What stops the loop: the exceptions the source does not catch. */
  datatype Crash =
    | NoMachine(name: string)
    | MissingParent(id: int)
    | KeyError(key: string)
    | TypeError
    | IndexError
    | Invalid(error: ValidationError)

  /** The database rows, the event queue, and every output run so far. */
  datatype World = World(store: seq<Device>, queue: seq<Signals.Event>, log: seq<Output>)

  /** A stored trend point; the value column is an integer, so the median is truncated. */
  datatype Snapshot = Snapshot(deviceId: int, timestamp: int, value: int)

  datatype Manager = Manager(
    world: World,
    devices: seq<Device>,
    readings: seq<Reading>,
    timestampSnapshot: int,
    timestampInput: int,
    snapshots: seq<Snapshot>)

  /** A reading's state is the name of its machine's state. */
  predicate Synced(r: Reading) {
    r.state == Name(r.machine.variant)
  }

  predicate AllSynced(rs: seq<Reading>) {
    forall i :: 0 <= i < |rs| ==> Synced(rs[i])
  }

  /** Reading `i` belongs to device `i`. */
  predicate Aligned(devices: seq<Device>, rs: seq<Reading>) {
    |devices| == |rs| && forall i :: 0 <= i < |rs| ==> rs[i].name == devices[i].name
  }

  // ---------------------------------------------------------------------------------------------
  // Readings

  function Min3(a: real, b: real, c: real): real {
    if a <= b && a <= c then a else if b <= c then b else c
  }

  function Max3(a: real, b: real, c: real): real {
    if a >= b && a >= c then a else if b >= c then b else c
  }

  /** `statistics.median` of three samples: the middle one once sorted. */
  function Median3(a: real, b: real, c: real): (m: real)
    ensures m == a || m == b || m == c
    ensures Min3(a, b, c) <= m <= Max3(a, b, c)
    ensures m == a + b + c - Min3(a, b, c) - Max3(a, b, c)
  {
    if a <= b then (if b <= c then b else if a <= c then c else a)
    else (if a <= c then a else if b <= c then c else b)
  }

  /** The median does not depend on the order of the samples. */
  lemma MedianSymmetric(a: real, b: real, c: real)
    ensures Median3(a, b, c) == Median3(b, a, c) == Median3(a, c, b) == Median3(c, b, a)
  {
  }

  /** A single outlier cannot move the median outside the other two samples. */
  lemma MedianRejectsOutlier(a: real, b: real, c: real)
    ensures (a <= b ==> a <= Median3(a, b, c) <= b) && (b <= a ==> b <= Median3(a, b, c) <= a)
  {
  }

  /** `setup_readings` for one device: its machine, one query, and the flat initial window. */
  function SetupReading(store: seq<Device>, d: Device, sample: Sampler, now: int): (r: Result<Reading, Crash>)
    ensures r.Ok? ==> r.value.name == d.name && r.value.kind == GetKind(d.fsmClass) && r.value.machine.device == d
    ensures r.Ok? ==> Synced(r.value) && StateKey in d.blob && r.value.state == d.blob[StateKey]
    ensures r.Ok? ==> r.value.timestamp == now
    ensures r.Ok? ==> r.value.median == r.value.medianOld == r.value.archive == r.value.prev == r.value.latest
    ensures r.Ok? ==> GetFsm(store, d) == Some(r.value.machine) && r.value.latest == Query(r.value.machine, sample(d))
    ensures r.Ok? ==> (r.value.parent.None? <==> d.parent.None?)
    ensures r.Ok? && d.parent.Some? ==>
      FindById(store, d.parent.value).Some? && r.value.parent == Some(FindById(store, d.parent.value).value.name)
    ensures GetFsm(store, d).None? ==> r == Err(NoMachine(d.name))
    ensures GetFsm(store, d).Some? && d.parent.Some? && FindById(store, d.parent.value).None? ==>
      r == Err(MissingParent(d.parent.value))
    ensures GetFsm(store, d).Some? && (d.parent.None? || FindById(store, d.parent.value).Some?) ==> r.Ok?
  {
    match GetFsm(store, d)
    case None => Err(NoMachine(d.name))
    case Some(m) =>
      var parent :=
        match d.parent
        case None => Ok(None)
        case Some(p) =>
          (match FindById(store, p)
           case None => Err(MissingParent(p))
           case Some(pd) => Ok(Some(pd.name)));
      if parent.Err? then Err(parent.error)
      else
        var value := Query(m, sample(d));
        Ok(Reading(parent.value, d.name, GetKind(d.fsmClass), m, value, value, value, value, value, now, d.blob[StateKey]))
  }

  /** `setup_readings`: one reading per device, in order; the first failure stops the loop. */
  function Setup(store: seq<Device>, devices: seq<Device>, sample: Sampler, now: int): (r: Result<seq<Reading>, Crash>)
    ensures r.Ok? <==> forall i :: 0 <= i < |devices| ==> SetupReading(store, devices[i], sample, now).Ok?
    ensures r.Ok? ==> |r.value| == |devices|
    ensures r.Ok? ==> forall i :: 0 <= i < |devices| ==> r.value[i] == SetupReading(store, devices[i], sample, now).value
    ensures r.Ok? ==> Aligned(devices, r.value) && AllSynced(r.value)
    ensures r.Ok? ==> forall i :: 0 <= i < |devices| ==>
      r.value[i].kind == GetKind(devices[i].fsmClass) && r.value[i].machine.device == devices[i] && r.value[i].timestamp == now
  {
    var r := SetupEach(store, devices, sample, now);
    if r.Ok? then SetupFacts(store, devices, sample, now, r.value); r else r
  }

  /** The loop of `setup_readings`, reading by reading. */
  function SetupEach(store: seq<Device>, devices: seq<Device>, sample: Sampler, now: int): (r: Result<seq<Reading>, Crash>)
    ensures r.Ok? <==> forall i :: 0 <= i < |devices| ==> SetupReading(store, devices[i], sample, now).Ok?
    ensures r.Ok? ==> |r.value| == |devices|
    ensures r.Ok? ==> forall i :: 0 <= i < |devices| ==> r.value[i] == SetupReading(store, devices[i], sample, now).value
  {
    if devices == [] then Ok([])
    else
      match SetupReading(store, devices[0], sample, now)
      case Err(c) => Err(c)
      case Ok(first) =>
        var rest := SetupEach(store, devices[1..], sample, now);
        assert forall i :: 1 <= i < |devices| ==> devices[i] == devices[1..][i - 1];
        match rest
        case Err(c) => Err(c)
        case Ok(rs) => Ok([first] + rs)
  }

  lemma SetupFacts(store: seq<Device>, devices: seq<Device>, sample: Sampler, now: int, rs: seq<Reading>)
    requires |rs| == |devices|
    requires forall i :: 0 <= i < |devices| ==> SetupReading(store, devices[i], sample, now).Ok?
    requires forall i :: 0 <= i < |devices| ==> rs[i] == SetupReading(store, devices[i], sample, now).value
    ensures Aligned(devices, rs) && AllSynced(rs)
    ensures forall i :: 0 <= i < |devices| ==>
      rs[i].kind == GetKind(devices[i].fsmClass) && rs[i].machine.device == devices[i] && rs[i].timestamp == now
  {
  }

  /** Every device of a valid, acyclic store gets a reading. */
  lemma {:induction false} SetupSucceeds(store: seq<Device>, devices: seq<Device>, sample: Sampler, now: int)
    requires StoreOk(store) && Acyclic(store)
    requires forall d :: d in devices ==> d in store
    ensures Setup(store, devices, sample, now).Ok?
  {
    forall i | 0 <= i < |devices|
      ensures SetupReading(store, devices[i], sample, now).Ok?
    {
      var d := devices[i];
      GetFsmSucceeds(store, d);
      if d.parent.Some? {
        var f :| f in store && f.id == d.parent.value;
      }
    }
  }

  /** `update_readings` for one reading: shift the window by one new sample and take the median. */
  function UpdateReading(r: Reading, sample: Sampler): (u: Reading)
    ensures u.archive == r.prev && u.prev == r.latest && u.medianOld == r.median
    ensures u.latest == Query(r.machine, sample(r.machine.device))
    ensures u.median == Median3(u.archive, u.prev, u.latest)
    ensures Min3(u.archive, u.prev, u.latest) <= u.median <= Max3(u.archive, u.prev, u.latest)
    ensures u.(archive := r.archive, prev := r.prev, latest := r.latest, medianOld := r.medianOld, median := r.median) == r
  {
    var v := Query(r.machine, sample(r.machine.device));
    r.(archive := r.prev, prev := r.latest, latest := v, medianOld := r.median, median := Median3(r.prev, r.latest, v))
  }

  function UpdateReadings(rs: seq<Reading>, sample: Sampler): (u: seq<Reading>)
    ensures |u| == |rs|
    ensures forall i :: 0 <= i < |rs| ==> u[i] == UpdateReading(rs[i], sample)
  {
    seq(|rs|, i requires 0 <= i < |rs| => UpdateReading(rs[i], sample))
  }

  // ---------------------------------------------------------------------------------------------
  // Gates

  /** `is_value_increasing`: up, down, or `None` when the median did not move. */
  function Trend(r: Reading): (t: Option<bool>)
    ensures t == Some(true) <==> r.median > r.medianOld
    ensures t == Some(false) <==> r.median < r.medianOld
    ensures t.None? <==> r.median == r.medianOld
  {
    if r.median > r.medianOld then Some(true)
    else if r.median < r.medianOld then Some(false)
    else None
  }

  /** `can_proceed`: strictly more than `Delay` has passed since `timestamp`. */
  function CanProceed(now: int, timestamp: int): (b: bool)
    ensures b <==> timestamp + Delay < now
  {
    now - timestamp > Delay
  }

  /**
   * `will_state_change`: the median left the closed range of the current state; `None` when the
   * state has no threshold entry (the source raises `KeyError`).
   */
  function WillStateChange(r: Reading): (b: Option<bool>)
    ensures b.None? <==> r.state !in r.machine.device.thresholds
    ensures b == Some(false) <==>
              r.state in r.machine.device.thresholds
              && r.machine.device.thresholds[r.state].lo <= r.median <= r.machine.device.thresholds[r.state].hi
  {
    var thresholds := r.machine.device.thresholds;
    if r.state !in thresholds then None
    else Some(!(thresholds[r.state].lo <= r.median <= thresholds[r.state].hi))
  }

  /**
   * The time of day of an instant on the wall clock `timezone.now()` is compared with; the model
   * takes the server's zone to be UTC, so the day starts at a multiple of `Day`.
   */
  function TimeOfDay(now: int): (t: int)
    ensures 0 <= t < Day
  {
    now % Day
  }

  /**
   * `within_range`: the chained comparison `after <= t <= before`. A missing `after` raises
   * (`None`); when `after <= t` fails the comparison stops there, so a missing `before` raises only
   * once `after <= t` holds.
   */
  function WithinRange(after: Option<int>, before: Option<int>, t: int): (r: Option<bool>)
    ensures r == Some(true) <==> after.Some? && before.Some? && after.value <= t <= before.value
    ensures after.Some? && t < after.value ==> r == Some(false)
    ensures r.None? <==> after.None? || (after.value <= t && before.None?)
  {
    match after
    case None => None
    case Some(a) =>
      if !(a <= t) then Some(false)
      else
        match before
        case None => None
        case Some(b) => Some(t <= b)
  }

  /** A window whose `after` is later than its `before` (a night window) never opens. */
  lemma NightWindowNeverOpen(after: int, before: int, t: int)
    requires after > before
    ensures WithinRange(Some(after), Some(before), t) == Some(false)
  {
  }

  // ---------------------------------------------------------------------------------------------
  // Firing inputs

  function SaveCount(outs: seq<Output>): (n: nat)
    ensures n <= |outs|
  {
    if outs == [] then 0 else (if outs[0].effect.Save? then 1 else 0) + SaveCount(outs[1..])
  }

  /**
   * Runs a machine's outputs against the world in order: each `save_state` saves its device
   * through full validation and enqueues one event; a rejected save raises and stops the loop.
   */
  function Perform(w: World, outs: seq<Output>): (r: Result<World, Crash>)
    ensures r.Ok? ==> r.value.log == w.log + outs
    ensures r.Ok? ==> |r.value.queue| == |w.queue| + SaveCount(outs) && r.value.queue[..|w.queue|] == w.queue
    ensures r.Err? ==> r.error.Invalid?
    ensures SaveCount(outs) == 0 ==> r == Ok(w.(log := w.log + outs))
    decreases |outs|
  {
    if outs == [] then
      assert w.log + outs == w.log;
      Ok(w)
    else
      match PerformOne(w, outs[0])
      case Err(c) => Err(c)
      case Ok(w2) =>
        var r := Perform(w2, outs[1..]);
        assert w.log + [outs[0]] + outs[1..] == w.log + outs;
        assert r.Ok? ==> r.value.queue[..|w.queue|] == w2.queue[..|w.queue|];
        r
  }

  /** Running two lists of outputs is running the first and then, unless it failed, the second. */
  lemma {:induction false} PerformAppend(w: World, a: seq<Output>, b: seq<Output>)
    ensures Perform(w, a + b) == (match Perform(w, a) case Err(c) => Err(c) case Ok(w2) => Perform(w2, b))
    decreases |a|
  {
    if a == [] {
      assert a + b == b;
    } else {
      assert (a + b)[0] == a[0] && (a + b)[1..] == a[1..] + b;
      match PerformOne(w, a[0])
      case Err(_) =>
      case Ok(w2) => PerformAppend(w2, a[1..], b);
    }
  }

  /** One output against the world: a `save_state` saves and enqueues, any other is only logged. */
  function PerformOne(w: World, o: Output): (r: Result<World, Crash>)
    ensures r.Ok? ==> r.value.log == w.log + [o]
    ensures r.Ok? ==> |r.value.queue| == |w.queue| + (if o.effect.Save? then 1 else 0)
    ensures r.Ok? ==> r.value.queue[..|w.queue|] == w.queue
    ensures r.Err? ==> o.effect.Save? && r.error.Invalid?
    ensures !o.effect.Save? ==> r == Ok(w.(log := w.log + [o]))
    ensures o.effect.Save? ==> (r.Ok? <==> Signals.SaveDevice(w.store, w.queue, o.device).Ok?)
    ensures o.effect.Save? && r.Ok? ==> Signals.SaveDevice(w.store, w.queue, o.device) == Ok(Signals.Stored(r.value.store, r.value.queue))
    ensures o.effect.Save? && r.Err? ==> Signals.SaveDevice(w.store, w.queue, o.device) == Err(r.error.error)
  {
    if o.effect.Save? then
      match Signals.SaveDevice(w.store, w.queue, o.device)
      case Err(e) => Err(Invalid(e))
      case Ok(s) => Ok(World(s.store, s.queue, w.log + [o]))
    else Ok(w.(log := w.log + [o]))
  }

  /**
   * `increase()`/`decrease()` on a reading's machine: the outputs run, and the reading takes the
   * returned state name and the current time.
   */
  function Fire(w: World, r: Reading, input: Input, now: int): (res: Result<(World, Reading), Crash>)
    requires input != QueryValue
    ensures res.Ok? ==> res.value.1 == r.(machine := res.value.1.machine, state := res.value.1.state, timestamp := now)
    ensures res.Ok? ==> Synced(res.value.1)
    ensures res.Ok? ==> res.value.1.machine == Feed(r.machine, input).machine
    ensures res.Ok? <==> Perform(w, Feed(r.machine, input).outputs).Ok?
    ensures res.Ok? ==> res.value.0 == Perform(w, Feed(r.machine, input).outputs).value
    ensures res.Err? ==> res.error == Perform(w, Feed(r.machine, input).outputs).error
  {
    var f := Feed(r.machine, input);
    NudgeReturnsNewState(r.machine, input);
    match Perform(w, f.outputs)
    case Err(c) => Err(c)
    case Ok(w') => Ok((w', r.(machine := f.machine, state := Returned(f).state, timestamp := now)))
  }

  /**
   * The sensor rule: when the reading may act, its median left the state's range and the time
   * is inside the device's window, the trend picks the input; a flat trend only restamps.
   */
  function SensorRule(w: World, r: Reading, now: int): (res: Result<(World, Reading), Crash>)
    ensures r.kind != Sensor || !CanProceed(now, r.timestamp) ==> res == Ok((w, r))
    ensures r.kind == Sensor && CanProceed(now, r.timestamp) ==>
      (WillStateChange(r).None? ==> res == Err(KeyError(r.state)))
      && (WillStateChange(r) == Some(false) ==> res == Ok((w, r)))
    ensures r.kind == Sensor && CanProceed(now, r.timestamp) && WillStateChange(r) == Some(true) ==>
      var window := WithinRange(r.machine.device.after, r.machine.device.before, TimeOfDay(now));
      && (window.None? ==> res == Err(TypeError))
      && (window == Some(false) ==> res == Ok((w, r)))
      && (window == Some(true) && Trend(r) == Some(true) ==> res == Fire(w, r, Increase, now))
      && (window == Some(true) && Trend(r) == Some(false) ==> res == Fire(w, r, Decrease, now))
      && (window == Some(true) && Trend(r).None? ==> res == Ok((w, r.(timestamp := now))))
    ensures res.Err? ==> res.error.KeyError? || res.error == TypeError || res.error.Invalid?
    ensures Synced(r) && res.Ok? ==> Synced(res.value.1)
    ensures res.Ok? ==> res.value.1.name == r.name && res.value.1.kind == r.kind && res.value.1.parent == r.parent
  {
    if r.kind != Sensor || !CanProceed(now, r.timestamp) then Ok((w, r))
    else
      match WillStateChange(r)
      case None => Err(KeyError(r.state))
      case Some(change) =>
        if !change then Ok((w, r))
        else
          match WithinRange(r.machine.device.after, r.machine.device.before, TimeOfDay(now))
          case None => Err(TypeError)
          case Some(inside) =>
            if !inside then Ok((w, r))
            else
              match Trend(r)
              case Some(up) => Fire(w, r, if up then Increase else Decrease, now)
              case None => Ok((w, r.(timestamp := now)))
  }

  /** The input the root-actuator rule feeds: `increase` only from the literal state "off". */
  function ToggleInput(state: string): (i: Input)
    ensures i == Increase <==> state == "off"
    ensures i == Decrease <==> state != "off"
  {
    if state == "off" then Increase else Decrease
  }

  /**
   * The root-actuator rule: inside the device's window an actuator away from its desired state
   * is toggled; outside the window one at its desired state is toggled.
   */
  function ActuatorRule(w: World, r: Reading, now: int): (res: Result<(World, Reading), Crash>)
    ensures !(r.kind == Actuator && r.parent.None?) || !CanProceed(now, r.timestamp) ==> res == Ok((w, r))
    ensures r.kind == Actuator && r.parent.None? && CanProceed(now, r.timestamp) ==>
      var window := WithinRange(r.machine.device.after, r.machine.device.before, TimeOfDay(now));
      var desired := r.machine.device.desiredState;
      && (window.None? ==> res == Err(TypeError))
      && (window == Some(true) && r.state != desired ==> res == Fire(w, r, ToggleInput(r.state), now))
      && (window == Some(true) && r.state == desired ==> res == Ok((w, r)))
      && (window == Some(false) && r.state == desired ==> res == Fire(w, r, ToggleInput(r.state), now))
      && (window == Some(false) && r.state != desired ==> res == Ok((w, r)))
    ensures res.Err? ==> res.error == TypeError || res.error.Invalid?
    ensures Synced(r) && res.Ok? ==> Synced(res.value.1)
    ensures res.Ok? ==> res.value.1.name == r.name && res.value.1.kind == r.kind && res.value.1.parent == r.parent
  {
    if !(r.kind == Actuator && r.parent.None?) || !CanProceed(now, r.timestamp) then Ok((w, r))
    else
      var desired := r.machine.device.desiredState;
      match WithinRange(r.machine.device.after, r.machine.device.before, TimeOfDay(now))
      case None => Err(TypeError)
      case Some(inside) =>
        if inside == (r.state != desired) then Fire(w, r, ToggleInput(r.state), now)
        else Ok((w, r))
  }

  /**
   * A root servo is never opened by the actuator rule: its states are "closed" and "opened", so
   * the rule only ever feeds `decrease`.
   */
  lemma PwmRootNeverOpens(w: World, r: Reading, now: int)
    requires Synced(r) && r.machine.variant == Pwm(false)
    requires ActuatorRule(w, r, now).Ok?
    ensures ActuatorRule(w, r, now).value.1.machine.variant == Pwm(false)
  {
  }

  datatype Phase = Sensors | RootActuators

  function Rule(phase: Phase, w: World, r: Reading, now: int): (res: Result<(World, Reading), Crash>)
    ensures Synced(r) && res.Ok? ==> Synced(res.value.1)
    ensures res.Ok? ==> SameReading(r, res.value.1)
  {
    match phase
    case Sensors => SensorRule(w, r, now)
    case RootActuators => ActuatorRule(w, r, now)
  }

  /** Two readings of the same device: name, kind and parent agree. */
  predicate SameReading(a: Reading, b: Reading) {
    a.name == b.name && a.kind == b.kind && a.parent == b.parent
  }

  predicate SameIdentity(a: seq<Reading>, b: seq<Reading>) {
    |a| == |b| && forall i :: 0 <= i < |a| ==> SameReading(a[i], b[i])
  }

  /** Replacing reading `i` by one of the same device, then passing on from `i + 1`, keeps identities and the prefix. */
  lemma PassStep(rs: seq<Reading>, i: nat, x: Reading, out: seq<Reading>)
    requires i < |rs| && SameReading(rs[i], x)
    requires SameIdentity(rs[i := x], out) && out[..i + 1] == rs[i := x][..i + 1]
    ensures SameIdentity(rs, out) && out[..i] == rs[..i]
  {
    assert out[..i] == out[..i + 1][..i];
  }

  /** One pass of a rule over the readings from position `i` on, in order. */
  function RulePass(phase: Phase, w: World, rs: seq<Reading>, i: nat, now: int): (res: Result<(World, seq<Reading>), Crash>)
    requires i <= |rs|
    ensures res.Ok? ==> SameIdentity(rs, res.value.1)
    ensures res.Ok? ==> res.value.1[..i] == rs[..i]
    decreases |rs| - i
  {
    if i == |rs| then Ok((w, rs))
    else
      match Rule(phase, w, rs[i], now)
      case Err(c) => Err(c)
      case Ok(step) =>
        var res := RulePass(phase, step.0, rs[i := step.1], i + 1, now);
        if res.Ok? then
          PassStep(rs, i, step.1, res.value.1);
          res
        else res
  }

  /**
   * The pass as a reference definition over the whole list: the first reading becomes the rule
   * applied to it in `w`, and the rest are passed over the world that step leaves.
   */
  function Apply(phase: Phase, w: World, rs: seq<Reading>, now: int): Result<(World, seq<Reading>), Crash>
    decreases |rs|
  {
    if rs == [] then Ok((w, []))
    else
      match Rule(phase, w, rs[0], now)
      case Err(c) => Err(c)
      case Ok(step) =>
        match Apply(phase, step.0, rs[1..], now)
        case Err(c) => Err(c)
        case Ok(rest) => Ok((rest.0, [step.1] + rest.1))
  }

  /** The pass from position `i` keeps the readings before `i` and applies the rule to the rest in order. */
  lemma {:induction false} RulePassApplies(phase: Phase, w: World, rs: seq<Reading>, i: nat, now: int)
    requires i <= |rs|
    ensures RulePass(phase, w, rs, i, now) == PassFrom(Apply(phase, w, rs[i..], now), rs[..i])
    decreases |rs| - i
  {
    if i == |rs| {
      assert rs[i..] == [] && rs[..i] + [] == rs;
    } else {
      ApplyAt(phase, w, rs, i, now);
      match Rule(phase, w, rs[i], now)
      case Err(_) =>
      case Ok(step) =>
        RulePassApplies(phase, step.0, rs[i := step.1], i + 1, now);
        PassFromStep(phase, step, rs, i, now);
    }
  }

  /** A reference pass over `rs[i..]` with the prefix `pre` put back in front. */
  function PassFrom(a: Result<(World, seq<Reading>), Crash>, pre: seq<Reading>): Result<(World, seq<Reading>), Crash> {
    match a
    case Err(c) => Err(c)
    case Ok(x) => Ok((x.0, pre + x.1))
  }

  lemma ApplyAt(phase: Phase, w: World, rs: seq<Reading>, i: nat, now: int)
    requires i < |rs|
    ensures Apply(phase, w, rs[i..], now) ==
      match Rule(phase, w, rs[i], now)
      case Err(c) => Err(c)
      case Ok(step) => PassFrom(Apply(phase, step.0, rs[i + 1..], now), [step.1])
  {
    assert rs[i..][0] == rs[i] && rs[i..][1..] == rs[i + 1..];
  }

  lemma PassFromStep(phase: Phase, step: (World, Reading), rs: seq<Reading>, i: nat, now: int)
    requires i < |rs|
    ensures PassFrom(Apply(phase, step.0, rs[i := step.1][i + 1..], now), rs[i := step.1][..i + 1])
      == PassFrom(PassFrom(Apply(phase, step.0, rs[i + 1..], now), [step.1]), rs[..i])
  {
    var rs' := rs[i := step.1];
    assert rs'[i + 1..] == rs[i + 1..];
    assert rs'[..i + 1] == rs[..i] + [step.1];
    match Apply(phase, step.0, rs[i + 1..], now)
    case Err(_) =>
    case Ok(a) => assert rs'[..i + 1] + a.1 == rs[..i] + ([step.1] + a.1);
  }

  /** A pass keeps every reading's state in step with its machine. */
  lemma {:induction false} RulePassKeepsSynced(phase: Phase, w: World, rs: seq<Reading>, i: nat, now: int)
    requires i <= |rs| && AllSynced(rs)
    requires RulePass(phase, w, rs, i, now).Ok?
    ensures AllSynced(RulePass(phase, w, rs, i, now).value.1)
    decreases |rs| - i
  {
    if i < |rs| {
      var step := Rule(phase, w, rs[i], now).value;
      assert Synced(step.1);
      var rs' := rs[i := step.1];
      assert AllSynced(rs');
      RulePassKeepsSynced(phase, step.0, rs', i + 1, now);
    }
  }

  /** The sensor rule over every reading, then the root-actuator rule over the result. */
  function BothPasses(w: World, rs: seq<Reading>, now: int): Result<(World, seq<Reading>), Crash> {
    match Apply(Sensors, w, rs, now)
    case Err(c) => Err(c)
    case Ok(first) => Apply(RootActuators, first.0, first.1, now)
  }

  /** `run_inputs`: gated by `DeltaInput`; the sensor pass, then the root-actuator pass. */
  function RunInputs(m: Manager, now: int): (r: Result<Manager, Crash>)
    ensures now - m.timestampInput <= DeltaInput ==> r == Ok(m)
    ensures now - m.timestampInput > DeltaInput ==> (r.Ok? <==> BothPasses(m.world, m.readings, now).Ok?)
    ensures now - m.timestampInput > DeltaInput && r.Ok? ==>
      var b := BothPasses(m.world, m.readings, now).value;
      r.value == m.(world := b.0, readings := b.1, timestampInput := now)
    ensures r.Err? ==> r.error == BothPasses(m.world, m.readings, now).error
    ensures r.Ok? && now - m.timestampInput > DeltaInput ==> r.value.timestampInput == now
    ensures r.Ok? ==> SameIdentity(m.readings, r.value.readings) && r.value.devices == m.devices
    ensures r.Ok? ==> r.value.snapshots == m.snapshots && r.value.timestampSnapshot == m.timestampSnapshot
  {
    if now - m.timestampInput <= DeltaInput then Ok(m)
    else
      PassesApply(m.world, m.readings, now);
      match RulePass(Sensors, m.world, m.readings, 0, now)
      case Err(c) => Err(c)
      case Ok(first) =>
        match RulePass(RootActuators, first.0, first.1, 0, now)
        case Err(c) => Err(c)
        case Ok(second) => Ok(m.(world := second.0, readings := second.1, timestampInput := now))
  }

  /** Both passes from position 0 are the two reference passes. */
  lemma PassesApply(w: World, rs: seq<Reading>, now: int)
    ensures BothPasses(w, rs, now) ==
      match RulePass(Sensors, w, rs, 0, now)
      case Err(c) => Err(c)
      case Ok(first) => RulePass(RootActuators, first.0, first.1, 0, now)
  {
    RulePassApplies(Sensors, w, rs, 0, now);
    assert rs[0..] == rs && rs[..0] == [];
    match Apply(Sensors, w, rs, now)
    case Err(_) =>
    case Ok(first) =>
      assert [] + first.1 == first.1;
      RulePassApplies(RootActuators, first.0, first.1, 0, now);
      assert first.1[0..] == first.1 && first.1[..0] == [];
      match Apply(RootActuators, first.0, first.1, now)
      case Err(_) =>
      case Ok(second) => assert [] + second.1 == second.1;
  }

  lemma RunInputsKeepsSynced(m: Manager, now: int)
    requires AllSynced(m.readings) && RunInputs(m, now).Ok?
    ensures AllSynced(RunInputs(m, now).value.readings)
  {
    if now - m.timestampInput > DeltaInput {
      RulePassKeepsSynced(Sensors, m.world, m.readings, 0, now);
      var first := RulePass(Sensors, m.world, m.readings, 0, now).value;
      RulePassKeepsSynced(RootActuators, first.0, first.1, 0, now);
    }
  }

  // ---------------------------------------------------------------------------------------------
  // Refresh and snapshots

  /**
   * `update_devices`: when an event is queued, take one off the front, reload every device and
   * rebuild every reading.
   */
  function UpdateDevices(m: Manager, sample: Sampler, now: int): (r: Result<Manager, Crash>)
    ensures m.world.queue == [] ==> r == Ok(m)
    ensures m.world.queue != [] && r.Ok? ==> r.value.world.queue == m.world.queue[1..] && r.value.devices == m.world.store
    ensures r.Ok? && m.world.queue != [] ==> AllSynced(r.value.readings)
    ensures Aligned(m.devices, m.readings) && r.Ok? ==> Aligned(r.value.devices, r.value.readings)
    ensures m.world.queue != [] ==> (r.Ok? <==> Setup(m.world.store, m.world.store, sample, now).Ok?)
    ensures m.world.queue != [] && r.Ok? ==>
      r.value == m.(world := m.world.(queue := m.world.queue[1..]), devices := m.world.store,
                    readings := Setup(m.world.store, m.world.store, sample, now).value)
    ensures r.Err? ==> r.error == Setup(m.world.store, m.world.store, sample, now).error
  {
    if m.world.queue == [] then Ok(m)
    else
      match Setup(m.world.store, m.world.store, sample, now)
      case Err(c) => Err(c)
      case Ok(rs) =>
        Ok(m.(world := m.world.(queue := m.world.queue[1..]), devices := m.world.store, readings := rs))
  }

  function FirstNamed(rs: seq<Reading>, name: string): (r: Option<Reading>)
    ensures r.Some? ==> r.value in rs && r.value.name == name
    ensures r.None? ==> forall x :: x in rs ==> x.name != name
  {
    if rs == [] then None else if rs[0].name == name then Some(rs[0]) else FirstNamed(rs[1..], name)
  }

  /** The sensors among `devices`, in order. */
  function SensorsOf(devices: seq<Device>): (s: seq<Device>)
    ensures |s| <= |devices|
    ensures forall d :: d in s <==> d in devices && GetKind(d.fsmClass) == Sensor
  {
    if devices == [] then []
    else (if GetKind(devices[0].fsmClass) == Sensor then [devices[0]] else []) + SensorsOf(devices[1..])
  }

  /**
   * The snapshot rows for the sensors among `devices`, each with the truncated median of the
   * first reading of that name; the row's timestamp is the creation time (`auto_now_add`).
   */
  function Snapshots(devices: seq<Device>, rs: seq<Reading>, now: int): (r: Result<seq<Snapshot>, Crash>)
    ensures r.Err? ==> r.error == IndexError
    ensures r.Ok? ==> |r.value| <= |devices|
    ensures (forall d :: d in devices ==> exists x :: x in rs && x.name == d.name) ==> r.Ok?
  {
    if devices == [] then Ok([])
    else
      var d := devices[0];
      var head :=
        if GetKind(d.fsmClass) != Sensor then Ok([])
        else
          (match FirstNamed(rs, d.name)
           case None => Err(IndexError)
           case Some(x) => Ok([Snapshot(d.id, now, Utils.Trunc(x.median))]));
      if head.Err? then Err(IndexError)
      else
        match Snapshots(devices[1..], rs, now)
        case Err(c) => Err(c)
        case Ok(tail) => Ok(head.value + tail)
  }

  /**
   * Snapshotting makes exactly one row per sensor device, in device order, each holding the
   * device's id, the current time and the truncated median of its first reading; it fails
   * exactly when some sensor has no reading of its name.
   */
  lemma {:induction false} SnapshotsAreSensorRows(devices: seq<Device>, rs: seq<Reading>, now: int)
    ensures Snapshots(devices, rs, now).Ok? <==> forall d :: d in SensorsOf(devices) ==> FirstNamed(rs, d.name).Some?
    ensures Snapshots(devices, rs, now).Ok? ==> SensorRows(SensorsOf(devices), rs, now, Snapshots(devices, rs, now).value)
    decreases |devices|
  {
    if devices != [] {
      var d := devices[0];
      var tail := SensorsOf(devices[1..]);
      SnapshotsAreSensorRows(devices[1..], rs, now);
      if GetKind(d.fsmClass) == Sensor {
        assert SensorsOf(devices) == [d] + tail;
        if FirstNamed(rs, d.name).Some? && Snapshots(devices[1..], rs, now).Ok? {
          SensorRowsCons(d, tail, rs, now, Snapshots(devices[1..], rs, now).value);
        }
      } else {
        assert SensorsOf(devices) == tail;
      }
    }
  }

  /** `rows` is one snapshot per device of `sensors`, in order, from its first reading. */
  predicate SensorRows(sensors: seq<Device>, rs: seq<Reading>, now: int, rows: seq<Snapshot>) {
    && |rows| == |sensors|
    && forall k :: 0 <= k < |sensors| ==>
      FirstNamed(rs, sensors[k].name).Some?
      && rows[k] == Snapshot(sensors[k].id, now, Utils.Trunc(FirstNamed(rs, sensors[k].name).value.median))
  }

  lemma SensorRowsCons(d: Device, sensors: seq<Device>, rs: seq<Reading>, now: int, rows: seq<Snapshot>)
    requires FirstNamed(rs, d.name).Some? && SensorRows(sensors, rs, now, rows)
    ensures SensorRows([d] + sensors, rs, now, [Snapshot(d.id, now, Utils.Trunc(FirstNamed(rs, d.name).value.median))] + rows)
  {
    var all := [d] + sensors;
    assert forall k :: 1 <= k < |all| ==> all[k] == sensors[k - 1];
  }

  /** `save_snapshot`: gated by `DeltaSnapshot`; one row per sensor device. */
  function SaveSnapshot(m: Manager, now: int): (r: Result<Manager, Crash>)
    ensures now - m.timestampSnapshot <= DeltaSnapshot ==> r == Ok(m)
    ensures now - m.timestampSnapshot > DeltaSnapshot ==> (r.Ok? <==> Snapshots(m.devices, m.readings, now).Ok?)
    ensures now - m.timestampSnapshot > DeltaSnapshot && r.Ok? ==>
      r.value.timestampSnapshot == now && r.value.snapshots == m.snapshots + Snapshots(m.devices, m.readings, now).value
    ensures r.Ok? ==> r.value.world == m.world && r.value.timestampInput == m.timestampInput
    ensures Aligned(m.devices, m.readings) ==> r.Ok?
    ensures r.Ok? ==> r.value.readings == m.readings && r.value.devices == m.devices
  {
    if now - m.timestampSnapshot <= DeltaSnapshot then Ok(m)
    else
      assert Aligned(m.devices, m.readings) ==> forall d :: d in m.devices ==> exists x :: x in m.readings && x.name == d.name by {
        if Aligned(m.devices, m.readings) {
          forall d | d in m.devices ensures exists x :: x in m.readings && x.name == d.name {
            var i :| 0 <= i < |m.devices| && m.devices[i] == d;
            assert m.readings[i] in m.readings;
          }
        }
      }
      match Snapshots(m.devices, m.readings, now)
      case Err(c) => Err(c)
      case Ok(rows) => Ok(m.(timestampSnapshot := now, snapshots := m.snapshots + rows))
  }

  /** `GreenHouseManager.__init__` after the controller started: readings for the given devices. */
  function Init(w: World, devices: seq<Device>, sample: Sampler, now: int): (r: Result<Manager, Crash>)
    ensures r.Ok? ==> Aligned(r.value.devices, r.value.readings) && AllSynced(r.value.readings)
    ensures r.Ok? ==> r.value.timestampInput == now && r.value.timestampSnapshot == now && r.value.snapshots == []
    ensures r.Ok? <==> Setup(w.store, devices, sample, now).Ok?
    ensures r.Ok? ==> r.value.world == w && r.value.devices == devices && r.value.readings == Setup(w.store, devices, sample, now).value
    ensures r.Err? ==> r.error == Setup(w.store, devices, sample, now).error
  {
    match Setup(w.store, devices, sample, now)
    case Err(c) => Err(c)
    case Ok(rs) => Ok(Manager(w, devices, rs, now, now, []))
  }

  /** One iteration of `run`: refresh, read, act, snapshot (the websocket broadcast is left out). */
  function Tick(m: Manager, sample: Sampler, now: int): (r: Result<Manager, Crash>)
    ensures r.Ok? ==> r.value.timestampInput == now || r.value.timestampInput == m.timestampInput
    ensures r.Ok? ==> r.value.timestampSnapshot == now || r.value.timestampSnapshot == m.timestampSnapshot
    ensures r.Ok? ==> m.snapshots <= r.value.snapshots
    ensures r.Ok? ==> r.value.devices == (if m.world.queue == [] then m.devices else m.world.store)
  {
    match UpdateDevices(m, sample, now)
    case Err(c) => Err(c)
    case Ok(m1) =>
      var m2 := m1.(readings := UpdateReadings(m1.readings, sample));
      match RunInputs(m2, now)
      case Err(c) => Err(c)
      case Ok(m3) => SaveSnapshot(m3, now)
  }

  /**
   * The loop's invariants: every reading belongs to its device and its state names its machine's
   * state; and while they hold the snapshot step cannot fail.
   */
  lemma TickKeepsInvariant(m: Manager, sample: Sampler, now: int)
    requires Aligned(m.devices, m.readings) && AllSynced(m.readings)
    requires Tick(m, sample, now).Ok?
    ensures Aligned(Tick(m, sample, now).value.devices, Tick(m, sample, now).value.readings)
    ensures AllSynced(Tick(m, sample, now).value.readings)
  {
    var m1 := UpdateDevices(m, sample, now).value;
    var m2 := m1.(readings := UpdateReadings(m1.readings, sample));
    assert AllSynced(m2.readings);
    RunInputsKeepsSynced(m2, now);
    var m3 := RunInputs(m2, now).value;
    assert Aligned(m3.devices, m3.readings);
  }

  /** On a valid, acyclic table, starting the manager over stored devices and refreshing it never fail. */
  lemma StartAndRefreshSucceed(m: Manager, w: World, devices: seq<Device>, sample: Sampler, now: int)
    requires StoreOk(w.store) && Acyclic(w.store) && forall d :: d in devices ==> d in w.store
    requires StoreOk(m.world.store) && Acyclic(m.world.store)
    ensures Init(w, devices, sample, now).Ok?
    ensures UpdateDevices(m, sample, now).Ok?
  {
    SetupSucceeds(w.store, devices, sample, now);
    SetupSucceeds(m.world.store, m.world.store, sample, now);
  }

  /** Once the invariants hold, a tick fails only in the refresh or the input rules. */
  lemma SnapshotNeverFails(m: Manager, sample: Sampler, now: int)
    requires Aligned(m.devices, m.readings)
    requires UpdateDevices(m, sample, now).Ok?
    requires RunInputs(UpdateDevices(m, sample, now).value.(readings := UpdateReadings(UpdateDevices(m, sample, now).value.readings, sample)), now).Ok?
    ensures Tick(m, sample, now).Ok?
  {
  }
}

=== FILE: mixins.dfy ===
/**
 * The controller side of the hardware: connecting and registering output pins, and the per-class
 * dispatch of reads and writes to the serial commands.
 */
module Mixins {
  import opened Wrappers
  import opened Choices
  import opened Models
  import opened Arduino
  import Numerals

  /** A microcontroller record with its connection handle (`None` when not connected). */
  datatype Controller = Controller(path: string, board: Option<Port>)

  /** `_register_devices`: the non-empty pins of the controller's devices, in order. */
  function RegisterPins(devices: seq<Device>): (r: seq<string>)
    ensures forall x :: x in r ==> x != ""
    ensures forall d :: d in devices && d.pin != "" ==> d.pin in r
    ensures forall x :: x in r ==> exists d :: d in devices && d.pin == x
    ensures |r| <= |devices|
  {
    PinsMembers(devices);
    Pins(devices)
  }

  /** The pin a device contributes: its own when not empty. */
  function PinOf(d: Device): seq<string> {
    if d.pin != "" then [d.pin] else []
  }

  /** The contributed pins, device by device. */
  function Pins(devices: seq<Device>): seq<string> {
    if devices == [] then [] else PinOf(devices[0]) + Pins(devices[1..])
  }

  lemma {:induction false} PinsMembers(devices: seq<Device>)
    ensures forall x :: x in Pins(devices) ==> x != ""
    ensures forall d :: d in devices && d.pin != "" ==> d.pin in Pins(devices)
    ensures forall x :: x in Pins(devices) ==> exists d :: d in devices && d.pin == x
    ensures |Pins(devices)| <= |devices|
    decreases |devices|
  {
    if devices != [] {
      PinsMembers(devices[1..]);
      assert forall d :: d in devices ==> d == devices[0] || d in devices[1..];
    }
  }

  /** One device contributes its pin exactly when the pin is not empty. */
  lemma RegisterPinsOne(d: Device)
    ensures RegisterPins([d]) == (if d.pin != "" then [d.pin] else [])
  {
    assert [d][1..] == [];
    assert Pins([d]) == PinOf(d) + Pins([]);
  }

  /** The pins keep the order of the devices: collecting a concatenation concatenates the pins. */
  lemma RegisterPinsAppend(a: seq<Device>, b: seq<Device>)
    ensures RegisterPins(a + b) == RegisterPins(a) + RegisterPins(b)
  {
    PinsAppend(a, b);
  }

  lemma {:induction false} PinsAppend(a: seq<Device>, b: seq<Device>)
    ensures Pins(a + b) == Pins(a) + Pins(b)
    decreases |a|
  {
    if a == [] {
      assert a + b == b;
    } else {
      var ab := a + b;
      assert ab[0] == a[0] && ab[1..] == a[1..] + b;
      PinsAppend(a[1..], b);
    }
  }

  /** Registration sends the collected pins to `output`. */
  function RegisterDevices(p: Port, devices: seq<Device>): (r: Io<bool>)
    ensures r.Done? ==> r.port.outputPins == Some(RegisterPins(devices))
  {
    Output(p, RegisterPins(devices))
  }

  /** `start`: open a new connection on the controller's path, then register the devices. */
  function Start(c: Controller, devices: seq<Device>, input: seq<string>): (r: Io<Controller>)
    ensures r.Done? ==> r.value == Controller(c.path, Some(r.port))
    ensures r.Done? ==> r.port.isOpen && r.port.outputPins == Some(RegisterPins(devices))
    ensures r.Done? ==> |r.port.written| > 0 && r.port.written[0] == "99"
  {
    match RegisterDevices(Open(input), devices)
    case Done(q, _) => Done(q, Controller(c.path, Some(q)))
    case Raised(q, f) => Raised(q, f)
    case Hung => Hung
  }

  /** `flush`: the pending input is discarded. */
  function Flush(p: Port): (r: Port)
    ensures r.input == [] && r.written == p.written && r.isOpen == p.isOpen
  {
    p.(input := [])
  }

  datatype Stopped = Stopped(controller: Controller, closed: Option<Port>)

  /** `stop`: with a connection, flush, close and forget it; without one, nothing happens. */
  function Stop(c: Controller): (r: Stopped)
    ensures r.controller.board.None? && r.controller.path == c.path
    ensures c.board.None? ==> r == Stopped(c, None)
    ensures c.board.Some? ==> r.closed.Some? && !r.closed.value.isOpen && r.closed.value.input == []
    ensures c.board.Some? ==> r.closed.value.written == c.board.value.written
  {
    match c.board
    case None => Stopped(c, None)
    case Some(p) => Stopped(c.(board := None), Some(Close(Flush(p)).port))
  }

  /**
   * `restart`: stop, then start. It does not depend on the old connection: it is a fresh start
   * on the same path, which opens a new port and registers the pins on it.
   */
  function Restart(c: Controller, devices: seq<Device>, input: seq<string>): (r: Io<Controller>)
    ensures r == Start(Controller(c.path, None), devices, input)
    ensures r.Done? ==> r.value == Controller(c.path, Some(r.port)) && r.port.isOpen
    ensures r.Done? ==> r.port.outputPins == Some(RegisterPins(devices)) && r.port.written[0] == "99"
  {
    Start(Stop(c).controller, devices, input)
  }

  /** With the board ready, starting writes the handshake, the pin count and the pins. */
  lemma StartReady(c: Controller, devices: seq<Device>, rest: seq<string>)
    ensures var pins := RegisterPins(devices);
      var r := Start(c, devices, ReadyLines(1 + |pins|) + rest);
      r.Done? && r.port.written == ["99", Numerals.Str(|pins|)] + pins && r.port.input == rest
  {
    var pins := RegisterPins(devices);
    var input := ReadyLines(1 + |pins|) + rest;
    var q := Port(["99", Numerals.Str(|pins|)] + pins, rest, Some(pins), true);
    OpenOutputReady(pins, rest);
    assert RegisterDevices(Open(input), devices) == Done(q, true);
    StartOf(c, devices, input, q);
  }

  /** On a freshly opened port with the board ready, `output` writes the count and the pins after "99". */
  lemma OpenOutputReady(pins: seq<string>, rest: seq<string>)
    ensures Output(Open(ReadyLines(1 + |pins|) + rest), pins)
      == Done(Port(["99", Numerals.Str(|pins|)] + pins, rest, Some(pins), true), true)
  {
    var p := Open(ReadyLines(1 + |pins|) + rest);
    OutputReady(p, pins, rest);
    assert p.written + [Numerals.Str(|pins|)] + pins == ["99", Numerals.Str(|pins|)] + pins;
  }

  lemma StartOf(c: Controller, devices: seq<Device>, input: seq<string>, q: Port)
    requires RegisterDevices(Open(input), devices) == Done(q, true)
    ensures Start(c, devices, input) == Done(q, Controller(c.path, Some(q)))
  {
  }

  /** The tokens a write puts on the wire for a device of each class. */
  function WriteTokens(d: Device, value: int): seq<string> {
    if d.fsmClass == ClassValue(PWM) then ["6", Numerals.Str(value)]
    else if d.fsmClass == ClassValue(AnalogSensor) then ["3", d.pin, Numerals.Str(value)]
    else if value > 0 then ["1", d.pin]
    else ["0", d.pin]
  }

  /** `write_data`: dispatch by class; the value is returned unchanged. */
  function WriteData(p: Port, value: int, d: Device): (r: Io<int>)
    ensures r.Done? ==> r.value == value && r.port.written == p.written + WriteTokens(d, value)
    ensures r.Done? ==> r.port.outputPins == p.outputPins
  {
    var call :=
      if d.fsmClass == ClassValue(PWM) then MoveServo(p, value)
      else if d.fsmClass == ClassValue(AnalogSensor) then AnalogWrite(p, d.pin, value)
      else if value > 0 then SetHigh(p, d.pin)
      else SetLow(p, d.pin);
    match call
    case Done(q, _) => Done(q, value)
    case Raised(q, f) => Raised(q, f)
    case Hung => Hung
  }

  /** `int(reply)`, raising `ValueError` on text that is not an integer. */
  function ParseReply(r: Io<string>): (x: Io<Option<int>>)
    ensures x.Done? ==> r.Done? && x.port == r.port && Numerals.ParseInt(r.value) == x.value && x.value.Some?
    ensures x.Raised? && r.Done? ==> x.fault == ValueError && Numerals.ParseInt(r.value).None?
  {
    match r
    case Done(q, line) =>
      (match Numerals.ParseInt(line)
       case Some(v) => Done(q, Some(v))
       case None => Raised(q, ValueError))
    case Raised(q, f) => Raised(q, f)
    case Hung => Hung
  }

  /** The tokens a read puts on the wire for a device of each class. */
  function ReadTokens(d: Device): seq<string> {
    if d.fsmClass == ClassValue(PWM) then ["7"]
    else if d.fsmClass == ClassValue(I2C) then ["5"]
    else if d.fsmClass == ClassValue(AnalogSensor) then ["4", d.pin]
    else if d.fsmClass == ClassValue(DigitalActuator) then ["2", d.pin]
    else []
  }

  /**
   * `read_data`: servo and bus replies parsed as integers; an analog read that raises or does not
   * parse reads as 0; a digital pin state reads as 1 or 0; any other class reads nothing.
   */
  function ReadData(p: Port, d: Device): (r: Io<Option<int>>)
    ensures r.Done? ==> r.port.written == p.written + ReadTokens(d) || (d.fsmClass == ClassValue(AnalogSensor) && r.value == Some(0))
    ensures d.fsmClass == ClassValue(AnalogSensor) ==> !r.Raised? && (r.Done? ==> r.value.Some?)
    ensures d.fsmClass == ClassValue(DigitalActuator) && r.Done? ==> r.value == Some(0) || r.value == Some(1)
    ensures ParseClass(d.fsmClass).None? ==> r == Done(p, None)
    ensures ParseClass(d.fsmClass).Some? && r.Done? ==> r.value.Some?
  {
    assert ClassValue(PWM)[0] == 'P' && ClassValue(I2C)[0] == 'I';
    assert ClassValue(AnalogSensor)[0] == 'A' && ClassValue(DigitalActuator)[0] == 'D';
    if d.fsmClass == ClassValue(PWM) then ParseReply(ReadServo(p))
    else if d.fsmClass == ClassValue(I2C) then ParseReply(I2cRead(p))
    else if d.fsmClass == ClassValue(AnalogSensor) then
      (match ParseReply(AnalogRead(p, d.pin))
       case Done(q, v) => Done(q, v)
       case Raised(q, _) => Done(q, Some(0))
       case Hung => Hung)
    else if d.fsmClass == ClassValue(DigitalActuator) then
      (match GetState(p, d.pin)
       case Done(q, high) => Done(q, Some(if high then 1 else 0))
       case Raised(q, f) => Raised(q, f)
       case Hung => Hung)
    else Done(p, None)
  }

  /** With the board ready, an analog read returns the parsed reply, or 0 when it does not parse. */
  lemma ReadAnalogReady(p: Port, d: Device, reply: string, rest: seq<string>)
    requires d.fsmClass == ClassValue(AnalogSensor)
    requires p.input == ReadyLines(2) + [reply] + rest
    ensures var r := ReadData(p, d);
      var parsed := Numerals.ParseInt(StripNewlines(reply));
      r.Done? && r.value == Some(if parsed.Some? then parsed.value else 0)
      && r.port.written == p.written + ["4", d.pin] && r.port.input == rest
  {
    var q := p.(written := p.written + ["4", d.pin], input := rest);
    var line := StripNewlines(reply);
    RequestReady(p, ["4", d.pin], reply, rest);
    assert AnalogRead(p, d.pin) == Done(q, line);
    var parsed := Numerals.ParseInt(line);
    var x := ParseReply(Done(q, line));
    assert x == if parsed.Some? then Done(q, parsed) else Raised(q, ValueError);
    AnalogDispatch(p, d);
  }

  lemma AnalogDispatch(p: Port, d: Device)
    requires d.fsmClass == ClassValue(AnalogSensor)
    ensures ReadData(p, d) == (match ParseReply(AnalogRead(p, d.pin))
       case Done(q, v) => Done(q, v)
       case Raised(q, _) => Done(q, Some(0))
       case Hung => Hung)
  {
    assert d.fsmClass[0] == 'A';
    assert ClassValue(PWM)[0] == 'P' && ClassValue(I2C)[0] == 'I';
  }

  /**
   * With the board ready, a servo or bus read writes its opcode and returns the parsed reply; a
   * reply that is not an integer raises `ValueError`, which `read_data` does not catch.
   */
  lemma ReadParsedReady(p: Port, d: Device)
    requires d.fsmClass == ClassValue(PWM) || d.fsmClass == ClassValue(I2C)
    requires ReadyFor(p, 1) && |p.input| > 1
    ensures var parsed := Numerals.ParseInt(StripNewlines(p.input[1]));
      var q := p.(written := p.written + ReadTokens(d), input := p.input[2..]);
      ReadData(p, d) == if parsed.Some? then Done(q, parsed) else Raised(q, ValueError)
  {
    assert ClassValue(PWM)[0] == 'P' && ClassValue(I2C)[0] == 'I';
    assert ClassValue(AnalogSensor)[0] == 'A' && ClassValue(DigitalActuator)[0] == 'D';
  }

  /**
   * With the board ready, a digital actuator's read writes "2" and its pin and reads 1 exactly
   * when the reply starts with '1'; an empty reply raises `IndexError`.
   */
  lemma ReadDigitalReady(p: Port, d: Device)
    requires d.fsmClass == ClassValue(DigitalActuator)
    requires ReadyFor(p, 2) && |p.input| > 2
    ensures var line := StripNewlines(p.input[2]);
      var q := p.(written := p.written + ["2", d.pin], input := p.input[3..]);
      ReadData(p, d) == if line == [] then Raised(q, IndexError) else Done(q, Some(if line[0] == '1' then 1 else 0))
  {
    assert ClassValue(PWM)[0] == 'P' && ClassValue(I2C)[0] == 'I';
    assert ClassValue(AnalogSensor)[0] == 'A' && d.fsmClass[0] == 'D';
    RequestReadyFor(p, ["2", d.pin]);
  }

  /** A reply of a bare newline reads as 0. */
  lemma NewlineReadsZero(p: Port, d: Device, rest: seq<string>)
    requires d.fsmClass == ClassValue(AnalogSensor)
    requires p.input == ReadyLines(2) + ["\n"] + rest
    ensures ReadData(p, d).Done? && ReadData(p, d).value == Some(0)
  {
    ReadAnalogReady(p, d, "\n", rest);
    assert StripNewlines("\n") == [];
  }
}

=== FILE: models.dfy ===
/**
 * The stored device record, its validation (the first error in checking order is reported), and
 * saving it into the device store. The store is a list of rows; the tree manager's order (roots
 * by name with their children under them) is not modelled.
 */
module Models {
  import opened Wrappers
  import opened Choices
  import Numerals

  /** The inclusive `[low, high]` pair a state's threshold entry holds. */
  datatype Range = Range(lo: real, hi: real)

  /**
   * A device as stored. `after`/`before` are times of day in microseconds since midnight (`None`
   * is the nullable column left empty); `parent` is the id of the parent device.
   */
  datatype Device = Device(
    id: int,
    fsmClass: string,
    category: string,
    name: string,
    pin: string,
    blob: Blob,
    parent: Option<int>,
    after: Option<int>,
    before: Option<int>,
    thresholds: map<string, Range>,
    desiredState: string)

  datatype Kind = Sensor | Actuator

  /**
   * Why a save is refused: the validation errors of `full_clean`, and `InvalidMove`, the tree's
   * refusal to put a node under itself or under one of its own descendants.
   */
  datatype ValidationError =
    | Blank(field: string)
    | TooLong(field: string)
    | NotAttrCompatible(value: string)
    | UnknownChoice(field: string)
    | UnknownParent(id: int)
    | NameTaken(name: string)
    | MissingCategory
    | BlobNotAllowed(fsmClass: string)
    | StateNotInThresholds(state: string)
    | DesiredStateNotInThresholds(state: string)
    | InvalidMove(id: int)

  /** The defaults of the `after` and `before` columns: 08:00 and 21:00, in microseconds. */
  const DefaultAfter: int := 8 * 3600 * 1000000
  const DefaultBefore: int := 21 * 3600 * 1000000

  /** The `max_length` of the device's character columns. */
  const MaxLength: int := 50

  /** The blob column's default: the middle state of the five-level sensors. */
  function DefaultBlob(): (b: Blob)
    ensures b in AnalogSensorBlobs && b in I2CBlobs
    ensures b == AnalogSensorBlobs[2] && b[StateKey] == "medium"
  {
    BlobOf("medium")
  }

  /** Python's reserved words (`keyword.kwlist`). */
  const Keywords: set<string> := {
    "False", "None", "True", "and", "as", "assert", "async", "await", "break", "class",
    "continue", "def", "del", "elif", "else", "except", "finally", "for", "from", "global",
    "if", "import", "in", "is", "lambda", "nonlocal", "not", "or", "pass", "raise", "return",
    "try", "while", "with", "yield"}

  predicate IsIdentifierStart(c: char) {
    ('a' <= c <= 'z') || ('A' <= c <= 'Z') || c == '_'
  }

  predicate IsIdentifierPart(c: char) {
    IsIdentifierStart(c) || Numerals.IsDigit(c)
  }

  /** `str.isidentifier()` restricted to ASCII letters, digits and the underscore. */
  predicate IsIdentifier(s: string) {
    |s| > 0 && IsIdentifierStart(s[0]) && forall i :: 1 <= i < |s| ==> IsIdentifierPart(s[i])
  }

  /** A device name must be usable as a Python attribute name. */
  function ValidateAttrCompatible(value: string): (r: Outcome<ValidationError>)
    ensures r.Pass? <==> IsIdentifier(value) && value !in Keywords
    ensures r.Pass? ==> |value| > 0 && !Numerals.IsDigit(value[0]) && value !in Keywords
    ensures r.Pass? ==> forall i :: 0 <= i < |value| ==> IsIdentifierPart(value[i])
    ensures r.Fail? ==> r.error == NotAttrCompatible(value)
  {
    if IsIdentifier(value) && value !in Keywords then Pass else Fail(NotAttrCompatible(value))
  }

  lemma AttrCompatibleExamples()
    ensures ValidateAttrCompatible("for").Fail?
    ensures ValidateAttrCompatible("1foo").Fail?
    ensures ValidateAttrCompatible("").Fail?
    ensures ValidateAttrCompatible("foo").Pass?
    ensures ValidateAttrCompatible("temperature_1").Pass?
  {
    assert "foo" !in Keywords;
    assert "temperature_1" !in Keywords;
  }

  /** Sensors are exactly the analog and the bus sensors; every other class string is an actuator. */
  function GetKind(fsmClass: string): (k: Kind)
    ensures k == Sensor <==> ParseClass(fsmClass) in {Some(AnalogSensor), Some(I2C)}
  {
    if fsmClass == ClassValue(AnalogSensor) || fsmClass == ClassValue(I2C) then Sensor else Actuator
  }

  /**
   * The data-model invariant of one device, stated declaratively: an analog sensor has a category,
   * a device of a known class holds one of that class's blobs, a sensor's state and every
   * device's desired state are threshold keys.
   */
  predicate CleanInvariant(d: Device) {
    && (d.fsmClass == ClassValue(AnalogSensor) ==> d.category != "")
    && (forall c :: ParseClass(d.fsmClass) == Some(c) ==> d.blob in AllowedBlobs(c))
    && (GetKind(d.fsmClass) == Sensor ==> StateKey in d.blob && d.blob[StateKey] in d.thresholds)
    && d.desiredState in d.thresholds
  }

  /** The blob checks of `Device.clean` for the device's own class. */
  function CleanBlob(d: Device): (r: Outcome<ValidationError>)
    ensures r.Pass? <==> (forall c :: ParseClass(d.fsmClass) == Some(c) ==> d.blob in AllowedBlobs(c))
                         && (GetKind(d.fsmClass) == Sensor ==> StateKey in d.blob && d.blob[StateKey] in d.thresholds)
    ensures ParseClass(d.fsmClass).Some? && d.blob !in AllowedBlobs(ParseClass(d.fsmClass).value) ==>
      r == Fail(BlobNotAllowed(d.fsmClass))
    ensures r.Fail? && !r.error.BlobNotAllowed? ==> r == Fail(StateNotInThresholds(d.blob[StateKey]))
  {
    var cls := ParseClass(d.fsmClass);
    if cls.None? then Pass
    else if d.blob !in AllowedBlobs(cls.value) then Fail(BlobNotAllowed(d.fsmClass))
    else if cls.value in {AnalogSensor, I2C} then
      AllowedBlobShape(cls.value, d.blob);
      if d.blob[StateKey] !in d.thresholds then Fail(StateNotInThresholds(d.blob[StateKey])) else Pass
    else Pass
  }

  /**
   * `Device.clean`: the missing-category check first, then the class's blob checks, then the
   * desired state; the first failing check is reported.
   */
  function Clean(d: Device): (r: Outcome<ValidationError>)
    ensures r.Pass? <==> CleanInvariant(d)
    ensures d.fsmClass == ClassValue(AnalogSensor) && d.category == "" ==> r == Fail(MissingCategory)
    ensures !(d.fsmClass == ClassValue(AnalogSensor) && d.category == "") && CleanBlob(d).Fail? ==> r == CleanBlob(d)
    ensures !(d.fsmClass == ClassValue(AnalogSensor) && d.category == "") && CleanBlob(d).Pass? ==>
      (r.Fail? <==> d.desiredState !in d.thresholds) && (r.Fail? ==> r == Fail(DesiredStateNotInThresholds(d.desiredState)))
  {
    if d.fsmClass == ClassValue(AnalogSensor) && d.category == "" then Fail(MissingCategory)
    else if CleanBlob(d).Fail? then CleanBlob(d)
    else if d.desiredState !in d.thresholds then Fail(DesiredStateNotInThresholds(d.desiredState))
    else Pass
  }

  function FindById(store: seq<Device>, id: int): (r: Option<Device>)
    ensures r.Some? ==> r.value in store && r.value.id == id
    ensures r.None? ==> forall e :: e in store ==> e.id != id
  {
    if store == [] then None
    else if store[0].id == id then Some(store[0])
    else FindById(store[1..], id)
  }

  /**
   * What the column definitions demand of a device on its own: a known class, a known category
   * or none, a non-blank attribute-compatible name, a non-blank desired state, and at most
   * `MaxLength` characters in the name, the pin and the desired state.
   */
  predicate FieldShape(d: Device) {
    && ParseClass(d.fsmClass).Some?
    && (d.category == "" || d.category in Categories)
    && d.name != "" && ValidateAttrCompatible(d.name).Pass? && |d.name| <= MaxLength
    && |d.pin| <= MaxLength
    && d.desiredState != "" && |d.desiredState| <= MaxLength
  }

  /** No other stored device holds the name (the `unique` name column). */
  predicate NameFree(store: seq<Device>, d: Device) {
    forall e :: e in store && e.id != d.id ==> e.name != d.name
  }

  /**
   * `clean_fields`: each column in declaration order (`fsm_class`, `category`, `name`, `pin`,
   * `parent`, `desired_state`); within a column the blank check, then the choices or the
   * validators, the name validator before the length limit; the parent must be a stored device.
   */
  function CleanFields(store: seq<Device>, d: Device): (r: Outcome<ValidationError>)
    ensures r.Pass? <==> FieldShape(d) && (d.parent.Some? ==> FindById(store, d.parent.value).Some?)
    ensures d.fsmClass == "" ==> r == Fail(Blank("fsm_class"))
    ensures d.fsmClass != "" && ParseClass(d.fsmClass).None? ==> r == Fail(UnknownChoice("fsm_class"))
    ensures ParseClass(d.fsmClass).Some? && (d.category == "" || d.category in Categories) ==>
      (d.name == "" ==> r == Fail(Blank("name")))
      && (d.name != "" && ValidateAttrCompatible(d.name).Fail? ==> r == Fail(NotAttrCompatible(d.name)))
    ensures r.Fail? && r.error.UnknownParent? ==> d.parent == Some(r.error.id) && FindById(store, r.error.id).None?
  {
    if d.fsmClass == "" then Fail(Blank("fsm_class"))
    else if ParseClass(d.fsmClass).None? then Fail(UnknownChoice("fsm_class"))
    else if d.category != "" && d.category !in Categories then Fail(UnknownChoice("category"))
    else if d.name == "" then Fail(Blank("name"))
    else if ValidateAttrCompatible(d.name).Fail? then ValidateAttrCompatible(d.name)
    else if |d.name| > MaxLength then Fail(TooLong("name"))
    else if |d.pin| > MaxLength then Fail(TooLong("pin"))
    else if d.parent.Some? && FindById(store, d.parent.value).None? then Fail(UnknownParent(d.parent.value))
    else if d.desiredState == "" then Fail(Blank("desired_state"))
    else if |d.desiredState| > MaxLength then Fail(TooLong("desired_state"))
    else Pass
  }

  /** `full_clean`: the field checks, then `clean`, then the uniqueness of the name. */
  function FullClean(store: seq<Device>, d: Device): (r: Outcome<ValidationError>)
    ensures r.Pass? <==> CleanFields(store, d).Pass? && CleanInvariant(d) && NameFree(store, d)
    ensures CleanFields(store, d).Fail? ==> r == CleanFields(store, d)
    ensures CleanFields(store, d).Pass? && Clean(d).Fail? ==> r == Clean(d)
    ensures CleanFields(store, d).Pass? && Clean(d).Pass? && !NameFree(store, d) ==> r == Fail(NameTaken(d.name))
  {
    if CleanFields(store, d).Fail? then CleanFields(store, d)
    else if Clean(d).Fail? then Clean(d)
    else if !NameFree(store, d) then Fail(NameTaken(d.name))
    else Pass
  }

  /**
   * Whether `a` is on the parent chain that starts at `id` (`id` itself included), following at
   * most `fuel` parent links.
   */
  function OnChain(store: seq<Device>, a: int, id: int, fuel: nat): (b: bool)
    ensures b && a != id ==> fuel > 1 && FindById(store, id).Some? && FindById(store, id).value.parent.Some?
    decreases fuel
  {
    if fuel == 0 then false
    else if id == a then true
    else
      match FindById(store, id)
      case None => false
      case Some(e) =>
        match e.parent
        case None => false
        case Some(p) => OnChain(store, a, p, fuel - 1)
  }

  /**
   * The tree refuses to re-parent a stored device under itself or under one of its descendants,
   * that is, when the device is on the new parent's chain of ancestors.
   */
  predicate MovesUnderItself(store: seq<Device>, d: Device) {
    HasId(store, d.id) && d.parent.Some? && OnChain(store, d.id, d.parent.value, |store| + 1)
  }

  /** The parent links form a forest: no stored device lies on its own parent's chain of ancestors. */
  predicate Acyclic(store: seq<Device>) {
    forall e :: e in store && e.parent.Some? ==> !OnChain(store, e.id, e.parent.value, |store| + 1)
  }

  /** A stored device never becomes its own parent. */
  lemma SelfParentRefused(store: seq<Device>, d: Device)
    requires HasId(store, d.id) && d.parent == Some(d.id)
    ensures Save(store, d).Err?
  {
    assert OnChain(store, d.id, d.id, |store| + 1);
  }

  /** A stored device is not moved under its own child. */
  lemma ChildParentRefused(store: seq<Device>, d: Device, c: Device)
    requires c in store && c.parent == Some(d.id) && c.id != d.id && HasId(store, d.id)
    requires UniqueIds(store)
    requires d.parent == Some(c.id)
    ensures Save(store, d).Err?
  {
    FindByIdUnique(store, c);
    assert OnChain(store, d.id, d.id, |store|);
    assert OnChain(store, d.id, c.id, |store| + 1);
  }

  predicate UniqueIds(store: seq<Device>) {
    forall i, j :: 0 <= i < j < |store| ==> store[i].id != store[j].id
  }

  /** With unique ids, looking a stored device up by its id finds it. */
  lemma FindByIdUnique(store: seq<Device>, c: Device)
    requires c in store && UniqueIds(store)
    ensures FindById(store, c.id) == Some(c)
  {
    if store[0] != c {
      assert c in store[1..];
      var k :| 0 < k < |store| && store[k] == c;
      assert UniqueIds(store[1..]) by {
        forall i, j | 0 <= i < j < |store[1..]| ensures store[1..][i].id != store[1..][j].id {
          assert store[1..][i] == store[i + 1] && store[1..][j] == store[j + 1];
        }
      }
      FindByIdUnique(store[1..], c);
    }
  }

  predicate HasId(store: seq<Device>, id: int) {
    exists f :: f in store && f.id == id
  }

  predicate AllClean(store: seq<Device>) {
    forall e :: e in store ==> FieldShape(e) && CleanInvariant(e)
  }

  predicate UniqueKeys(store: seq<Device>) {
    forall i, j :: 0 <= i < j < |store| ==> store[i].id != store[j].id && store[i].name != store[j].name
  }

  predicate ParentsPresent(store: seq<Device>) {
    forall e :: e in store && e.parent.Some? ==> HasId(store, e.parent.value)
  }

  /** Every stored device passed validation, ids and names are unique, parents exist. */
  predicate StoreOk(store: seq<Device>) {
    AllClean(store) && UniqueKeys(store) && ParentsPresent(store)
  }

  datatype Saved = Saved(store: seq<Device>, created: bool)

  function IndexOfId(store: seq<Device>, id: int): (i: nat)
    ensures i <= |store|
    ensures i < |store| ==> store[i].id == id
    ensures forall j :: 0 <= j < i ==> store[j].id != id
  {
    if store == [] || store[0].id == id then 0 else 1 + IndexOfId(store[1..], id)
  }

  /**
   * `Device.save`: full validation first, then the tree's move check; a new id is inserted at the
   * front, an existing id is replaced in place.
   */
  function Save(store: seq<Device>, d: Device): (r: Result<Saved, ValidationError>)
    ensures r.Ok? <==> FullClean(store, d).Pass? && !MovesUnderItself(store, d)
    ensures FullClean(store, d).Fail? ==> r == Err(FullClean(store, d).error)
    ensures FullClean(store, d).Pass? && MovesUnderItself(store, d) ==> r == Err(InvalidMove(d.id))
    ensures r.Ok? ==> d in r.value.store
    ensures r.Ok? ==> (r.value.created <==> forall e :: e in store ==> e.id != d.id)
    ensures r.Ok? ==> |r.value.store| == |store| + (if r.value.created then 1 else 0)
    ensures r.Ok? ==> forall e :: e in store && e.id != d.id ==> e in r.value.store
    ensures r.Ok? ==> forall e :: e in r.value.store ==> e == d || e in store
  {
    if FullClean(store, d).Fail? then Err(FullClean(store, d).error)
    else if MovesUnderItself(store, d) then Err(InvalidMove(d.id))
    else
      var i := IndexOfId(store, d.id);
      if i == |store| then Ok(Saved([d] + store, true))
      else
        var s' := store[i := d];
        assert forall e :: e in store && e.id != d.id ==> e in s' by {
          forall e | e in store && e.id != d.id ensures e in s' {
            var k :| 0 <= k < |store| && store[k] == e;
            assert s'[k] == e;
          }
        }
        assert s'[i] == d;
        assert forall e :: e in s' ==> e == d || e in store by {
          forall e | e in s' ensures e == d || e in store {
            var k :| 0 <= k < |s'| && s'[k] == e;
            if k != i { assert store[k] == e; }
          }
        }
        Ok(Saved(s', false))
  }

  /** Saving a device that passed validation into a valid store keeps the store valid. */
  lemma SavePreservesStoreOk(store: seq<Device>, d: Device)
    requires StoreOk(store)
    requires Save(store, d).Ok?
    ensures StoreOk(Save(store, d).value.store)
  {
    var s' := Save(store, d).value.store;
    assert CleanFields(store, d).Pass? && CleanInvariant(d);
    var i := IndexOfId(store, d.id);
    if i == |store| {
      assert s' == [d] + store;
      InsertKeepsUnique(store, d);
    } else {
      assert s' == store[i := d];
      ReplaceKeepsUnique(store, d, i);
    }
    SaveKeepsParents(store, d);
  }

  /** Saving keeps every parent reference pointing at a stored device. */
  lemma SaveKeepsParents(store: seq<Device>, d: Device)
    requires StoreOk(store)
    requires Save(store, d).Ok?
    ensures ParentsPresent(Save(store, d).value.store)
  {
    assert CleanFields(store, d).Pass?;
    ParentsAfterSave(store, d, Save(store, d).value.store);
  }

  /** A table holding `d` and the old rows with other ids, and nothing else, keeps its parents. */
  lemma ParentsAfterSave(store: seq<Device>, d: Device, s': seq<Device>)
    requires ParentsPresent(store)
    requires d in s' && forall e :: e in store && e.id != d.id ==> e in s'
    requires forall e :: e in s' ==> e == d || e in store
    requires d.parent.Some? ==> FindById(store, d.parent.value).Some?
    ensures ParentsPresent(s')
  {
    forall e | e in s' && e.parent.Some? ensures HasId(s', e.parent.value) {
      var p := e.parent.value;
      if e == d {
        assert FindById(store, p).Some?;
      } else {
        assert HasId(store, p);
      }
      var g :| g in store && g.id == p;
      if g.id == d.id { assert d in s'; } else { assert g in s'; }
    }
  }

  lemma InsertKeepsUnique(store: seq<Device>, d: Device)
    requires UniqueKeys(store)
    requires forall e :: e in store ==> e.id != d.id && e.name != d.name
    ensures UniqueKeys([d] + store)
  {
    var s' := [d] + store;
    forall a, b | 0 <= a < b < |s'| ensures s'[a].id != s'[b].id && s'[a].name != s'[b].name {
      assert s'[b] == store[b - 1];
      if a > 0 { assert s'[a] == store[a - 1]; }
    }
  }

  lemma ReplaceKeepsUnique(store: seq<Device>, d: Device, i: nat)
    requires UniqueKeys(store)
    requires i < |store| && store[i].id == d.id
    requires forall e :: e in store && e.id != d.id ==> e.name != d.name
    ensures UniqueKeys(store[i := d])
  {
    var s' := store[i := d];
    forall a, b | 0 <= a < b < |s'| ensures s'[a].id != s'[b].id && s'[a].name != s'[b].name {
      if a != i { assert s'[a] == store[a]; }
      if b != i { assert s'[b] == store[b]; }
      if a == i { assert store[b].id != store[i].id; }
      if b == i { assert store[a].id != store[i].id; }
    }
  }
}

=== FILE: numerals.dfy ===
/** Decimal text of integers: Python's `str(n)` for an `int` and `int(s)` for a `str`. */
module Numerals {
  import opened Wrappers

  predicate IsDigit(c: char) {
    '0' <= c <= '9'
  }

  predicate AllDigits(s: string) {
    forall i :: 0 <= i < |s| ==> IsDigit(s[i])
  }

  function DigitChar(d: int): (c: char)
    requires 0 <= d < 10
    ensures IsDigit(c)
  {
    ('0' as int + d) as char
  }

  function DigitValue(c: char): (d: int)
    requires IsDigit(c)
    ensures 0 <= d < 10
  {
    c as int - '0' as int
  }

  /** The decimal digits of `n`, most significant first, without leading zeros. */
  function NatDigits(n: nat): (s: string)
    ensures |s| > 0 && AllDigits(s)
    ensures n < 10 <==> |s| == 1
    ensures |s| > 1 ==> s[0] != '0'
    decreases n
  {
    if n < 10 then [DigitChar(n)] else NatDigits(n / 10) + [DigitChar(n % 10)]
  }

  /** Python's `str(n)` for an integer `n`: a minus sign for a negative number, then the digits. */
  function Str(n: int): (s: string)
    ensures |s| > 0
    ensures n >= 0 <==> AllDigits(s)
    ensures n < 0 <==> s[0] == '-'
    ensures n >= 0 ==> DigitsValue(s) == n && (|s| > 1 ==> s[0] != '0')
    ensures n < 0 ==> AllDigits(s[1..]) && DigitsValue(s[1..]) == -n
  {
    DigitsRoundTrip(if n < 0 then -n else n);
    if n < 0 then
      var s := "-" + NatDigits(-n);
      assert !IsDigit(s[0]);
      s
    else
      NatDigits(n)
  }

  /** The value of a string of decimal digits, read most significant first. */
  function DigitsValue(s: string): nat
    requires AllDigits(s)
    decreases |s|
  {
    if s == [] then 0 else DigitsValue(s[..|s| - 1]) * 10 + DigitValue(s[|s| - 1])
  }

  lemma {:induction false} DigitsRoundTrip(n: nat)
    ensures DigitsValue(NatDigits(n)) == n
    decreases n
  {
    if n >= 10 {
      var s := NatDigits(n);
      assert s[..|s| - 1] == NatDigits(n / 10);
      DigitsRoundTrip(n / 10);
    }
  }

  /** The characters Python's `str.isspace` accepts (and `str.strip`/`int()` remove). */
  predicate IsSpace(c: char) {
    var n := c as int;
    if n <= 32 then 9 <= n <= 13 || 28 <= n
    else if n < 0x2000 then n == 0x85 || n == 0xA0 || n == 0x1680
    else n <= 0x200A || n == 0x2028 || n == 0x2029 || n == 0x202F || n == 0x205F || n == 0x3000
  }

  /** Python's `s.lstrip()`. */
  function LStrip(s: string): (r: string)
    ensures |r| <= |s| && r == s[|s| - |r|..]
    ensures |r| > 0 ==> !IsSpace(r[0])
    ensures forall i :: 0 <= i < |s| - |r| ==> IsSpace(s[i])
    decreases |s|
  {
    if |s| > 0 && IsSpace(s[0]) then LStrip(s[1..]) else s
  }

  /** Python's `s.rstrip()`. */
  function RStrip(s: string): (r: string)
    ensures |r| <= |s| && r == s[..|r|]
    ensures |r| > 0 ==> !IsSpace(r[|r| - 1])
    ensures forall i :: |r| <= i < |s| ==> IsSpace(s[i])
    decreases |s|
  {
    if |s| > 0 && IsSpace(s[|s| - 1]) then RStrip(s[..|s| - 1]) else s
  }

  /** Python's `s.strip()`. */
  function Strip(s: string): string {
    RStrip(LStrip(s))
  }

  /** One or more ASCII decimal digits, after an optional sign. */
  predicate SignedDigits(t: string) {
    (|t| > 0 && AllDigits(t)) || (|t| > 1 && (t[0] == '-' || t[0] == '+') && AllDigits(t[1..]))
  }

  /** An optional sign, then one or more ASCII decimal digits; `None` for anything else. */
  function ReadSigned(t: string): (r: Option<int>)
    ensures r.Some? <==> SignedDigits(t)
    ensures t == [] ==> r.None?
    ensures |t| > 0 && AllDigits(t) ==> r == Some(DigitsValue(t))
  {
    var negative := |t| > 0 && t[0] == '-';
    var signed := |t| > 0 && (t[0] == '-' || t[0] == '+');
    var body := if signed then t[1..] else t;
    if |body| > 0 && AllDigits(body) then
      var v: int := DigitsValue(body);
      Some(if negative then -v else v)
    else
      None
  }

  /**
   * Python's `int(s)` for a `str`: surrounding whitespace, an optional sign, then one or more
   * ASCII decimal digits. `None` stands for the `ValueError` Python raises otherwise.
   */
  function ParseInt(s: string): (r: Option<int>)
    ensures Strip(s) == [] ==> r.None?
    ensures |Strip(s)| > 0 && AllDigits(Strip(s)) ==> r == Some(DigitsValue(Strip(s)))
    ensures |Strip(s)| > 1 && Strip(s)[0] == '-' && AllDigits(Strip(s)[1..]) ==> r == Some(-(DigitsValue(Strip(s)[1..]) as int))
    ensures |Strip(s)| > 1 && Strip(s)[0] == '+' && AllDigits(Strip(s)[1..]) ==> r == Some(DigitsValue(Strip(s)[1..]))
    ensures r.Some? <==> SignedDigits(Strip(s))
  {
    ReadSigned(Strip(s))
  }

  lemma {:induction false} StripNoSpace(s: string)
    requires |s| > 0 && !IsSpace(s[0]) && !IsSpace(s[|s| - 1])
    ensures Strip(s) == s
  {
  }

  /** An unsigned digit string reads as its value. */
  lemma {:induction false} ParseUnsigned(t: string)
    requires |t| > 0 && AllDigits(t)
    ensures ParseInt(t) == Some(DigitsValue(t))
  {
    assert IsDigit(t[0]) && IsDigit(t[|t| - 1]);
    StripNoSpace(t);
  }

  /** A minus sign followed by the digits of `m` reads as `-m`. */
  lemma {:induction false} ParseNegative(m: nat)
    ensures ParseInt("-" + NatDigits(m)) == Some(-(m as int))
  {
    var d := NatDigits(m);
    var t := "-" + d;
    assert t[|t| - 1] == d[|d| - 1] && IsDigit(d[|d| - 1]);
    StripNoSpace(t);
    assert ReadSigned(t) == Some(-(m as int)) by {
      assert t[1..] == d && !IsDigit(t[0]);
      DigitsRoundTrip(m);
    }
  }

  /** The digits of `m` read as `m`. */
  lemma {:induction false} ParseNatDigits(m: nat)
    ensures ParseInt(NatDigits(m)) == Some(m)
  {
    ParseUnsigned(NatDigits(m));
    DigitsRoundTrip(m);
  }

  /** Reading back what `str(n)` printed gives `n`: `int(str(n)) == n`. */
  lemma {:induction false} ParseStr(n: int)
    ensures ParseInt(Str(n)) == Some(n)
  {
    if n < 0 {
      var m: nat := -n;
      assert Str(n) == "-" + NatDigits(m);
      ParseNegative(m);
    } else {
      assert Str(n) == NatDigits(n);
      ParseNatDigits(n);
    }
  }
}

=== FILE: plant_form.dfy ===
/** The plant form's search helpers: escaping the query and choosing the suggestions to offer. */
module PlantForm {
  import opened Wrappers
  import opened Json

  /** The characters the class `[.*+?^${}()|[\]\\]` matches: the regular-expression metacharacters. */
  predicate IsMeta(c: char) {
    c in ".*+?^${}()|[]\\"
  }

  function MetaCount(s: string): nat
    decreases |s|
  {
    if s == [] then 0 else (if IsMeta(s[0]) then 1 else 0) + MetaCount(s[1..])
  }

  /** `str.replace(/[.*+?^${}()|[\]\\]/g, '\\$&')`: a backslash before every metacharacter. */
  function Escape(s: string): (r: string)
    ensures |r| == |s| + MetaCount(s)
    ensures r == [] <==> s == []
    decreases |s|
  {
    if s == [] then []
    else (if IsMeta(s[0]) then ['\\', s[0]] else [s[0]]) + Escape(s[1..])
  }

  /** Drops the backslash in front of each escaped character. */
  function Unescape(r: string): string
    decreases |r|
  {
    if r == [] then []
    else if |r| >= 2 && r[0] == '\\' then [r[1]] + Unescape(r[2..])
    else [r[0]] + Unescape(r[1..])
  }

  /** Deleting each inserted backslash recovers the query. */
  lemma {:induction false} EscapeRoundTrip(s: string)
    ensures Unescape(Escape(s)) == s
    decreases |s|
  {
    if s != [] {
      var rest := Escape(s[1..]);
      EscapeRoundTrip(s[1..]);
      if IsMeta(s[0]) {
        assert Escape(s) == ['\\', s[0]] + rest;
        assert (['\\', s[0]] + rest)[2..] == rest;
      } else {
        assert Escape(s) == [s[0]] + rest;
        assert ([s[0]] + rest)[1..] == rest;
        assert s[0] != '\\';
      }
    }
  }

  /** The characters of `s` that are not metacharacters, in order. */
  function Plain(s: string): (r: string)
    ensures |r| + MetaCount(s) == |s|
    decreases |s|
  {
    if s == [] then [] else (if IsMeta(s[0]) then [] else [s[0]]) + Plain(s[1..])
  }

  lemma {:induction false} PlainAppend(a: string, b: string)
    ensures Plain(a + b) == Plain(a) + Plain(b)
    decreases |a|
  {
    if a == [] {
      assert a + b == b;
    } else {
      assert (a + b)[1..] == a[1..] + b;
      PlainAppend(a[1..], b);
    }
  }

  /** Every other character passes through unchanged and in the same order. */
  lemma {:induction false} EscapeKeepsPlain(s: string)
    ensures Plain(Escape(s)) == Plain(s)
    decreases |s|
  {
    if s != [] {
      var head := if IsMeta(s[0]) then ['\\', s[0]] else [s[0]];
      assert Escape(s) == head + Escape(s[1..]);
      PlainAppend(head, Escape(s[1..]));
      EscapeKeepsPlain(s[1..]);
    }
  }

  /** The characters JavaScript's `String.prototype.trim` removes: white space and line terminators. */
  predicate IsJsSpace(c: char) {
    var n := c as int;
    if n <= 32 then 9 <= n <= 13 || n == 32
    else if n < 0x2000 then n == 0xA0 || n == 0x1680
    else n <= 0x200A || n == 0x2028 || n == 0x2029 || n == 0x202F || n == 0x205F || n == 0x3000 || n == 0xFEFF
  }

  function TrimStart(s: string): (r: string)
    ensures |r| <= |s| && r == s[|s| - |r|..]
    ensures |r| > 0 ==> !IsJsSpace(r[0])
    ensures forall i :: 0 <= i < |s| - |r| ==> IsJsSpace(s[i])
    decreases |s|
  {
    if |s| > 0 && IsJsSpace(s[0]) then TrimStart(s[1..]) else s
  }

  function TrimEnd(s: string): (r: string)
    ensures |r| <= |s| && r == s[..|r|]
    ensures |r| > 0 ==> !IsJsSpace(r[|r| - 1])
    ensures forall i :: |r| <= i < |s| ==> IsJsSpace(s[i])
    decreases |s|
  {
    if |s| > 0 && IsJsSpace(s[|s| - 1]) then TrimEnd(s[..|s| - 1]) else s
  }

  /** `value.trim()` */
  function Trim(s: string): string {
    TrimEnd(TrimStart(s))
  }

  /** A query is blank exactly when every character is white space. */
  lemma TrimBlank(s: string)
    ensures Trim(s) == [] <==> forall i :: 0 <= i < |s| ==> IsJsSpace(s[i])
  {
    var t := TrimStart(s);
    if Trim(s) != [] {
      var u := TrimEnd(t);
      assert !IsJsSpace(u[0]) && u[0] == s[|s| - |t|];
    }
  }

  /** `getSuggestionValue`: the suggestion's `name`; a nullish suggestion raises a `TypeError`. */
  function SuggestionValue(suggestion: Json): (r: Option<Json>)
    ensures r.None? <==> Nullish(suggestion)
    ensures suggestion.Obj? && "name" in suggestion.fields ==> r == Some(suggestion.fields["name"])
  {
    Member(suggestion, "name")
  }

  /**
   * `getSuggestions(value, response)`: nothing for a blank query; otherwise `response.data`
   * as it came. The filtered list it computes is discarded, but computing it still calls
   * `getSuggestionValue` on every element, so a non-array `data` or a nullish plant raises.
   */
  function Suggestions(value: string, response: Json): (r: Option<Json>)
    ensures Trim(value) == [] ==> r == Some(Arr([]))
    ensures Trim(value) != [] ==>
      && (r.Some? <==> !Nullish(response) && Member(response, "data").value.Arr?
                       && NoneNullish(Member(response, "data").value.items))
      && (r.Some? ==> r == Member(response, "data"))
  {
    var escaped := Escape(Trim(value));
    if escaped == [] then
      Some(Arr([]))
    else
      match Member(response, "data")
      case None => None
      case Some(data) =>
        if data.Arr? && NoneNullish(data.items) then Some(data) else None
  }
}

=== FILE: reducers.dfy ===
/**
 * The frontend's Redux reducers: each maps the previous state object and an action object to
 * the next state. `{ ...state, k: v }` copies every property of `state` and then overrides
 * `k`; a reducer that would raise a `TypeError` in the browser yields `None`.
 */
module Reducers {
  import opened Wrappers
  import opened Json

  type State = Record
  type Action = Record

  /** `state = initial` as a default parameter: only an absent state is replaced. */
  function Start(state: Option<State>, initial: State): State {
    match state
    case Some(s) => s
    case None => initial
  }

  /** `action.type === t` */
  predicate Is(action: Action, t: string) {
    Get(action, "type") == Str(t)
  }

  /** The action's type is one of `types`. */
  predicate IsOneOf(action: Action, types: set<string>) {
    Get(action, "type").Str? && Get(action, "type").s in types
  }

  /** Property `k` of `r` is present and holds `v`. */
  predicate Sets(r: State, k: string, v: Json) {
    k in r && r[k] == v
  }

  /** Every property outside `keys` is present in `r` exactly when it is in `s`, with the same value. */
  ghost predicate KeepsOthers(s: State, r: State, keys: set<string>) {
    && (forall k :: k !in keys ==> (k in r <==> k in s))
    && (forall k :: k in r && k in s && k !in keys ==> r[k] == s[k])
  }

  /** `{ ...s, ...changes }` */
  function Assign(s: State, changes: State): (r: State)
    ensures KeepsOthers(s, r, changes.Keys)
    ensures forall k :: k in changes ==> Sets(r, k, changes[k])
  {
    s + changes
  }

  /** What every `*_REQUEST` action does: start fetching and forget the last error. */
  ghost predicate Requested(s: State, r: State) {
    Sets(r, "fetching", Bool(true)) && Sets(r, "error", Null) && KeepsOthers(s, r, {"fetching", "error"})
  }

  function Requesting(s: State): (r: State)
    ensures Requested(s, r)
  {
    Assign(s, map["fetching" := Bool(true), "error" := Null])
  }

  /** A repeated request changes nothing more. */
  lemma RequestIdempotent(s: State)
    ensures Requesting(Requesting(s)) == Requesting(s)
  {
  }

  // ---------------------------------------------------------------- dashboard

  const InitialDashboard: State := map["fetching" := Bool(false), "error" := Null, "structure" := Null]

  const DashboardTypes: set<string> :=
    {"DASHBOARD_READ_REQUEST", "DASHBOARD_READ_SUCCESS", "DASHBOARD_READ_FAILURE"}

  function Dashboard(state: Option<State>, action: Action): (r: State)
    ensures var s := Start(state, InitialDashboard);
      && (Is(action, "DASHBOARD_READ_REQUEST") ==> Requested(s, r))
      && (Is(action, "DASHBOARD_READ_SUCCESS") ==>
            && Sets(r, "fetching", Bool(false))
            && Sets(r, "structure", Get(action, "structure"))
            && KeepsOthers(s, r, {"fetching", "structure"}))
      && (Is(action, "DASHBOARD_READ_FAILURE") ==>
            && Sets(r, "fetching", Bool(false))
            && Sets(r, "structure", Null)
            && Sets(r, "error", Get(action, "error"))
            && KeepsOthers(s, r, {"fetching", "structure", "error"}))
      && (!IsOneOf(action, DashboardTypes) ==> r == s)
  {
    var s := Start(state, InitialDashboard);
    if Is(action, "DASHBOARD_READ_REQUEST") then
      Requesting(s)
    else if Is(action, "DASHBOARD_READ_SUCCESS") then
      Assign(s, map["fetching" := Bool(false), "structure" := Get(action, "structure")])
    else if Is(action, "DASHBOARD_READ_FAILURE") then
      Assign(s, map["fetching" := Bool(false), "structure" := Null, "error" := Get(action, "error")])
    else
      s
  }

  // ---------------------------------------------------------------- profile

  const InitialProfile: State :=
    map["fetching" := Bool(false), "error" := Null, "remoteToken" := Str(""), "id" := Null]

  const ProfileTypes: set<string> := {
    "PROFILE_READ_REQUEST", "PROFILE_READ_SUCCESS", "PROFILE_READ_FAILURE",
    "PROFILE_UPDATE_REQUEST", "PROFILE_UPDATE_SUCCESS", "PROFILE_UPDATE_FAILURE", "TOKEN_UPDATE"
  }

  function Profile(state: Option<State>, action: Action): (r: State)
    ensures var s := Start(state, InitialProfile);
      && (Is(action, "PROFILE_READ_REQUEST") || Is(action, "PROFILE_UPDATE_REQUEST") ==> Requested(s, r))
      && (Is(action, "PROFILE_READ_SUCCESS") ==>
            && Sets(r, "fetching", Bool(false))
            && Sets(r, "remoteToken", Get(action, "remoteToken"))
            && Sets(r, "id", Get(action, "id"))
            && KeepsOthers(s, r, {"fetching", "remoteToken", "id"}))
      && (Is(action, "PROFILE_READ_FAILURE") ==>
            && Sets(r, "fetching", Bool(false))
            && Sets(r, "remoteToken", Null)
            && Sets(r, "id", Null)
            && Sets(r, "error", Get(action, "error"))
            && KeepsOthers(s, r, {"fetching", "remoteToken", "id", "error"}))
      && (Is(action, "PROFILE_UPDATE_SUCCESS") || Is(action, "TOKEN_UPDATE") ==>
            && Sets(r, "fetching", Bool(false))
            && Sets(r, "remoteToken", Get(action, "remoteToken"))
            && KeepsOthers(s, r, {"fetching", "remoteToken"}))
      && (Is(action, "PROFILE_UPDATE_FAILURE") ==>
            && Sets(r, "fetching", Bool(false))
            && Sets(r, "remoteToken", Null)
            && Sets(r, "error", Get(action, "error"))
            && KeepsOthers(s, r, {"fetching", "remoteToken", "error"}))
      && (!IsOneOf(action, ProfileTypes) ==> r == s)
  {
    var s := Start(state, InitialProfile);
    if Is(action, "PROFILE_READ_REQUEST") || Is(action, "PROFILE_UPDATE_REQUEST") then
      Requesting(s)
    else if Is(action, "PROFILE_READ_SUCCESS") then
      Assign(s, map["fetching" := Bool(false), "remoteToken" := Get(action, "remoteToken"),
                    "id" := Get(action, "id")])
    else if Is(action, "PROFILE_READ_FAILURE") then
      Assign(s, map["fetching" := Bool(false), "remoteToken" := Null, "id" := Null,
                    "error" := Get(action, "error")])
    else if Is(action, "PROFILE_UPDATE_SUCCESS") || Is(action, "TOKEN_UPDATE") then
      Assign(s, map["fetching" := Bool(false), "remoteToken" := Get(action, "remoteToken")])
    else if Is(action, "PROFILE_UPDATE_FAILURE") then
      Assign(s, map["fetching" := Bool(false), "remoteToken" := Null, "error" := Get(action, "error")])
    else
      s
  }

  // ---------------------------------------------------------------- login

  /** `localStorage.getItem(key)`: the stored string, or `null` when nothing is stored. */
  function Stored(item: Option<string>): Json {
    match item
    case Some(t) => Str(t)
    case None => Null
  }

  /** The initial login state reads both tokens from the browser's storage, given here. */
  function InitialLogin(access: Option<string>, refresh: Option<string>): State {
    map["fetching" := Bool(false), "error" := Null,
        "accessToken" := Stored(access), "refreshToken" := Stored(refresh)]
  }

  const LoginTypes: set<string> := {"LOGIN_REQUEST", "LOGIN_SUCCESS", "LOGIN_FAILURE"}

  function Login(state: Option<State>, action: Action, access: Option<string>, refresh: Option<string>): (r: State)
    ensures var s := Start(state, InitialLogin(access, refresh));
      && (Is(action, "LOGIN_REQUEST") ==> Requested(s, r))
      && (Is(action, "LOGIN_SUCCESS") ==>
            && Sets(r, "fetching", Bool(false))
            && Sets(r, "accessToken", Get(action, "accessToken"))
            && Sets(r, "refreshToken", Get(action, "refreshToken"))
            && Sets(r, "error", Null)
            && KeepsOthers(s, r, {"fetching", "accessToken", "refreshToken", "error"}))
      && (Is(action, "LOGIN_FAILURE") ==>
            && Sets(r, "fetching", Bool(false))
            && Sets(r, "accessToken", Str(""))
            && Sets(r, "refreshToken", Str(""))
            && Sets(r, "error", Get(action, "error"))
            && KeepsOthers(s, r, {"fetching", "accessToken", "refreshToken", "error"}))
      && (!IsOneOf(action, LoginTypes) ==> r == s)
  {
    var s := Start(state, InitialLogin(access, refresh));
    if Is(action, "LOGIN_REQUEST") then
      Requesting(s)
    else if Is(action, "LOGIN_SUCCESS") then
      Assign(s, map["fetching" := Bool(false), "accessToken" := Get(action, "accessToken"),
                    "refreshToken" := Get(action, "refreshToken"), "error" := Null])
    else if Is(action, "LOGIN_FAILURE") then
      Assign(s, map["fetching" := Bool(false), "accessToken" := Str(""), "refreshToken" := Str(""),
                    "error" := Get(action, "error")])
    else
      s
  }

  // ---------------------------------------------------------------- trends

  const InitialTrends: State := map[
    "fetching" := Bool(false), "error" := Null,
    "trends" := Obj(map["1" := Arr([]), "2" := Arr([]), "3" := Arr([])])]

  const TrendsTypes: set<string> := {"TRENDS_READ_REQUEST", "TRENDS_READ_SUCCESS", "TRENDS_READ_FAILURE"}

  /**
   * On success the series of one device, keyed by `String(action.payload.device_id)`, is
   * replaced and every other series is copied; reading `device_id` of a nullish payload raises.
   */
  function Trends(state: Option<State>, action: Action): (r: Option<State>)
    ensures var s := Start(state, InitialTrends);
      && (Is(action, "TRENDS_READ_REQUEST") ==> r.Some? && Requested(s, r.value))
      && (Is(action, "TRENDS_READ_SUCCESS") ==>
            var payload := Get(action, "payload");
            && (r.None? <==> Nullish(payload))
            && (r.Some? ==>
                  var key := ToStr(Member(payload, "device_id").value);
                  var before := Spread(Get(s, "trends"));
                  && Sets(r.value, "fetching", Bool(false))
                  && "trends" in r.value && r.value["trends"].Obj?
                  && Sets(r.value["trends"].fields, key, Get(action, "trends"))
                  && KeepsOthers(before, r.value["trends"].fields, {key})
                  && KeepsOthers(s, r.value, {"fetching", "trends"})))
      && (Is(action, "TRENDS_READ_FAILURE") ==>
            && r.Some?
            && Sets(r.value, "fetching", Bool(false))
            && Sets(r.value, "trends", Obj(map[]))
            && Sets(r.value, "error", Get(action, "error"))
            && KeepsOthers(s, r.value, {"fetching", "trends", "error"}))
      && (!IsOneOf(action, TrendsTypes) ==> r == Some(s))
  {
    var s := Start(state, InitialTrends);
    if Is(action, "TRENDS_READ_REQUEST") then
      Some(Requesting(s))
    else if Is(action, "TRENDS_READ_SUCCESS") then
      match Member(Get(action, "payload"), "device_id")
      case None => None
      case Some(id) =>
        var trends := Spread(Get(s, "trends"))[ToStr(id) := Get(action, "trends")];
        Some(Assign(s, map["fetching" := Bool(false), "trends" := Obj(trends)]))
    else if Is(action, "TRENDS_READ_FAILURE") then
      Some(Assign(s, map["fetching" := Bool(false), "trends" := Obj(map[]), "error" := Get(action, "error")]))
    else
      Some(s)
  }

  /** The series stay an object of series: a success on an object keeps every other device's series. */
  lemma TrendsKeepsOtherDevices(s: State, action: Action, device: string)
    requires "trends" in s && s["trends"].Obj? && device in s["trends"].fields
    requires Is(action, "TRENDS_READ_SUCCESS")
    requires !Nullish(Get(action, "payload"))
    requires device != ToStr(Member(Get(action, "payload"), "device_id").value)
    ensures var r := Trends(Some(s), action);
      r.Some? && Sets(r.value["trends"].fields, device, s["trends"].fields[device])
  {
  }

  // ---------------------------------------------------------------- lists

  /** The three stages of every asynchronous request. */
  datatype Stage = Request | Success | Failure

  /** The list operations sensors, actuators and plants share. */
  datatype Op = Read | Create | Delete

  datatype Verb = Verb(op: Op, stage: Stage)

  function VerbName(v: Verb): string {
    match v
    case Verb(Read, Request) => "READ_REQUEST"
    case Verb(Read, Success) => "READ_SUCCESS"
    case Verb(Read, Failure) => "READ_FAILURE"
    case Verb(Create, Request) => "CREATE_REQUEST"
    case Verb(Create, Success) => "CREATE_SUCCESS"
    case Verb(Create, Failure) => "CREATE_FAILURE"
    case Verb(Delete, Request) => "DELETE_REQUEST"
    case Verb(Delete, Success) => "DELETE_SUCCESS"
    case Verb(Delete, Failure) => "DELETE_FAILURE"
  }

  function VerbNamed(name: string): (v: Option<Verb>)
    ensures v.Some? ==> VerbName(v.value) == name
  {
    match name
    case "READ_REQUEST" => Some(Verb(Read, Request))
    case "READ_SUCCESS" => Some(Verb(Read, Success))
    case "READ_FAILURE" => Some(Verb(Read, Failure))
    case "CREATE_REQUEST" => Some(Verb(Create, Request))
    case "CREATE_SUCCESS" => Some(Verb(Create, Success))
    case "CREATE_FAILURE" => Some(Verb(Create, Failure))
    case "DELETE_REQUEST" => Some(Verb(Delete, Request))
    case "DELETE_SUCCESS" => Some(Verb(Delete, Success))
    case "DELETE_FAILURE" => Some(Verb(Delete, Failure))
    case _ => None
  }

  lemma VerbNameNamed(v: Verb)
    ensures VerbNamed(VerbName(v)) == Some(v)
  {
  }

  /** The action type `prefix + "_" + name` spelled out. */
  function TypeName(prefix: string, v: Verb): string {
    prefix + "_" + VerbName(v)
  }

  /** Which of the nine list actions of `prefix` an action is, if any. */
  function VerbOf(prefix: string, action: Action): Option<Verb> {
    var t := Get(action, "type");
    var p := prefix + "_";
    if t.Str? && |p| <= |t.s| && t.s[..|p|] == p then VerbNamed(t.s[|p|..]) else None
  }

  /** Dispatching on the parsed verb is the same as comparing the type with each spelled-out name. */
  lemma VerbOfIsType(prefix: string, action: Action, v: Verb)
    ensures VerbOf(prefix, action) == Some(v) <==> Is(action, TypeName(prefix, v))
  {
    var p := prefix + "_";
    var t := Get(action, "type");
    if Is(action, TypeName(prefix, v)) {
      assert t.s[..|p|] == p;
      assert t.s[|p|..] == VerbName(v);
      VerbNameNamed(v);
    }
    if VerbOf(prefix, action) == Some(v) {
      assert t.s == t.s[..|p|] + t.s[|p|..];
    }
  }

  function IdOf(x: Json): Json
    requires !Nullish(x)
  {
    Member(x, "id").value
  }

  /**
   * `items.filter((item) => item.id !== id)`; `None` is the `TypeError` that reading the `id`
   * of a nullish item raises.
   */
  function Without(items: seq<Json>, id: Json): (r: Option<seq<Json>>)
    ensures r.None? <==> !NoneNullish(items)
    ensures r.Some? ==> |r.value| <= |items|
    decreases |items|
  {
    if items == [] then
      Some([])
    else if Nullish(items[0]) then
      None
    else
      match Without(items[1..], id)
      case None => None
      case Some(rest) =>
        Some(if StrictEq(IdOf(items[0]), id) then rest else [items[0]] + rest)
  }

  /** One step of the filter: the first item is kept unless its id matches. */
  lemma WithoutStep(items: seq<Json>, id: Json)
    requires items != [] && NoneNullish(items)
    ensures !Nullish(items[0]) && NoneNullish(items[1..])
    ensures Without(items, id) == Some(
      if StrictEq(IdOf(items[0]), id) then Without(items[1..], id).value
      else [items[0]] + Without(items[1..], id).value)
  {
    assert items[0] in items;
    assert forall x :: x in items[1..] ==> x in items;
  }

  lemma NoneNullishSplit(a: seq<Json>, b: seq<Json>)
    requires NoneNullish(a + b)
    ensures NoneNullish(a) && NoneNullish(b)
  {
    assert forall x :: x in a ==> x in a + b;
    assert forall x :: x in b ==> x in a + b;
  }

  /** The filter keeps the survivors in their original order. */
  lemma {:induction false} WithoutAppend(a: seq<Json>, b: seq<Json>, id: Json)
    requires NoneNullish(a + b)
    ensures NoneNullish(a) && NoneNullish(b)
    ensures Without(a + b, id) == Some(Without(a, id).value + Without(b, id).value)
    decreases |a|
  {
    NoneNullishSplit(a, b);
    if a == [] {
      assert a + b == b;
      assert Without(a, id) == Some([]);
      assert [] + Without(b, id).value == Without(b, id).value;
    } else {
      var ab := a + b;
      assert ab[1..] == a[1..] + b;
      WithoutStep(ab, id);
      WithoutAppend(a[1..], b, id);
      WithoutAppendCons(a[0], a[1..], b, id);
      assert a == [a[0]] + a[1..] && ab == [a[0]] + (a[1..] + b);
    }
  }

  /** Filtering a list that starts with `x`. */
  lemma WithoutCons(x: Json, t: seq<Json>, id: Json)
    requires !Nullish(x) && NoneNullish(t)
    ensures NoneNullish([x] + t)
    ensures Without([x] + t, id) == Some(
      if StrictEq(IdOf(x), id) then Without(t, id).value else [x] + Without(t, id).value)
  {
    var s := [x] + t;
    assert s[0] == x && s[1..] == t;
    assert forall y :: y in s ==> y == x || y in t;
  }

  /** The step of `WithoutAppend`: filtering the first element then the rest as one list. */
  lemma WithoutAppendCons(x: Json, t: seq<Json>, b: seq<Json>, id: Json)
    requires !Nullish(x) && NoneNullish(t) && NoneNullish(b) && NoneNullish(t + b)
    requires Without(t + b, id) == Some(Without(t, id).value + Without(b, id).value)
    ensures Without([x] + (t + b), id) == Some(Without([x] + t, id).value + Without(b, id).value)
  {
    WithoutCons(x, t + b, id);
    WithoutCons(x, t, id);
    if !StrictEq(IdOf(x), id) {
      var tail, rest := Without(t, id).value, Without(b, id).value;
      assert [x] + (tail + rest) == ([x] + tail) + rest;
    }
  }

  /** The filter keeps exactly the items whose id differs from `id`. */
  lemma {:induction false} WithoutMembers(items: seq<Json>, id: Json)
    requires NoneNullish(items)
    ensures forall x :: x in Without(items, id).value <==> x in items && !StrictEq(IdOf(x), id)
    decreases |items|
  {
    if items != [] {
      WithoutStep(items, id);
      WithoutMembers(items[1..], id);
      assert items == [items[0]] + items[1..];
    }
  }

  /** An item whose id matches is removed, and so is every other copy with the same id. */
  lemma WithoutRemovesMatches(items: seq<Json>, id: Json, i: int)
    requires NoneNullish(items) && 0 <= i < |items|
    ensures items[i] in Without(items, id).value <==> !StrictEq(IdOf(items[i]), id)
  {
    WithoutMembers(items, id);
  }

  /** When no item carries the id, the filter keeps the whole list. */
  lemma {:induction false} WithoutNoMatch(items: seq<Json>, id: Json)
    requires NoneNullish(items)
    requires forall x :: x in items ==> !StrictEq(IdOf(x), id)
    ensures Without(items, id) == Some(items)
    decreases |items|
  {
    if items != [] {
      WithoutStep(items, id);
      assert items[0] in items;
      assert forall x :: x in items[1..] ==> x in items;
      WithoutNoMatch(items[1..], id);
      assert items == [items[0]] + items[1..];
    }
  }

  /** `list.concat(item)`: an array argument is spread one level; a string list appends text. */
  function Concat(list: Json, item: Json): (r: Option<Json>)
    ensures r.None? <==> !list.Arr? && !list.Str?
    ensures list.Arr? ==> r.value.Arr? && |r.value.items| >= |list.items| && r.value.items[..|list.items|] == list.items
  {
    match list
    case Arr(items) => Some(Arr(items + if item.Arr? then item.items else [item]))
    case Str(t) => Some(Str(t + ToStr(item)))
    case _ => None
  }

  /** `concat` of a non-array value appends exactly that value at the end. */
  lemma ConcatAppends(items: seq<Json>, item: Json)
    requires !item.Arr?
    ensures Concat(Arr(items), item) == Some(Arr(items + [item]))
  {
  }

  /** A create success: `{ ...s, ...changes, [key]: s[key].concat(item) }`. */
  function Appended(s: State, key: string, item: Json, changes: State): (r: Option<State>)
    requires key !in changes
    ensures r.Some? <==> Get(s, key).Arr? || Get(s, key).Str?
    ensures r.Some? ==> KeepsOthers(s, r.value, changes.Keys + {key})
    ensures r.Some? ==> forall k :: k in changes ==> Sets(r.value, k, changes[k])
    ensures Get(s, key).Arr? && !item.Arr? ==> Sets(r.value, key, Arr(Get(s, key).items + [item]))
  {
    match Concat(Get(s, key), item)
    case None => None
    case Some(list) => Some(Assign(s, changes[key := list]))
  }

  /** A delete success: `{ ...s, ...changes, [key]: s[key].filter((item) => item.id !== id) }`. */
  function Removed(s: State, key: string, id: Json, changes: State): (r: Option<State>)
    requires key !in changes
    ensures r.Some? <==> Get(s, key).Arr? && NoneNullish(Get(s, key).items)
    ensures r.Some? ==> Sets(r.value, key, Arr(Without(Get(s, key).items, id).value))
    ensures r.Some? ==> KeepsOthers(s, r.value, changes.Keys + {key})
    ensures r.Some? ==> forall k :: k in changes ==> Sets(r.value, k, changes[k])
  {
    match Get(s, key)
    case Arr(items) =>
      (match Without(items, id)
       case None => None
       case Some(kept) => Some(Assign(s, changes[key := Arr(kept)])))
    case _ => None
  }

  // ---------------------------------------------------------------- sensors and actuators

  /** The two device lists whose reducers are the same up to names. */
  datatype Devices = Sensors | Actuators

  function Prefix(d: Devices): string {
    match d
    case Sensors => "SENSOR"
    case Actuators => "ACTUATOR"
  }

  /** The state property holding the list, and the action property a created item comes in. */
  function ListKey(d: Devices): string {
    match d
    case Sensors => "sensors"
    case Actuators => "actuators"
  }

  function ItemKey(d: Devices): string {
    match d
    case Sensors => "sensor"
    case Actuators => "actuator"
  }

  function InitialDevices(d: Devices): State {
    map["fetching" := Bool(false), "error" := Null, ListKey(d) := Arr([])]
  }

  /** `sensorsReducer` for `Sensors`, `actuatorsReducer` for `Actuators`. */
  function DeviceList(d: Devices, state: Option<State>, action: Action): (r: Option<State>)
    ensures var s := Start(state, InitialDevices(d));
      var v := VerbOf(Prefix(d), action);
      var key := ListKey(d);
      var list := Get(s, key);
      && (v.None? ==> r == Some(s))
      && (v.Some? && v.value.stage == Request ==> r.Some? && Requested(s, r.value))
      && (v == Some(Verb(Read, Success)) ==>
            && r.Some?
            && Sets(r.value, "fetching", Bool(false))
            && Sets(r.value, key, Get(action, key))
            && KeepsOthers(s, r.value, {"fetching", key}))
      && (v == Some(Verb(Read, Failure)) ==>
            && r.Some?
            && Sets(r.value, "fetching", Bool(false))
            && Sets(r.value, key, Arr([]))
            && Sets(r.value, "error", Get(action, "error"))
            && KeepsOthers(s, r.value, {"fetching", key, "error"}))
      && (v == Some(Verb(Create, Success)) ==>
            && (r.Some? <==> list.Arr? || list.Str?)
            && (list.Arr? && !Get(action, ItemKey(d)).Arr? ==>
                  && Sets(r.value, key, Arr(list.items + [Get(action, ItemKey(d))]))
                  && Sets(r.value, "fetching", Bool(false))
                  && Sets(r.value, "error", Null)
                  && KeepsOthers(s, r.value, {"fetching", key, "error"})))
      && (v == Some(Verb(Delete, Success)) ==>
            && (r.Some? <==> list.Arr? && NoneNullish(list.items))
            && (r.Some? ==>
                  && Sets(r.value, key, Arr(Without(list.items, Get(action, "id")).value))
                  && Sets(r.value, "fetching", Bool(false))
                  && Sets(r.value, "error", Null)
                  && KeepsOthers(s, r.value, {"fetching", key, "error"})))
      && (v == Some(Verb(Create, Failure)) || v == Some(Verb(Delete, Failure)) ==>
            && r.Some?
            && Sets(r.value, "fetching", Bool(false))
            && Sets(r.value, "error", Get(action, "error"))
            && KeepsOthers(s, r.value, {"fetching", "error"}))
  {
    var s := Start(state, InitialDevices(d));
    var key := ListKey(d);
    match VerbOf(Prefix(d), action)
    case None => Some(s)
    case Some(Verb(_, Request)) => Some(Requesting(s))
    case Some(Verb(Read, Success)) =>
      Some(Assign(s, map["fetching" := Bool(false), key := Get(action, key)]))
    case Some(Verb(Read, Failure)) =>
      Some(Assign(s, map["fetching" := Bool(false), key := Arr([]), "error" := Get(action, "error")]))
    case Some(Verb(Create, Success)) =>
      Appended(s, key, Get(action, ItemKey(d)), map["fetching" := Bool(false), "error" := Null])
    case Some(Verb(Delete, Success)) =>
      Removed(s, key, Get(action, "id"), map["fetching" := Bool(false), "error" := Null])
    case Some(Verb(_, Failure)) =>
      Some(Assign(s, map["fetching" := Bool(false), "error" := Get(action, "error")]))
  }

  /**
   * Deleting the id of an item just created, when no older item carries that id, gives back
   * the list as it was before the creation.
   */
  lemma CreateThenDelete(d: Devices, s: State, create: Action, delete: Action)
    requires ListKey(d) in s && s[ListKey(d)].Arr? && NoneNullish(s[ListKey(d)].items)
    requires VerbOf(Prefix(d), create) == Some(Verb(Create, Success))
    requires VerbOf(Prefix(d), delete) == Some(Verb(Delete, Success))
    requires var item := Get(create, ItemKey(d));
      item.Obj? && "id" in item.fields && StrictEq(item.fields["id"], Get(delete, "id"))
    requires forall x :: x in s[ListKey(d)].items ==> !StrictEq(IdOf(x), Get(delete, "id"))
    ensures DeviceList(d, Some(s), create).Some?
    ensures var created := DeviceList(d, Some(s), create).value;
      DeviceList(d, Some(created), delete).Some? && DeviceList(d, Some(created), delete).value[ListKey(d)] == s[ListKey(d)]
  {
    var key, item, id := ListKey(d), Get(create, ItemKey(d)), Get(delete, "id");
    var created := DeviceList(d, Some(s), create).value;
    assert created[key] == Arr(s[key].items + [item]);
    RemoveAppended(s[key].items, item, id);
  }

  /** Filtering out the id of the last item, which no earlier item carries, leaves the earlier items. */
  lemma RemoveAppended(items: seq<Json>, item: Json, id: Json)
    requires NoneNullish(items) && !Nullish(item) && StrictEq(IdOf(item), id)
    requires forall x :: x in items ==> !StrictEq(IdOf(x), id)
    ensures NoneNullish(items + [item]) && Without(items + [item], id) == Some(items)
  {
    assert NoneNullish([item]) && Without([item], id) == Some([]);
    assert forall x :: x in items + [item] ==> x in items || x == item;
    WithoutAppend(items, [item], id);
    WithoutNoMatch(items, id);
    assert items + [] == items;
  }

  // ---------------------------------------------------------------- plants

  const InitialPlants: State := map[
    "fetching" := Bool(false), "error" := Null, "plants" := Arr([]), "treleId" := Null, "id" := Null]

  /**
   * `plantsReducer`: like the device lists, except that a created plant also records
   * `remoteId`, and neither a created nor a deleted plant clears the error.
   */
  function Plants(state: Option<State>, action: Action): (r: Option<State>)
    ensures var s := Start(state, InitialPlants);
      var v := VerbOf("PLANT", action);
      var list := Get(s, "plants");
      && (v.None? ==> r == Some(s))
      && (v.Some? && v.value.stage == Request ==> r.Some? && Requested(s, r.value))
      && (v == Some(Verb(Read, Success)) ==>
            && r.Some?
            && Sets(r.value, "fetching", Bool(false))
            && Sets(r.value, "plants", Get(action, "plants"))
            && KeepsOthers(s, r.value, {"fetching", "plants"}))
      && (v == Some(Verb(Read, Failure)) ==>
            && r.Some?
            && Sets(r.value, "fetching", Bool(false))
            && Sets(r.value, "plants", Arr([]))
            && Sets(r.value, "error", Get(action, "error"))
            && KeepsOthers(s, r.value, {"fetching", "plants", "error"}))
      && (v == Some(Verb(Create, Success)) ==>
            && (r.Some? <==> list.Arr? || list.Str?)
            && (list.Arr? && !Get(action, "plant").Arr? ==>
                  && Sets(r.value, "plants", Arr(list.items + [Get(action, "plant")]))
                  && Sets(r.value, "fetching", Bool(false))
                  && Sets(r.value, "remoteId", Get(action, "remoteId"))
                  && KeepsOthers(s, r.value, {"fetching", "plants", "remoteId"})))
      && (v == Some(Verb(Create, Failure)) ==>
            && r.Some?
            && Sets(r.value, "fetching", Bool(false))
            && Sets(r.value, "remoteId", Null)
            && Sets(r.value, "error", Get(action, "error"))
            && KeepsOthers(s, r.value, {"fetching", "remoteId", "error"}))
      && (v == Some(Verb(Delete, Success)) ==>
            && (r.Some? <==> list.Arr? && NoneNullish(list.items))
            && (r.Some? ==>
                  && Sets(r.value, "plants", Arr(Without(list.items, Get(action, "id")).value))
                  && Sets(r.value, "fetching", Bool(false))
                  && KeepsOthers(s, r.value, {"fetching", "plants"})))
      && (v == Some(Verb(Delete, Failure)) ==>
            && r.Some?
            && Sets(r.value, "fetching", Bool(false))
            && Sets(r.value, "error", Get(action, "error"))
            && KeepsOthers(s, r.value, {"fetching", "error"}))
  {
    var s := Start(state, InitialPlants);
    match VerbOf("PLANT", action)
    case None => Some(s)
    case Some(Verb(_, Request)) => Some(Requesting(s))
    case Some(Verb(Read, Success)) =>
      Some(Assign(s, map["fetching" := Bool(false), "plants" := Get(action, "plants")]))
    case Some(Verb(Read, Failure)) =>
      Some(Assign(s, map["fetching" := Bool(false), "plants" := Arr([]), "error" := Get(action, "error")]))
    case Some(Verb(Create, Success)) =>
      Appended(s, "plants", Get(action, "plant"), map["fetching" := Bool(false), "remoteId" := Get(action, "remoteId")])
    case Some(Verb(Create, Failure)) =>
      Some(Assign(s, map["fetching" := Bool(false), "remoteId" := Null, "error" := Get(action, "error")]))
    case Some(Verb(Delete, Success)) =>
      Removed(s, "plants", Get(action, "id"), map["fetching" := Bool(false)])
    case Some(Verb(Delete, Failure)) =>
      Some(Assign(s, map["fetching" := Bool(false), "error" := Get(action, "error")]))
  }
}

=== FILE: serializers.dfy ===
/** The device serializer: creation defaults and checks, field filtering, the parent's name. */
module Serializers {
  import opened Wrappers
  import opened Choices
  import opened Models
  import Fsm

  /** The reasons `create` rejects data, ahead of the model's own validation. */
  datatype CreateError =
    | InitialStateMissing(state: string)
    | NoInitialBlob(fsmClass: string)
    | DesiredStateMissing(state: string)
    | Invalid(error: ValidationError)

  /**
   * The blob a new device starts with: the middle sensor state for analog and bus sensors, the
   * first state for the two actuators, none for an unknown class.
   */
  function InitialBlob(fsmClass: string): (r: Option<Blob>)
    ensures ParseClass(fsmClass).None? <==> r.None?
    ensures r.Some? ==> r.value == Fsm.Serialize(Fsm.Initial(ParseClass(fsmClass).value))
  {
    match ParseClass(fsmClass)
    case None => None
    case Some(c) =>
      Fsm.InitialStates();
      Some(match c
           case AnalogSensor => AnalogSensorBlobs[2]
           case DigitalActuator => DigitalActuatorBlobs[0]
           case I2C => I2CBlobs[2]
           case PWM => PwmBlobs[0])
  }

  /**
   * The row `create` saves: the given columns with the initial blob. `parent` is a read-only
   * field of the serializer and `after`/`before` are not among its fields, so a new device is a
   * root with the default window.
   */
  function NewRow(d: Device, blob: Blob): Device {
    d.(blob := blob, parent := None, after := Some(DefaultAfter), before := Some(DefaultBefore))
  }

  /** The checks `create` makes before saving: a known class, its initial state and the desired state as threshold keys. */
  predicate CreateChecks(d: Device) {
    && ParseClass(d.fsmClass).Some?
    && (GetKind(d.fsmClass) == Sensor ==> "medium" in d.thresholds)
    && d.desiredState in d.thresholds
  }

  /**
   * `DeviceSerializer.create`: the initial blob replaces whatever blob was given; a sensor's
   * initial state must be a threshold key; then the desired state; then the model's save. The
   * id is the fresh one the database assigns.
   */
  function Create(store: seq<Device>, d: Device): (r: Result<Saved, CreateError>)
    requires forall e :: e in store ==> e.id != d.id
    ensures ParseClass(d.fsmClass).None? ==> r == Err(NoInitialBlob(d.fsmClass))
    ensures GetKind(d.fsmClass) == Sensor && "medium" !in d.thresholds ==> r == Err(InitialStateMissing("medium"))
    ensures ParseClass(d.fsmClass).Some? && (GetKind(d.fsmClass) == Sensor ==> "medium" in d.thresholds) && d.desiredState !in d.thresholds ==>
      r == Err(DesiredStateMissing(d.desiredState))
    ensures r.Ok? <==> CreateChecks(d) && Save(store, NewRow(d, InitialBlob(d.fsmClass).value)).Ok?
    ensures CreateChecks(d) ==> var saved := Save(store, NewRow(d, InitialBlob(d.fsmClass).value));
      && (saved.Ok? ==> r == Ok(saved.value))
      && (saved.Err? ==> r == Err(Invalid(saved.error)))
    ensures r.Ok? ==> r.value.created && |r.value.store| == |store| + 1
    ensures r.Ok? ==> NewRow(d, InitialBlob(d.fsmClass).value) in r.value.store
    ensures r.Ok? ==> InitialBlob(d.fsmClass).value == Fsm.Serialize(Fsm.Initial(ParseClass(d.fsmClass).value))
    ensures r.Ok? ==> forall n :: n in r.value.store && n.id == d.id ==> n.parent.None? && n.after == Some(DefaultAfter) && n.before == Some(DefaultBefore)
  {
    match InitialBlob(d.fsmClass)
    case None => Err(NoInitialBlob(d.fsmClass))
    case Some(blob) =>
      if GetKind(d.fsmClass) == Sensor && blob[StateKey] !in d.thresholds then
        Err(InitialStateMissing(blob[StateKey]))
      else if d.desiredState !in d.thresholds then Err(DesiredStateMissing(d.desiredState))
      else
        var n := NewRow(d, blob);
        match Save(store, n)
        case Err(e) => Err(Invalid(e))
        case Ok(saved) => Ok(saved)
  }

  /** A created device that passes validation restores to its class's initial machine state. */
  lemma CreatedStartsInitial(store: seq<Device>, d: Device)
    requires forall e :: e in store ==> e.id != d.id
    requires Create(store, d).Ok?
    ensures ParseClass(d.fsmClass).Some?
    ensures var c := ParseClass(d.fsmClass).value;
      Fsm.Restore(c, InitialBlob(d.fsmClass).value) == Some(Fsm.Initial(c))
  {
    Fsm.RestoreSerialize(Fsm.Initial(ParseClass(d.fsmClass).value));
  }

  /** The fields the device serializer declares, in order. */
  const DeviceFields: seq<string> :=
    ["id", "name", "pin", "fsm_class", "category", "image_url", "parent", "thresholds", "desired_state"]

  /**
   * `DynamicFieldsModelSerializer`: with a `fields` argument only the declared fields it names
   * remain; without one, every declared field remains. Order is kept.
   */
  function FilterFields(existing: seq<string>, fields: Option<seq<string>>): (r: seq<string>)
    ensures forall f :: f in r <==> f in existing && (fields.None? || f in fields.value)
    ensures |r| <= |existing|
    ensures fields.None? ==> r == existing
  {
    if existing == [] then []
    else
      var keep := fields.None? || existing[0] in fields.value;
      (if keep then [existing[0]] else []) + FilterFields(existing[1..], fields)
  }

  /** Filtering with the same argument twice is filtering once. */
  lemma {:induction false} FilterFieldsIdempotent(existing: seq<string>, fields: Option<seq<string>>)
    ensures FilterFields(FilterFields(existing, fields), fields) == FilterFields(existing, fields)
    decreases |existing|
  {
    if existing != [] {
      FilterFieldsIdempotent(existing[1..], fields);
      var keep := fields.None? || existing[0] in fields.value;
      var tail := FilterFields(existing[1..], fields);
      if keep {
        assert FilterFields(existing, fields) == [existing[0]] + tail;
        assert ([existing[0]] + tail)[1..] == tail;
      } else {
        assert FilterFields(existing, fields) == tail;
      }
    }
  }

  /** `get_parent`: the parent's name, or `None` for a root device. */
  function GetParent(store: seq<Device>, d: Device): (r: Option<string>)
    ensures d.parent.None? ==> r.None?
    ensures r.Some? ==> exists p :: p in store && Some(p.id) == d.parent && p.name == r.value
    ensures d.parent.Some? && HasId(store, d.parent.value) ==> r.Some?
  {
    match d.parent
    case None => None
    case Some(id) =>
      match FindById(store, id)
      case None => None
      case Some(p) => Some(p.name)
  }
}

=== FILE: signals.dfy ===
/**
 * The reconfiguration events: every device save or delete puts one event into the FIFO queue the
 * control loop drains.
 */
module Signals {
  import opened Wrappers
  import opened Models

  /** `{"created": id}`, `{"updated": id}` or `{"deleted": id}`. */
  datatype Event = Created(id: int) | Updated(id: int) | Deleted(id: int)

  function EventId(e: Event): int {
    match e
    case Created(id) => id
    case Updated(id) => id
    case Deleted(id) => id
  }

  /** `post_save`: one event at the back of the queue, `created` for a new row, else `updated`. */
  function PostSave(q: seq<Event>, id: int, created: bool): (r: seq<Event>)
    ensures |r| == |q| + 1 && r[..|q|] == q
    ensures r[|q|].Created? <==> created
    ensures !r[|q|].Deleted? && EventId(r[|q|]) == id
  {
    q + [if created then Created(id) else Updated(id)]
  }

  /** `post_delete`: one `deleted` event at the back of the queue. */
  function PostDelete(q: seq<Event>, id: int): (r: seq<Event>)
    ensures |r| == |q| + 1 && r[..|q|] == q && r[|q|] == Deleted(id)
  {
    q + [Deleted(id)]
  }

  datatype Stored = Stored(store: seq<Device>, queue: seq<Event>)

  /**
   * Saving a device through the model: the validated save, then its one event. A rejected save
   * enqueues nothing.
   */
  function SaveDevice(store: seq<Device>, q: seq<Event>, d: Device): (r: Result<Stored, ValidationError>)
    ensures r.Ok? <==> Save(store, d).Ok?
    ensures r.Ok? ==> r.value.store == Save(store, d).value.store
    ensures r.Ok? ==> |r.value.queue| == |q| + 1 && r.value.queue[..|q|] == q
    ensures r.Ok? ==> r.value.queue[|q|] == (if HasId(store, d.id) then Updated(d.id) else Created(d.id))
  {
    match Save(store, d)
    case Err(e) => Err(e)
    case Ok(saved) => Ok(Stored(saved.store, PostSave(q, d.id, saved.created)))
  }

  function Ids(store: seq<Device>): (r: set<int>)
    ensures forall id :: id in r <==> HasId(store, id)
  {
    set e | e in store :: e.id
  }

  function ChildIds(store: seq<Device>, ids: set<int>): set<int> {
    set e | e in store && e.parent.Some? && e.parent.value in ids :: e.id
  }

  /** `S` holds every stored child of a device it holds. */
  predicate Closed(store: seq<Device>, S: set<int>) {
    forall e :: e in store && e.parent.Some? && e.parent.value in S ==> e.id in S
  }

  /**
   * The ids the cascade removes together with `ids`: the least superset containing every child of
   * a removed device (`on_delete=CASCADE` on the parent key).
   */
  function Cascade(store: seq<Device>, ids: set<int>): (r: set<int>)
    ensures ids <= r && r <= ids + Ids(store)
    ensures Closed(store, r)
    decreases |Ids(store) - ids|
  {
    var next := ids + ChildIds(store, ids);
    if next <= ids then ids
    else
      var x :| x in next && x !in ids;
      SubsetSmaller(Ids(store) - next, Ids(store) - ids, x);
      Cascade(store, next)
  }

  /** The cascade is the least closed superset: any closed set holding `ids` holds all of it. */
  lemma {:induction false} CascadeLeast(store: seq<Device>, ids: set<int>, S: set<int>)
    requires ids <= S && Closed(store, S)
    ensures Cascade(store, ids) <= S
    decreases |Ids(store) - ids|
  {
    var next := ids + ChildIds(store, ids);
    assert next <= S;
    if !(next <= ids) {
      var x :| x in next && x !in ids;
      SubsetSmaller(Ids(store) - next, Ids(store) - ids, x);
      CascadeLeast(store, next, S);
    }
  }

  lemma SubsetSmaller(a: set<int>, b: set<int>, x: int)
    requires a <= b && x in b && x !in a
    ensures |a| < |b|
  {
    SubsetCard(a, b - {x});
  }

  lemma SubsetCard(a: set<int>, b: set<int>)
    requires a <= b
    ensures |a| <= |b|
  {
    assert b == a + (b - a);
    assert a * (b - a) == {};
  }

  function Keep(store: seq<Device>, gone: set<int>): (r: seq<Device>)
    ensures forall e :: e in r <==> e in store && e.id !in gone
    ensures |r| <= |store|
  {
    if store == [] then []
    else (if store[0].id in gone then [] else [store[0]]) + Keep(store[1..], gone)
  }

  /** One `deleted` event per removed row, in store order. */
  function DeletedEvents(store: seq<Device>, gone: set<int>): (r: seq<Event>)
    ensures forall e :: e in r <==> e.Deleted? && HasId(store, e.id) && e.id in gone
    ensures |r| + |Keep(store, gone)| == |store|
  {
    if store == [] then []
    else (if store[0].id in gone then [Deleted(store[0].id)] else []) + DeletedEvents(store[1..], gone)
  }

  /**
   * Deleting device `id`: it and every descendant go, and each removed row puts its `deleted`
   * event on the queue, in store order.
   */
  function DeleteDevice(store: seq<Device>, q: seq<Event>, id: int): (r: Stored)
    ensures forall e :: e in r.store ==> e in store && e.id != id
    ensures forall e :: e in r.store && e.parent.Some? ==> e.parent.value != id
    ensures |r.queue| >= |q| && r.queue[..|q|] == q
    ensures HasId(store, id) ==> Deleted(id) in r.queue[|q|..]
    ensures forall e :: e in r.queue[|q|..] ==> e.Deleted? && HasId(store, e.id)
    ensures r.store == Keep(store, Cascade(store, {id}))
    ensures r.queue == q + DeletedEvents(store, Cascade(store, {id}))
    ensures |r.store| + |r.queue| == |store| + |q|
  {
    var gone := Cascade(store, {id});
    var events := DeletedEvents(store, gone);
    assert (q + events)[..|q|] == q && (q + events)[|q|..] == events;
    Stored(Keep(store, gone), q + events)
  }

  lemma {:induction false} KeepKeepsUnique(store: seq<Device>, gone: set<int>)
    requires UniqueKeys(store)
    ensures UniqueKeys(Keep(store, gone))
    decreases |store|
  {
    if store != [] {
      KeepKeepsUnique(store[1..], gone);
      var tail := Keep(store[1..], gone);
      var r := Keep(store, gone);
      if store[0].id !in gone {
        assert r == [store[0]] + tail;
        forall a, b | 0 <= a < b < |r| ensures r[a].id != r[b].id && r[a].name != r[b].name {
          assert r[b] == tail[b - 1] && r[b] in store[1..];
          if a > 0 {
            assert r[a] == tail[a - 1];
          } else {
            var k :| 0 <= k < |store[1..]| && store[1..][k] == r[b];
            assert store[k + 1] == r[b];
          }
        }
      } else {
        assert r == tail;
      }
    }
  }

  /** A cascading delete keeps a valid store valid: no surviving device loses its parent. */
  lemma DeletePreservesStoreOk(store: seq<Device>, q: seq<Event>, id: int)
    requires StoreOk(store)
    ensures StoreOk(DeleteDevice(store, q, id).store)
  {
    var gone := Cascade(store, {id});
    var s' := Keep(store, gone);
    KeepKeepsUnique(store, gone);
    forall e | e in s' && e.parent.Some? ensures HasId(s', e.parent.value) {
      var p := e.parent.value;
      assert HasId(store, p);
      var g :| g in store && g.id == p;
      assert p !in gone;
      assert g in s';
    }
  }
}

=== FILE: trends_page.dfy ===
/** The trends page: the date it shows and the day-by-day navigation. */
module TrendsPage {
  import opened Wrappers
  import Numerals
  import opened Dates

  /** `getCurrentDate()`: the padded day and month, then the year, each followed by a '.'. */
  function CurrentDate(z: int): (r: string)
    ensures var c := CivilOf(z);
      && |r| == |Numerals.Str(c.year)| + 7
      && r[..2] == Pad2(c.day) && r[2] == '.'
      && r[3..5] == Pad2(c.month) && r[5] == '.'
      && r[6..|r| - 1] == Numerals.Str(c.year) && r[|r| - 1] == '.'
  {
    var c := CivilOf(z);
    Layout(Pad2(c.day), Pad2(c.month), Numerals.Str(c.year));
    Pad2(c.day) + "." + Pad2(c.month) + "." + Numerals.Str(c.year) + "."
  }

  /** Where the three fields sit in `d.m.y.` when the day and month take two characters each. */
  lemma Layout(d: string, m: string, y: string)
    requires |d| == 2 && |m| == 2
    ensures var r := d + "." + m + "." + y + ".";
      && |r| == |y| + 7
      && r[..2] == d && r[2] == '.' && r[3..5] == m && r[5] == '.'
      && r[6..|r| - 1] == y && r[|r| - 1] == '.'
  {
    var r := d + "." + m + "." + y + ".";
    assert r == d + ("." + m + "." + y + ".");
    assert r[3..] == m + "." + y + ".";
    assert r[6..] == y + ".";
  }

  /** Reads a `DD.MM.YYYY.` text back as a day, when it names a valid date. */
  function ParseCurrentDate(r: string): Option<int> {
    if |r| >= 8 && r[2] == '.' && r[5] == '.' && r[|r| - 1] == '.' then
      match (Numerals.ParseInt(r[6..|r| - 1]), Numerals.ParseInt(r[3..5]), Numerals.ParseInt(r[..2]))
      case (Some(y), Some(m), Some(d)) =>
        if Valid(Civil(y, m, d)) then Some(DayNumber(Civil(y, m, d))) else None
      case _ => None
    else
      None
  }

  /** A text whose three fields read as a valid date reads as that date's day. */
  lemma ReadFields(r: string, c: Civil)
    requires |r| >= 8 && r[2] == '.' && r[5] == '.' && r[|r| - 1] == '.'
    requires Numerals.ParseInt(r[6..|r| - 1]) == Some(c.year)
    requires Numerals.ParseInt(r[3..5]) == Some(c.month)
    requires Numerals.ParseInt(r[..2]) == Some(c.day)
    requires Valid(c)
    ensures ParseCurrentDate(r) == Some(DayNumber(c))
  {
  }

  /** The header names exactly the day shown. */
  lemma CurrentDateRoundTrip(z: int)
    ensures ParseCurrentDate(CurrentDate(z)) == Some(z)
  {
    var c := CivilOf(z);
    var r := CurrentDate(z);
    assert |Numerals.Str(c.year)| >= 1 by { Numerals.ParseStr(c.year); }
    assert Numerals.ParseInt(r[6..|r| - 1]) == Some(c.year) by { Numerals.ParseStr(c.year); }
    assert Numerals.ParseInt(r[3..5]) == Some(c.month) by { ParsePad2(c.month); }
    assert Numerals.ParseInt(r[..2]) == Some(c.day) by { ParsePad2(c.day); }
    ReadFields(r, c);
  }

  /** The component's state: the day shown and whether "next" is enabled. */
  datatype View = View(currentDate: int, next: bool)

  /**
   * The page opens on today with "next" disabled; that is the view navigating to today computes,
   * so one step back enables "next" and stepping forward again returns to the opening view.
   */
  function Initial(today: int): (r: View)
    ensures r.currentDate == today && !r.next
    ensures Navigate(r, "previous", today).next
    ensures Navigate(Navigate(r, "previous", today), "next", today) == r
  {
    View(today, false)
  }

  /**
   * `navigate(direction)`: one day forward or back, or the same day for any other direction;
   * "next" is enabled when the local date strings of the new day and of today differ.
   */
  function Navigate(v: View, direction: string, today: int): (r: View)
    ensures direction == "next" ==> r.currentDate == v.currentDate + 1
    ensures direction == "previous" ==> r.currentDate == v.currentDate - 1
    ensures direction != "next" && direction != "previous" ==> r.currentDate == v.currentDate
    ensures r.next <==> r.currentDate != today
  {
    var day :=
      if direction == "next" then v.currentDate + 1
      else if direction == "previous" then v.currentDate - 1
      else v.currentDate;
    CivilOfInjective(day, today);
    View(day, CivilOf(day) != CivilOf(today))
  }

  /** Stepping forward shows the next calendar date; stepping back shows the date before. */
  lemma NavigateFollowsCalendar(v: View, today: int)
    ensures CivilOf(Navigate(v, "next", today).currentDate) == NextDate(CivilOf(v.currentDate))
    ensures NextDate(CivilOf(Navigate(v, "previous", today).currentDate)) == CivilOf(v.currentDate)
  {
    CivilOfNext(v.currentDate);
    CivilOfNext(v.currentDate - 1);
  }

  /** Forward then back returns to the day shown, with "next" recomputed against today. */
  lemma NavigateBackAndForth(v: View, today: int)
    ensures Navigate(Navigate(v, "next", today), "previous", today) == View(v.currentDate, v.currentDate != today)
  {
  }
}

=== FILE: utils.dfy ===
/** Value conversion helpers used when a sensor reading is turned into a semantic value. */
module Utils {

  /** The raw analog scale is reversed with respect to its meaning: `1023 - v`. */
  function InvertAnalogValue(value: int): (r: int)
    ensures value <= 1023 <==> r >= 0
    ensures 0 <= value <= 1023 ==> 0 <= r <= 1023
  {
    (value * -1) + 1023
  }

  /** Inverting twice gives the original reading back. */
  lemma InvertInvolution(v: int)
    ensures InvertAnalogValue(InvertAnalogValue(v)) == v
    ensures InvertAnalogValue(v) == 1023 - v
  {
  }

  function Abs(x: real): (r: real)
    ensures r >= 0.0 && (r == x || r == -x)
  {
    if x < 0.0 then -x else x
  }

  /** The first step of the rescale: the value restricted to the original limits. */
  function Clamp(value: real, originalLower: real, originalUpper: real): (r: real)
    ensures originalLower <= originalUpper ==> originalLower <= r <= originalUpper
    ensures originalLower <= value <= originalUpper ==> r == value
    ensures value < originalLower ==> r == originalLower
  {
    if value < originalLower then originalLower
    else if value > originalUpper then originalUpper
    else value
  }

  /**
   * The linear rescale into `[lower, upper]`, over exact reals (the source's float rounding and its
   * optional `round()` are not modelled). The scale factor is `clamped / originalUpper`, not the
   * position within `[originalLower, originalUpper]`.
   */
  function NormalizeValue(value: real, lower: real, upper: real, originalLower: real, originalUpper: real): (r: real)
    requires originalUpper != 0.0
    ensures 0.0 <= originalLower <= originalUpper && lower <= upper ==> lower <= r <= upper
    ensures 0.0 <= originalLower <= originalUpper && value >= originalUpper ==> r == upper
  {
    var clamped := Clamp(value, originalLower, originalUpper);
    var percentage := Abs(clamped / originalUpper);
    var newRangeMax := upper - lower;
    if 0.0 <= originalLower <= originalUpper then
      RescaleBound(clamped, originalUpper, lower, upper);
      lower + percentage * newRangeMax
    else
      lower + percentage * newRangeMax
  }

  /** A clamped value rescales into `[lower, upper]`, and the upper limit lands on `upper`. */
  lemma RescaleBound(clamped: real, originalUpper: real, lower: real, upper: real)
    requires 0.0 <= clamped <= originalUpper && originalUpper > 0.0
    ensures lower <= upper ==> lower <= lower + Abs(clamped / originalUpper) * (upper - lower) <= upper
    ensures clamped == originalUpper ==> lower + Abs(clamped / originalUpper) * (upper - lower) == upper
  {
    var q := clamped / originalUpper;
    if lower <= upper {
      FractionBound(clamped, originalUpper, upper - lower);
    }
    if clamped == originalUpper {
      assert q == 1.0;
    }
    assert Abs(q) == q;
  }

  /** `0 <= a <= b` and `w >= 0` give `0 <= (a / b) * w <= w`. */
  lemma FractionBound(a: real, b: real, w: real)
    requires 0.0 <= a <= b && b > 0.0 && w >= 0.0
    ensures 0.0 <= (a / b) * w <= w
    ensures a == b ==> (a / b) * w == w
  {
    var q := a / b;
    assert q * b == a;
    assert q >= 0.0 by {
      if q < 0.0 { MulNeg(q, b); }
    }
    assert q <= 1.0 by {
      if q > 1.0 { MulGrow(q - 1.0, b); }
    }
    MulLe(q, 1.0, w);
    if a == b {
      assert q == 1.0;
    }
  }

  lemma MulNeg(x: real, y: real)
    requires x < 0.0 && y > 0.0
    ensures x * y < 0.0
  {
  }

  lemma MulGrow(x: real, y: real)
    requires x > 0.0 && y > 0.0
    ensures (x + 1.0) * y > y
  {
  }

  lemma MulLe(x: real, y: real, w: real)
    requires x <= y && w >= 0.0
    ensures x * w <= y * w
  {
    assert (y - x) * w >= 0.0;
  }

  lemma DivLe(a: real, c: real, b: real)
    requires a <= c && b > 0.0
    ensures a / b <= c / b
  {
    var q := (c - a) / b;
    assert q * b == c - a;
    if q < 0.0 { MulNeg(q, b); }
    assert c / b - a / b == q;
  }

  /** The rescale never decreases when its input grows (for a non-negative original range). */
  lemma NormalizeMonotone(v1: real, v2: real, lower: real, upper: real, originalLower: real, originalUpper: real)
    requires 0.0 <= originalLower <= originalUpper && originalUpper > 0.0 && lower <= upper
    requires v1 <= v2
    ensures NormalizeValue(v1, lower, upper, originalLower, originalUpper)
         <= NormalizeValue(v2, lower, upper, originalLower, originalUpper)
  {
    var c1 := Clamp(v1, originalLower, originalUpper);
    var c2 := Clamp(v2, originalLower, originalUpper);
    assert 0.0 <= c1 <= c2;
    DivLe(c1, c2, originalUpper);
    DivLe(0.0, c1, originalUpper);
    var w := upper - lower;
    MulLe(c1 / originalUpper, c2 / originalUpper, w);
    assert 0.0 / originalUpper == 0.0;
    assert Abs(c1 / originalUpper) == c1 / originalUpper;
    assert Abs(c2 / originalUpper) == c2 / originalUpper;
    assert NormalizeValue(v1, lower, upper, originalLower, originalUpper) == lower + (c1 / originalUpper) * w;
    assert NormalizeValue(v2, lower, upper, originalLower, originalUpper) == lower + (c2 / originalUpper) * w;
  }

  /**
   * Values below the original lower limit are lifted to it first: 150 with limits [200, 1023]
   * rescales like 200, to about 275.95 on [100, 1000].
   */
  lemma NormalizeExamples()
    ensures 275.0 < NormalizeValue(150.0, 100.0, 1000.0, 200.0, 1023.0) < 276.0
    ensures NormalizeValue(150.0, 100.0, 1000.0, 200.0, 1023.0) == NormalizeValue(200.0, 100.0, 1000.0, 200.0, 1023.0)
    ensures 662.0 < NormalizeValue(500.0, 100.0, 1000.0, 0.0, 800.0) < 663.0
    ensures 539.0 < NormalizeValue(500.0, 100.0, 1000.0, 0.0, 1023.0) < 540.0
  {
  }

  /** Python's `int(x)` on a float: truncation toward zero. */
  function Trunc(x: real): (r: int)
    ensures x >= 0.0 ==> r as real <= x < r as real + 1.0
    ensures x < 0.0 ==> r as real - 1.0 < x <= r as real
  {
    if x >= 0.0 then x.Floor else -((-x).Floor)
  }
}

=== FILE: wrappers.dfy ===
/** Failure-compatible result types shared by every module of the model. */
module Wrappers {

  /** A value that may be absent: Python's `None`, a missing key, a failed lookup. */
  datatype Option<+T> = None | Some(value: T)

  /** A computation that either produced a value or raised an error. */
  datatype Result<+T, +E> = Ok(value: T) | Err(error: E)

  /** A check that either passed or raised an error (a validator). */
  datatype Outcome<+E> = Pass | Fail(error: E)
}
